=== FILE: README.md ===
# Declarative attribute schemas and the `Stack` schema, in Dafny

This project models the schema engine of the VOT toolkit
(`vot/utilities/attributes.py`) and the `Stack` schema built on it
(`vot/stack/__init__.py`), and proves properties of the model.

The engine turns parsed data into records typed by field descriptors, then
dumps the records back to plain data. Parsed data means strings, numbers,
booleans, lists and dicts.

A schema type (a subclass of `Attributee`) declares descriptors as class
attributes, and its field list merges the descriptors of its ancestors.
Constructing a record does the following:
- coerces each supplied keyword argument through its descriptor;
- fills in defaults;
- hands the matching arguments to `Include` sub-records;
- reports every missing or unsupported name at once.

The descriptors are:
- `Attribute`, whose coercion is the identity;
- `Number`/`Integer`/`Float`, `Boolean` and `String`, which hand the value to a converter;
- `List` and `Map`, which coerce each item with its index or name as context key;
- `Nested`, `Include` and `Object`, which build sub-records;
- `Object`, in particular, picks the class from a `"type"` entry through a resolver.

`Stack` is a schema type with:
- a required `title`;
- `dataset`, `url` and `deprecated`, which have defaults;
- a required map of experiments.

Each experiment is built by `experiment_resolver`. That resolver injects the
map key as the experiment's identifier and the workspace's storage as its storage.

Modules:
- `Wrappers`: `Option` and `Result`.
- `Dicts`: Python dicts as sequences of pairs. Assigning a name keeps its
  first position and takes the last value.
- `Values`: the Python values the engine sees, as one datatype:
  - `None`, the undefined marker, booleans, numbers and strings;
  - lists, dicts and read-only mappings;
  - records, and external objects such as a workspace.
- `Schema`:
  - descriptors (`Field`, `Kind`) and the registry of schema types;
  - the merged field list, `required` and `Include.filter`.
- `Text`: `str.split` and `str.join` on a separator.
- `Engine`: coercion, construction, the resolvers and the read-only guard.
- `Merging`, `Construction`, `Descriptors`: the properties of field
  merging, construction and coercion.
- `Dump`: `dump` and its properties.
- `RoundTrip`: dumping what construction built.
- `Stacks`: the `Stack` schema, its construction and its container accessors.

Termination follows the source's structure:
- Every registered class has a rank, which is its definition order.
- Ancestors, `Nested` targets and `Include` targets all have a lower rank.
- Coercion recurses on the height of the data.

## Model

| member | source | states |
|---|---|---|
| Engine.MakeField | vot/utilities/attributes.py:44-65 | `Include` given any default fails on the unexpected keyword before its class is looked at; otherwise `Nested` and `Include` over a class that is not a schema type fail; an absent or undefined default leaves the descriptor without one; any other default is the result of coercing it once, and for descriptors set up before that coercion definition fails exactly when the coercion does; `Map` and `Object` fail on every default; a stored default is never the undefined marker and has no mapping left where a record would be built |
| Engine.EarlyCoerce | vot/utilities/attributes.py:260-266 | the coercion `Attribute.__init__` runs on a default agrees with the descriptor's full coercion whenever it succeeds; `List` gets through only with an empty non-string iterable, giving `[]`; `Map` and `Object` always fail, because they set their own attributes only after it |
| Merging.MadeFieldRequired | vot/utilities/attributes.py:57-91 | a defined descriptor is fit to be declared, and is required exactly when it was defined without a default or with the undefined marker, and, for `Nested` and `Include`, its schema type has a required field |
| Merging.MergedFields | vot/utilities/attributes.py:121-148 | the merged field list holds exactly the inherited names and the class's own names; it holds every field of every ancestor; an own name takes the class's descriptor, any other name that of the last ancestor declaring it; every name sits at its first declaration, ancestors first |
| Merging.InheritedKeys | vot/utilities/attributes.py:128-138 | every field an ancestor contributes is inherited, and every inherited field comes from some ancestor |
| Dicts.FromPairsKeepsFirstPosition | vot/utilities/attributes.py:148 | `dict(pairs)` lists each name at the position of its first occurrence |
| Engine.Supplied | vot/utilities/attributes.py:186-192 | a supplied field is built from the value supplied; an absent optional field from its default; an absent required field from nothing, which happens exactly then |
| Construction.LoopTracks | vot/utilities/attributes.py:176-195 | after the loop over the fields, the set attributes are those named or defaulted; the unconsumed and unspecified names are the supplied and declared ones less those assigned and those an `Include` consumed |
| Construction.ConstructOutcome | vot/utilities/attributes.py:173-201 | a `self` keyword fails construction with `DuplicateKeyword`, since `__init__` already binds `self`; otherwise construction fails with the field loop's error (which one is `Construction.ConstructFirstError`); otherwise with `Missing` naming every required field left out; otherwise with `Unsupported` naming every supplied name that no field and no `Include` consumed; otherwise it succeeds with exactly the declared names set |
| Construction.ConstructFirstError | vot/utilities/attributes.py:176-195 | when no keyword is `self`, the declared fields before `j` build without error and field `j` fails (its `Include` record cannot be built from the filtered arguments, or its supplied value or default does not coerce), construction fails with exactly that error, whatever the fields before it assigned; when no field fails, the field loop goes through |
| Construction.LoopError | vot/utilities/attributes.py:176-195 | the field loop fails exactly when some field's step has an error, and then with the error of the first such field (`FirstError`), from any progress |
| Construction.ConstructStores | vot/utilities/attributes.py:179-195 | in a built record, a supplied field holds the coercion of its value; a field left out is not required and holds the coercion of its default; an `Include` field holds the record built from its filtered arguments |
| Construction.MissingRequiredFails | vot/utilities/attributes.py:186-198 | leaving out a required field fails construction, with that name in the `Missing` set once every coercion succeeded and no keyword is `self` |
| Construction.UndeclaredFails | vot/utilities/attributes.py:197-201 | a supplied name the class does not declare fails construction |
| Construction.NestedDefaultUnusable | vot/utilities/attributes.py:186-193 | a `Nested` field whose stored default is a record cannot be left out, because the default is coerced again and a record is not a mapping |
| Construction.FilterKeys | vot/utilities/attributes.py:157-165 | `Include.filter` keeps exactly the supplied names that the included schema understands, recursing through nested `Include`s, each with the value supplied |
| Construction.IncludeCoercesFiltered | vot/utilities/attributes.py:180-182 | an `Include` field is set to the record built from the filtered arguments |
| Engine.SetAttr | vot/utilities/attributes.py:203-207 | setting a declared attribute fails as read-only exactly when the name is declared; any other name is set and nothing else changes |
| Dump.DumpFieldsPlain | vot/utilities/attributes.py:214-219 | over plain fields, the dump loop equals the reference dump that lists each field's dumped value in field order |
| Dump.DumpRecordOrder | vot/utilities/attributes.py:209-221 | without `Include` fields, a record dumps exactly when each field dumps, to the fields' dumped values in merged declaration order |
| Dump.DumpRecordKeys | vot/utilities/attributes.py:209-221 | the names of a record's dump are its plain field names together with the names of its included records' dumps, merged flat |
| Dump.DumpFieldsContributions | vot/utilities/attributes.py:214-219 | the dump loop fails exactly when the fields' contributions do (an attribute missing or not dumping, an included dump that is not a dict), and otherwise assigns them in field order: each name holds its last contribution, or its earlier value if nothing contributes it |
| Dump.DumpRecordValues | vot/utilities/attributes.py:209-221 | a record dumps exactly when its fields' contributions do, to the names contributed, each holding the value of its last contribution, so a later plain or included name overwrites an earlier one |
| RoundTrip.RecordRoundTrip | vot/utilities/attributes.py:173-221 | for a schema type of plain `Attribute` fields, dumping a built record gives, in declaration order, each field's supplied value or, where it was left out, its default |
| RoundTrip.RecordRoundTripSupplied | vot/utilities/attributes.py:173-221 | when every field of such a type was supplied, the dump of the built record holds exactly the supplied names, each with the value supplied |
| RoundTrip.NestedRoundTrip | vot/utilities/attributes.py:76-87 | `Nested` over such a type: the dump of what a mapping coerces to is the dict of each field's value in the mapping (its last one) or its default |
| Schema.Declared | vot/utilities/attributes.py:121-148 | the merged field list of a class, with distinct names, every descriptor fit for the class's rank (its properties are `Merging.MergedFields`) |
| Schema.Required | vot/utilities/attributes.py:57-58 | `required`: no default, and for `Nested`/`Include` also `HasRequired` of the schema type (see `Merging.MadeFieldRequired`) |
| Schema.HasRequired | vot/utilities/attributes.py:66-72 | a schema type has a required declared field (see `Merging.MadeFieldRequired`) |
| Schema.Filter | vot/utilities/attributes.py:157-165 | `Include.filter` takes only entries that were supplied (its names and values are `Construction.FilterKeys`) |
| Engine.Construct | vot/utilities/attributes.py:173-201 | `Attributee.__init__`: a `self` keyword collides with the positional parameter and fails before anything is set; a built record is an instance of the class with the given extra attributes (its outcome is `Construction.ConstructOutcome`) |
| Engine.FieldStep | vot/utilities/attributes.py:179-195 | one turn of the construction loop over the declared fields (see `Construction.LoopTracks`) |
| Engine.Coerce | vot/utilities/attributes.py:47-48 | each descriptor's `coerce`, chosen by kind (see `Descriptors.ScalarCoercion` and the lemmas after it) |
| Engine.CoerceList | vot/utilities/attributes.py:268-277 | `List.coerce` gives a list (see `Descriptors.ListCoercion`) |
| Engine.CoerceMap | vot/utilities/attributes.py:302-310 | `Map.coerce` gives a read-only mapping (see `Descriptors.MapCoercion`) |
| Engine.CoerceNested | vot/utilities/attributes.py:76-82 | `Nested.coerce` gives `None`, the undefined marker or a record (see `Descriptors.NestedCoercion`) |
| Engine.CoerceObject | vot/utilities/attributes.py:349-352 | `Object.coerce` gives a record (see `Descriptors.ObjectCoercion`) |
| Engine.Resolve | vot/utilities/attributes.py:329-341 | a resolver gives a record (see `Descriptors.DefaultResolution` and `Descriptors.InjectingResolution`) |
| Dump.DumpValue | vot/utilities/attributes.py:50-51 | each descriptor's `dump`, chosen by kind (see `Dump.ScalarDump` and the lemmas after it) |
| Dump.DumpRecord | vot/utilities/attributes.py:209-221 | `Attributee.dump` (see `Dump.DumpRecordValues`) |
| Dump.DumpList | vot/utilities/attributes.py:291-292 | `List.dump` gives a list (see `Dump.DumpListOrder`) |
| Dump.DumpMap | vot/utilities/attributes.py:325-326 | `Map.dump` gives a dict (see `Dump.DumpMapNames`) |
| Text.Split | vot/utilities/attributes.py:269 | `str.split` with a non-empty separator: no piece contains the separator (its inverse is `Text.JoinSplit`) |
| Descriptors.ScalarCoercion | vot/utilities/attributes.py:223-258 | `Attribute` keeps the value; `Number`, `Boolean` and `String` succeed exactly when their converter does, with its result; none of them reads the context |
| Dump.ScalarDump | vot/utilities/attributes.py:50-51 | a scalar dumps as itself, so dumping a coerced scalar gives back the coerced value |
| Text.JoinSplit | vot/utilities/attributes.py:269-270 | joining the pieces of a split string with the separator gives back the string |
| Descriptors.ListSplitsStrings | vot/utilities/attributes.py:269-270 | `List` reads a string as its pieces between separators; no piece contains the separator and the pieces join back to the string; an empty separator is an error |
| Descriptors.ListTakesDictValues | vot/utilities/attributes.py:271-272 | `List` reads a dict as its values: one per distinct name, in first-occurrence order, each the last value given |
| Descriptors.ListAcceptsIterables | vot/utilities/attributes.py:268-274 | `List` accepts exactly lists, mappings and strings (given a separator); anything else is not iterable |
| Descriptors.ListCoercion | vot/utilities/attributes.py:268-277 | `List.coerce` succeeds exactly when every item coerces with its index as context key (and the enclosing context has no key or the list is empty), and then holds those coerced items in order |
| Dump.DumpListOrder | vot/utilities/attributes.py:291-292 | `List.dump` keeps length and order, each item dumped |
| Dump.ListRoundTrip | vot/utilities/attributes.py:268-292 | for plain items, coercing a list and dumping it gives the list back |
| Descriptors.MapCoercionSucceeds | vot/utilities/attributes.py:302-310 | `Map.coerce` rejects non-mappings, and succeeds on a mapping exactly when each value coerces with its name as context key (and the enclosing context has no key or the mapping is empty) |
| Descriptors.MapCoercion | vot/utilities/attributes.py:28-40 | a coerced map is a read-only mapping with the dict's names, in order, each once, each holding its coerced value |
| Dump.DumpMapNames | vot/utilities/attributes.py:325-326 | `Map.dump` gives a dict with the same names in the same order, each value dumped |
| Dump.MapRoundTrip | vot/utilities/attributes.py:302-326 | for a dict of plain values with distinct names, coercion gives a read-only mapping of the same entries and its dump is the original dict |
| Descriptors.NestedCoercion | vot/utilities/attributes.py:76-82 | `Nested.coerce` passes `None` and the undefined marker through, rejects non-mappings, and builds the schema type from a mapping, each name with its last value |
| Dump.NestedDump | vot/utilities/attributes.py:84-87 | `Nested.dump` gives `None` for `None` and the record's own dump for a record, and fails on anything else |
| Descriptors.ObjectCoercion | vot/utilities/attributes.py:349-352 | `Object.coerce` rejects non-dicts and calls the resolver once, with the last `"type"` entry (or `None`) as class name and the dict without `"type"` as keywords |
| Descriptors.ObjectKeywords | vot/utilities/attributes.py:351-352 | the keywords `Object.coerce` passes are every name but `"type"`, each with the last value given |
| Dump.ObjectDump | vot/utilities/attributes.py:354-357 | `Object.dump` is the record's own dump with `"type"` set to the record's class name |
| RoundTrip.ObjectRoundTrip | vot/utilities/attributes.py:343-357 | for an `Object` field with the default resolver and a dict whose `"type"` names a schema type of plain fields, dumping what the dict coerces to gives each field's value among the other entries (or its default) with `"type"` set to the class name |
| Descriptors.DefaultResolution | vot/utilities/attributes.py:329-341 | the default resolver builds only a registered schema type named by the class name, from the keywords; an unknown name is not found and a non-schema class is rejected |
| Descriptors.InjectingResolution | vot/stack/__init__.py:15-28 | the experiment resolver builds only the base class or a subclass of it, with `_identifier` set to the context key (or `None`) and `_storage` to the parent workspace's storage (or `None` without a parent) before its fields are constructed |
| Descriptors.InjectingRejectsForeign | vot/stack/__init__.py:16-17 | a known class that does not derive from the base class is refused |
| Stacks.StackDefinable | vot/stack/__init__.py:32-36 | defining `Stack` succeeds exactly when the converters accept its two defaults; with converters that keep them, its body is `title`, `dataset`, `url`, `deprecated`, `experiments` with defaults `""`, `""`, `False` |
| Stacks.StackDeclared | vot/stack/__init__.py:30-36 | the merged field list of `Stack` is its own body, five distinct names in declaration order |
| Stacks.StackRequired | vot/stack/__init__.py:32-36 | exactly `title` and `experiments` are required, and no field is an `Include` |
| Stacks.NewStack | vot/stack/__init__.py:38-41 | a built stack is a `Stack` record holding its workspace, set before construction; a `workspace` keyword, and otherwise a `self` keyword, collides with a positional parameter |
| Stacks.NewStackRequires | vot/stack/__init__.py:32-41 | a stack cannot be built without `title` or without `experiments` |
| Stacks.NewStackRejectsUnknown | vot/stack/__init__.py:30-41 | a stack cannot be built from a name it does not declare |
| Stacks.NewStackTitle | vot/stack/__init__.py:32 | a built stack was given a title that converts to a string, and holds it |
| Stacks.NewStackDataset | vot/stack/__init__.py:33 | a built stack holds `dataset` converted to a string, or `""` when it was left out |
| Stacks.NewStackUrl | vot/stack/__init__.py:34 | a built stack holds `url` converted to a string, or `""` when it was left out |
| Stacks.NewStackDeprecated | vot/stack/__init__.py:35 | a built stack holds `deprecated` converted to a boolean, or `False` when it was left out |
| Stacks.ExperimentEntry | vot/stack/__init__.py:15-28 | coercing one experiment entry builds, from a dict, a class deriving from `Experiment` named by `"type"`, with the entry's name as identifier, the workspace's storage, and the dict's other entries as keywords |
| Stacks.NewStackExperiments | vot/stack/__init__.py:36 | a built stack's experiments are a read-only mapping with the names of the supplied dict, in order, each once, each holding the experiment built from its entry |
| Stacks.Length | vot/stack/__init__.py:50-51 | `len(stack)`, the number of experiments (see `Stacks.StackAccess`) |
| Stacks.Iter | vot/stack/__init__.py:47-48 | iteration over the experiments in map order (see `Stacks.StackAccess`) |
| Stacks.Item | vot/stack/__init__.py:53-54 | `stack[identifier]` (see `Stacks.StackAccess`) |
| Stacks.StackAccess | vot/stack/__init__.py:47-54 | `len(stack)` is the number of experiments, iteration yields them in map order, `stack[id]` is the experiment named `id`, and exactly the unknown names find nothing |

## Left out

- `Callable` (attributes.py:367-391) is left out: it rests on dynamic import, Python's `callable` and a `resname` attribute written on foreign objects.
- `resolve_stack` and `list_integrated_stacks` (stack/__init__.py:56 onwards), and `vot/workspace.py`, are not part of this model: they are filesystem, YAML and cache handling.
- The converters `to_number`, `to_logical` and `to_string` are parameters. The model does not know their internals. `Number`'s bounds and conversion are passed to the converter as they are.
- `import_class` becomes a lookup of the class name in the registry. Its module hints are not modelled. `class_fullname` is the registry name.
- `Float` precision is not modelled: numbers are reals, and `Integer`/`Float` differ only in the conversion tag handed to the converter.
- Python reflection becomes explicit data:
  - `inspect.getmro` becomes each class's ancestor list, root first;
  - the metaclass popping descriptors off the class becomes each class's own field list;
  - bases without `_declared_attributes` contribute their own descriptors.
- Resolvers form a closed set: the default resolver and the experiment resolver of `vot/stack/__init__.py` (`Resolver` in `Schema`). `Object(resolver=...)` accepts any callable in Python; other resolvers are not modelled.
- The experiment resolver calls `experiment_class(_identifier=..., _storage=..., **kwargs)`. `Experiment.__init__` is not part of this model. The model assumes it stores `_identifier` and `_storage` as attributes and hands the other keywords to `Attributee.__init__`, and builds the record that way: the two become extra attributes, set before the fields are constructed.
- `vot.experiment` is not part of this model. Experiment classes are registry entries that name `Experiment` among their ancestors.
- The stack's `workspace` property is the record's `_workspace` attribute, set before construction. The resolver reads `workspace.storage` through it.
- Python's `TypeError` on a keyword given twice is the error `DuplicateKeyword`. This includes a keyword `self`, which every `**kwargs` call into `Attributee.__init__`, `Include.filter` or `Stack.__init__` binds positionally; `Construct` refuses it before `Include.filter` could see it.
- Stacks.NewStack: when both `workspace` and `self` are given, the error names `workspace`; Python names whichever of the two comes first in the keyword order. Both are the same `TypeError`. The `assert`s in `Nested.coerce`, `Object.coerce` and the resolvers are errors too.
- Error messages are not modelled. `Missing` and `Unsupported` carry the name sets that the messages list.
- `Map`'s `container` parameter is always `dict`.
- `List`'s separator is a string. `List(..., separator=None)`, which makes `str.split` cut at runs of whitespace (attributes.py:262, 269), is not modelled. No descriptor in these files passes `None`.
- `dump`'s `getattr` fallback to the default (attributes.py:217, 219) is an error in the model. A successfully built record has every declared attribute, so the fallback is never reached for one. `Include.default` (attributes.py:167-169) serves only that fallback.
- `Engine.EarlyCoerce` reproduces the order of setup for defaults. `List`, `Map` and `Object` set their own attributes after `Attribute.__init__` has coerced the default, so `Map` and `Object` fail on every default and `List` accepts only an empty one. The model reports these `AttributeError`s as `NotInitialised`.
- The pylint-only stubs are left out: `__getattr__`, `__setattr__` on descriptors, and `__iter__`, `__getitem__`, `__setitem__`, `__call__`.
- An absent optional field stores its default passed through `coerce` again (attributes.py:188-193), not the stored default itself. The model follows the code. `Construction.NestedDefaultUnusable` shows one consequence.
- Stacks.NewStackDataset: requires converters that keep `""` and `False` (`KeepsDefaults`), because the converters are parameters; the stored default is the converter's output on the default.
- Stacks.NewStackUrl: requires `KeepsDefaults`, for the same reason.
- Stacks.NewStackDeprecated: requires `KeepsDefaults`, for the same reason.
- Stacks.StackDefinable: the rest of the `Stack` lemmas use the body that converters keeping the defaults give (`StackBody`), not the body for arbitrary converters.
- Dump.DumpRecordOrder: covers classes without `Include` fields only. With `Include` fields, `Dump.DumpRecordKeys` and `Dump.DumpRecordValues` state the dumped names and the value each holds, not their order.
- Construction.UndeclaredFails: covers classes without `Include` fields only. With them, `Construction.ConstructOutcome` states the unsupported set, which takes away the names the `Include`s consume.
- Dump.ListRoundTrip: covers items of the base `Attribute` only, whose coercion and dump are the identity.
- Dump.MapRoundTrip: covers values of the base `Attribute` only, whose coercion and dump are the identity.
- RoundTrip.RecordRoundTrip: covers schema types whose fields are all plain `Attribute`s. A `Number`, `Boolean` or `String` field stores its converter's output, and the converters are parameters. `List`, `Map`, `Nested` and `Object` fields have round trips of their own (`Dump.ListRoundTrip`, `Dump.MapRoundTrip`, `RoundTrip.NestedRoundTrip`, `RoundTrip.ObjectRoundTrip`), which are not composed inside a record. And a `Nested` field left out with a record default fails (`Construction.NestedDefaultUnusable`).
- RoundTrip.NestedRoundTrip: covers nested schema types whose fields are all plain `Attribute`s, for the same reason.
- RoundTrip.ObjectRoundTrip: covers the default resolver over schema types whose fields are all plain `Attribute`s, for the same reason. The experiment resolver also sets `_identifier` and `_storage`, which `dump` leaves out.

=== FILE: construction.dfy ===
/** Properties of record construction (`Attributee.__init__`) and of
    `Include.filter`: which supplied names are consumed, which declared names
    are reported missing or unsupported, and what each attribute holds. */
module Construction {
  import opened Wrappers
  import opened Dicts
  import opened Values
  import opened Schema
  import opened Engine

  /** The name the step for field `name` assigns: an `Include` always, any
      other field when it was supplied or is optional. */
  function AssignedBy(reg: Registry, name: string, f: Field, kw: seq<(string, Val)>, r: nat): set<string>
    requires WellFormed(reg) && FieldOk(reg, f, r)
  {
    if IsInclude(f) || name in Keys(kw) || !Required(reg, f, r) then {name} else {}
  }

  /** The supplied names the step hands to an `Include`. */
  function FilteredBy(reg: Registry, f: Field, kw: seq<(string, Val)>): set<string>
    requires WellFormed(reg) && RefsKnown(reg, f)
  {
    if IsInclude(f) then Keys(Filter(reg, f.kind.schema, kw)) else {}
  }

  /** The name of a required non-Include field that was not supplied. */
  function AbsentBy(reg: Registry, name: string, f: Field, kw: seq<(string, Val)>, r: nat): set<string>
    requires WellFormed(reg) && FieldOk(reg, f, r)
  {
    if !IsInclude(f) && name !in Keys(kw) && Required(reg, f, r) then {name} else {}
  }

  /** The names of the fields from index `i` on that the loop assigns. */
  function Assigned(reg: Registry, fields: seq<(string, Field)>, i: nat, kw: seq<(string, Val)>, r: nat): set<string>
    requires WellFormed(reg) && FieldsOk(reg, fields, r) && i <= |fields|
    decreases |fields| - i
  {
    if i == |fields| then {}
    else
      assert FieldOk(reg, fields[i].1, r);
      AssignedBy(reg, fields[i].0, fields[i].1, kw, r) + Assigned(reg, fields, i + 1, kw, r)
  }

  /** The supplied names handed to the `Include` fields from index `i` on. */
  function Filtered(reg: Registry, fields: seq<(string, Field)>, i: nat, kw: seq<(string, Val)>, r: nat): set<string>
    requires WellFormed(reg) && FieldsOk(reg, fields, r) && i <= |fields|
    decreases |fields| - i
  {
    if i == |fields| then {}
    else
      assert FieldOk(reg, fields[i].1, r);
      FilteredBy(reg, fields[i].1, kw) + Filtered(reg, fields, i + 1, kw, r)
  }

  /** Without `Include` fields nothing is handed on to an included record. */
  lemma {:induction false} NoIncludeFiltered(reg: Registry, fields: seq<(string, Field)>, i: nat, kw: seq<(string, Val)>, r: nat)
    requires WellFormed(reg) && FieldsOk(reg, fields, r) && i <= |fields|
    requires forall j :: i <= j < |fields| ==> !IsInclude(fields[j].1)
    ensures Filtered(reg, fields, i, kw, r) == {}
    decreases |fields| - i
  {
    if i < |fields| {
      NoIncludeFiltered(reg, fields, i + 1, kw, r);
    }
  }

  /** The names of the required non-Include fields from index `i` on that
      were not supplied. */
  function RequiredAbsent(reg: Registry, fields: seq<(string, Field)>, i: nat, kw: seq<(string, Val)>, r: nat): set<string>
    requires WellFormed(reg) && FieldsOk(reg, fields, r) && i <= |fields|
    decreases |fields| - i
  {
    if i == |fields| then {}
    else
      assert FieldOk(reg, fields[i].1, r);
      AbsentBy(reg, fields[i].0, fields[i].1, kw, r) + RequiredAbsent(reg, fields, i + 1, kw, r)
  }

  /** The loop over the declared fields of schema type `n`, as construction
      runs it. */
  function FieldLoop(reg: Registry, cv: Converters, n: string, kw: seq<(string, Val)>, extra: seq<(string, Val)>): Result<Progress, Error>
    requires WellFormed(reg) && n in reg
  {
    var fields := Declared(reg, n);
    ConstructFields(reg, cv, fields, 0, kw, Context(None, Some(Parent(n, extra))),
      Progress([], Keys(kw), Keys(fields)), reg[n].rank)
  }

  lemma DrawnKeys(d: seq<(string, Val)>, kw: seq<(string, Val)>)
    requires DrawnFrom(d, kw)
    ensures Keys(d) <= Keys(kw)
  {
    forall k | k in Keys(d) ensures k in Keys(kw) {
      var v := Get(d, k).value;
      assert (k, v) in kw;
      var j :| 0 <= j < |kw| && kw[j] == (k, v);
      assert KeySeq(kw)[j] == k;
    }
  }

  /** One step assigns its field's name (unless an absent required field is
      skipped) and removes it, and the names it hands to an `Include`, from
      the unconsumed and unspecified names. */
  lemma StepTracks(reg: Registry, cv: Converters, name: string, f: Field, kw: seq<(string, Val)>,
                   ctx: Context, p: Progress, r: nat)
    requires WellFormed(reg) && FieldOk(reg, f, r)
    requires FieldStep(reg, cv, name, f, kw, ctx, p, r).Ok?
    ensures var q := FieldStep(reg, cv, name, f, kw, ctx, p, r).value;
      var taken := AssignedBy(reg, name, f, kw, r);
      var filtered := FilteredBy(reg, f, kw);
      && Keys(q.attrs) == Keys(p.attrs) + taken
      && q.unconsumed == p.unconsumed - taken - filtered
      && q.unspecified == p.unspecified - taken - filtered
  {
  }

  /** One turn of the loop: the step for field `i` succeeds and the loop
      carries on from its progress. */
  lemma LoopUnfold(reg: Registry, cv: Converters, fields: seq<(string, Field)>, i: nat,
                   kw: seq<(string, Val)>, ctx: Context, p: Progress, r: nat)
    requires WellFormed(reg) && FieldsOk(reg, fields, r) && i < |fields|
    requires ConstructFields(reg, cv, fields, i, kw, ctx, p, r).Ok?
    ensures FieldOk(reg, fields[i].1, r)
    ensures FieldStep(reg, cv, fields[i].0, fields[i].1, kw, ctx, p, r).Ok?
    ensures ConstructFields(reg, cv, fields, i, kw, ctx, p, r)
         == ConstructFields(reg, cv, fields, i + 1, kw, ctx, FieldStep(reg, cv, fields[i].0, fields[i].1, kw, ctx, p, r).value, r)
  {
    assert FieldOk(reg, fields[i].1, r);
  }

  lemma SubtractTwice(s: set<string>, a: set<string>, f: set<string>, a': set<string>, f': set<string>)
    ensures s - a - f - a' - f' == s - (a + a') - (f + f')
  {
  }

  /** Along the loop, the assigned attributes grow by `Assigned`, and both
      the unconsumed and the unspecified names lose the assigned and the
      filtered names. */
  lemma {:induction false} LoopTracks(reg: Registry, cv: Converters, fields: seq<(string, Field)>, i: nat,
                                      kw: seq<(string, Val)>, ctx: Context, p: Progress, r: nat)
    requires WellFormed(reg) && FieldsOk(reg, fields, r) && i <= |fields|
    requires ConstructFields(reg, cv, fields, i, kw, ctx, p, r).Ok?
    ensures var q := ConstructFields(reg, cv, fields, i, kw, ctx, p, r).value;
      && Keys(q.attrs) == Keys(p.attrs) + Assigned(reg, fields, i, kw, r)
      && q.unconsumed == p.unconsumed - Assigned(reg, fields, i, kw, r) - Filtered(reg, fields, i, kw, r)
      && q.unspecified == p.unspecified - Assigned(reg, fields, i, kw, r) - Filtered(reg, fields, i, kw, r)
    decreases |fields| - i
  {
    if i < |fields| {
      LoopUnfold(reg, cv, fields, i, kw, ctx, p, r);
      var next := FieldStep(reg, cv, fields[i].0, fields[i].1, kw, ctx, p, r).value;
      var here := AssignedBy(reg, fields[i].0, fields[i].1, kw, r);
      var handed := FilteredBy(reg, fields[i].1, kw);
      var later := Assigned(reg, fields, i + 1, kw, r);
      var laterHanded := Filtered(reg, fields, i + 1, kw, r);
      StepTracks(reg, cv, fields[i].0, fields[i].1, kw, ctx, p, r);
      LoopTracks(reg, cv, fields, i + 1, kw, ctx, next, r);
      SubtractTwice(p.unconsumed, here, handed, later, laterHanded);
      SubtractTwice(p.unspecified, here, handed, later, laterHanded);
    }
  }

  lemma KeysSuffix(fields: seq<(string, Field)>, i: nat)
    requires i < |fields|
    ensures Keys(fields[i..]) == {fields[i].0} + Keys(fields[i + 1..])
  {
    KeysCons(fields[i..]);
    assert fields[i..][1..] == fields[i + 1..];
  }

  lemma UniqueNotLater(fields: seq<(string, Field)>, i: nat)
    requires UniqueKeys(fields) && i < |fields|
    ensures fields[i].0 !in Keys(fields[i + 1..])
  {
    var ks := KeySeq(fields[i + 1..]);
    forall t | 0 <= t < |ks| ensures ks[t] != fields[i].0 {
      assert ks[t] == fields[i + 1 + t].0;
    }
  }

  /** How the assigned, filtered and missing names relate to the declared
      and supplied names. */
  lemma {:induction false} AssignedComplement(reg: Registry, fields: seq<(string, Field)>, i: nat, kw: seq<(string, Val)>, r: nat)
    requires WellFormed(reg) && FieldsOk(reg, fields, r) && i <= |fields| && UniqueKeys(fields)
    ensures Assigned(reg, fields, i, kw, r) <= Keys(fields[i..])
    ensures Keys(fields[i..]) - Assigned(reg, fields, i, kw, r) == RequiredAbsent(reg, fields, i, kw, r)
    ensures Keys(kw) * Keys(fields[i..]) <= Assigned(reg, fields, i, kw, r)
    ensures RequiredAbsent(reg, fields, i, kw, r) * Keys(kw) == {}
    ensures Filtered(reg, fields, i, kw, r) <= Keys(kw)
    decreases |fields| - i
  {
    if i == |fields| {
      assert fields[i..] == [];
    } else {
      assert FieldOk(reg, fields[i].1, r);
      AssignedComplement(reg, fields, i + 1, kw, r);
      KeysSuffix(fields, i);
      UniqueNotLater(fields, i);
      if IsInclude(fields[i].1) {
        DrawnKeys(Filter(reg, fields[i].1.kind.schema, kw), kw);
      }
    }
  }

  /** Construction refuses a `self` keyword, then runs the field loop, then
      reports unspecified names, then unconsumed names. */
  lemma ConstructViaLoop(reg: Registry, cv: Converters, n: string, kw: seq<(string, Val)>, extra: seq<(string, Val)>)
    requires WellFormed(reg) && n in reg
    ensures "self" in Keys(kw) ==> Construct(reg, cv, n, kw, extra) == Err(DuplicateKeyword("self"))
    ensures var loop := FieldLoop(reg, cv, n, kw, extra);
      "self" !in Keys(kw) ==>
      && (loop.Err? ==> Construct(reg, cv, n, kw, extra) == Err(loop.error))
      && (loop.Ok? && loop.value.unspecified != {} ==> Construct(reg, cv, n, kw, extra) == Err(Missing(loop.value.unspecified)))
      && (loop.Ok? && loop.value.unspecified == {} && loop.value.unconsumed != {} ==>
            Construct(reg, cv, n, kw, extra) == Err(Unsupported(loop.value.unconsumed)))
      && (loop.Ok? && loop.value.unspecified == {} && loop.value.unconsumed == {} ==>
            Construct(reg, cv, n, kw, extra) == Ok(VInstance(n, loop.value.attrs, extra)))
  {
  }

  /** The set algebra behind the outcome of construction: with the assigned
      names among the declared ones, covering every supplied declared name,
      and the filtered names among the supplied ones, what stays unspecified
      is the missing names, and what stays unconsumed is the supplied names
      neither declared nor filtered. */
  lemma OutcomeSets(declared: set<string>, supplied: set<string>, given: set<string>,
                    filtered: set<string>, missing: set<string>)
    requires given <= declared && declared - given == missing
    requires supplied * declared <= given && missing * supplied == {} && filtered <= supplied
    ensures declared - given - filtered == missing
    ensures supplied - given - filtered == supplied - declared - filtered
  {
  }

  /** Construction succeeds exactly when no keyword is `self`, every field's
      coercion succeeds, no required field is missing and every supplied
      name is consumed; it reports
      - `DuplicateKeyword("self")` for a keyword `self`, else
      - the field loop's error (`ConstructFirstError`: the first failing
        field's), else
      - `Missing` with every required non-Include name not supplied, else
      - `Unsupported` with every supplied name that is neither a declared
        name nor handed to an `Include`.
      The missing names are reported first. A record that is built carries
      exactly the declared names. */
  lemma ConstructOutcome(reg: Registry, cv: Converters, n: string, kw: seq<(string, Val)>, extra: seq<(string, Val)>)
    requires WellFormed(reg) && n in reg
    ensures "self" in Keys(kw) ==> Construct(reg, cv, n, kw, extra) == Err(DuplicateKeyword("self"))
    ensures var fields := Declared(reg, n);
      var r := reg[n].rank;
      var loop := FieldLoop(reg, cv, n, kw, extra);
      var missing := RequiredAbsent(reg, fields, 0, kw, r);
      var unsupported := Keys(kw) - Keys(fields) - Filtered(reg, fields, 0, kw, r);
      "self" !in Keys(kw) ==>
      && (loop.Err? ==> Construct(reg, cv, n, kw, extra) == Err(loop.error))
      && (loop.Ok? && missing != {} ==> Construct(reg, cv, n, kw, extra) == Err(Missing(missing)))
      && (loop.Ok? && missing == {} && unsupported != {} ==>
            Construct(reg, cv, n, kw, extra) == Err(Unsupported(unsupported)))
      && (loop.Ok? && missing == {} && unsupported == {} ==>
            Construct(reg, cv, n, kw, extra) == Ok(VInstance(n, loop.value.attrs, extra))
            && Keys(loop.value.attrs) == Keys(fields))
  {
    var fields := Declared(reg, n);
    var r := reg[n].rank;
    var loop := FieldLoop(reg, cv, n, kw, extra);
    ConstructViaLoop(reg, cv, n, kw, extra);
    if loop.Ok? {
      LoopTracks(reg, cv, fields, 0, kw, Context(None, Some(Parent(n, extra))),
        Progress([], Keys(kw), Keys(fields)), r);
      AssignedComplement(reg, fields, 0, kw, r);
      assert fields[0..] == fields;
      OutcomeSets(Keys(fields), Keys(kw), Assigned(reg, fields, 0, kw, r), Filtered(reg, fields, 0, kw, r),
        RequiredAbsent(reg, fields, 0, kw, r));
    }
  }

  /** One step stores its field's value and leaves every other name
      alone. */
  lemma StepStores(reg: Registry, cv: Converters, name: string, f: Field, kw: seq<(string, Val)>,
                   ctx: Context, p: Progress, r: nat)
    requires WellFormed(reg) && FieldOk(reg, f, r)
    requires FieldStep(reg, cv, name, f, kw, ctx, p, r).Ok?
    ensures var q := FieldStep(reg, cv, name, f, kw, ctx, p, r).value;
      && (IsInclude(f) ==>
            var sub := Construct(reg, cv, f.kind.schema, Filter(reg, f.kind.schema, kw), []);
            sub.Ok? && Get(q.attrs, name) == Some(sub.value))
      && (!IsInclude(f) && Supplied(reg, f, r, name, kw).Some? ==>
            var c := Coerce(reg, cv, f, Supplied(reg, f, r, name, kw).value, ctx);
            c.Ok? && Get(q.attrs, name) == Some(c.value))
      && forall k :: k != name ==> Get(q.attrs, k) == Get(p.attrs, k)
  {
    var q := FieldStep(reg, cv, name, f, kw, ctx, p, r).value;
    forall k | k != name ensures Get(q.attrs, k) == Get(p.attrs, k) {
      if q.attrs != p.attrs {
        PutGetOther(p.attrs, name, Get(q.attrs, name).value, k);
      }
    }
  }

  /** The loop from index `i` on leaves alone a name no later field has. */
  lemma {:induction false} LaterKeepsValue(reg: Registry, cv: Converters, fields: seq<(string, Field)>, i: nat,
                                           kw: seq<(string, Val)>, ctx: Context, p: Progress, r: nat, name: string)
    requires WellFormed(reg) && FieldsOk(reg, fields, r) && i <= |fields|
    requires name !in Keys(fields[i..])
    requires ConstructFields(reg, cv, fields, i, kw, ctx, p, r).Ok?
    ensures Get(ConstructFields(reg, cv, fields, i, kw, ctx, p, r).value.attrs, name) == Get(p.attrs, name)
    decreases |fields| - i
  {
    if i < |fields| {
      assert FieldOk(reg, fields[i].1, r);
      KeysSuffix(fields, i);
      var next := FieldStep(reg, cv, fields[i].0, fields[i].1, kw, ctx, p, r).value;
      StepStores(reg, cv, fields[i].0, fields[i].1, kw, ctx, p, r);
      LaterKeepsValue(reg, cv, fields, i + 1, kw, ctx, next, r, name);
    }
  }

  /** After the loop, each field from index `i` on holds what its step
      computed: an `Include` the record built from the filtered arguments,
      any other field the coercion of its supplied value or default. */
  lemma {:induction false} LoopStores(reg: Registry, cv: Converters, fields: seq<(string, Field)>, i: nat,
                                      kw: seq<(string, Val)>, ctx: Context, p: Progress, r: nat, j: nat)
    requires WellFormed(reg) && FieldsOk(reg, fields, r) && UniqueKeys(fields) && i <= j < |fields|
    requires ConstructFields(reg, cv, fields, i, kw, ctx, p, r).Ok?
    ensures var q := ConstructFields(reg, cv, fields, i, kw, ctx, p, r).value;
      var f := fields[j].1;
      && (IsInclude(f) ==>
            var sub := Construct(reg, cv, f.kind.schema, Filter(reg, f.kind.schema, kw), []);
            sub.Ok? && Get(q.attrs, fields[j].0) == Some(sub.value))
      && (!IsInclude(f) && Supplied(reg, f, r, fields[j].0, kw).Some? ==>
            var c := Coerce(reg, cv, f, Supplied(reg, f, r, fields[j].0, kw).value, ctx);
            c.Ok? && Get(q.attrs, fields[j].0) == Some(c.value))
    decreases |fields| - i
  {
    assert FieldOk(reg, fields[i].1, r);
    var next := FieldStep(reg, cv, fields[i].0, fields[i].1, kw, ctx, p, r).value;
    if j > i {
      LoopStores(reg, cv, fields, i + 1, kw, ctx, next, r, j);
    } else {
      StepStores(reg, cv, fields[i].0, fields[i].1, kw, ctx, p, r);
      UniqueNotLater(fields, i);
      LaterKeepsValue(reg, cv, fields, i + 1, kw, ctx, next, r, fields[i].0);
    }
  }

  /** What a constructed record holds in declared field `j`:
      - a supplied non-Include field: the coercion of the supplied value;
      - an absent non-Include field: it is optional, and holds the coercion
        of its stored default (the undefined marker when it has none);
      - an `Include`: the record of the included schema type built from the
        filtered arguments.
      Every coercion runs with the record under construction as parent. */
  lemma ConstructStores(reg: Registry, cv: Converters, n: string, kw: seq<(string, Val)>, extra: seq<(string, Val)>, j: nat)
    requires WellFormed(reg) && n in reg && j < |Declared(reg, n)|
    requires Construct(reg, cv, n, kw, extra).Ok?
    ensures var fields := Declared(reg, n);
      var name := fields[j].0;
      var f := fields[j].1;
      var r := reg[n].rank;
      var ctx := Context(None, Some(Parent(n, extra)));
      var attrs := Construct(reg, cv, n, kw, extra).value.attrs;
      && (!IsInclude(f) && name in Keys(kw) ==>
            var c := Coerce(reg, cv, f, Get(kw, name).value, ctx);
            c.Ok? && Get(attrs, name) == Some(c.value))
      && (!IsInclude(f) && name !in Keys(kw) ==>
            var c := Coerce(reg, cv, f, DefaultValue(f), ctx);
            !Required(reg, f, r) && c.Ok? && Get(attrs, name) == Some(c.value))
      && (IsInclude(f) ==>
            var sub := Construct(reg, cv, f.kind.schema, Filter(reg, f.kind.schema, kw), []);
            sub.Ok? && Get(attrs, name) == Some(sub.value))
  {
    var fields := Declared(reg, n);
    var r := reg[n].rank;
    ConstructOutcome(reg, cv, n, kw, extra);
    var loop := FieldLoop(reg, cv, n, kw, extra);
    assert FieldOk(reg, fields[j].1, r);
    if !IsInclude(fields[j].1) && fields[j].0 !in Keys(kw) && Required(reg, fields[j].1, r) {
      RequiredAbsentHas(reg, fields, 0, kw, r, j);
      assert false;
    }
    LoopStores(reg, cv, fields, 0, kw, Context(None, Some(Parent(n, extra))),
      Progress([], Keys(kw), Keys(fields)), r, j);
  }

  lemma {:induction false} RequiredAbsentHas(reg: Registry, fields: seq<(string, Field)>, i: nat, kw: seq<(string, Val)>, r: nat, j: nat)
    requires WellFormed(reg) && FieldsOk(reg, fields, r) && i <= j < |fields|
    requires !IsInclude(fields[j].1) && fields[j].0 !in Keys(kw) && Required(reg, fields[j].1, r)
    ensures fields[j].0 in RequiredAbsent(reg, fields, i, kw, r)
    decreases |fields| - i
  {
    if i < j {
      RequiredAbsentHas(reg, fields, i + 1, kw, r, j);
    }
  }

  /** A field whose coercion fails makes the whole loop fail. */
  lemma {:induction false} LoopFails(reg: Registry, cv: Converters, fields: seq<(string, Field)>, i: nat,
                                     kw: seq<(string, Val)>, ctx: Context, p: Progress, r: nat, j: nat)
    requires WellFormed(reg) && FieldsOk(reg, fields, r) && i <= j < |fields|
    requires !IsInclude(fields[j].1) && Supplied(reg, fields[j].1, r, fields[j].0, kw).Some?
    requires Coerce(reg, cv, fields[j].1, Supplied(reg, fields[j].1, r, fields[j].0, kw).value, ctx).Err?
    ensures ConstructFields(reg, cv, fields, i, kw, ctx, p, r).Err?
    decreases |fields| - i
  {
    assert FieldOk(reg, fields[i].1, r);
    var step := FieldStep(reg, cv, fields[i].0, fields[i].1, kw, ctx, p, r);
    if j > i && step.Ok? {
      LoopFails(reg, cv, fields, i + 1, kw, ctx, step.value, r, j);
    }
  }

  /** The error the step for field `name` stops the loop with, whatever the
      loop has built before it: the failure to build an `Include`'s record
      from the filtered arguments, or the failed coercion of a non-Include
      field's supplied value or default. `None` when the step goes through. */
  function StepError(reg: Registry, cv: Converters, name: string, f: Field,
                     kw: seq<(string, Val)>, ctx: Context, r: nat): Option<Error>
    requires WellFormed(reg) && FieldOk(reg, f, r)
  {
    if IsInclude(f) then
      var sub := Construct(reg, cv, f.kind.schema, Filter(reg, f.kind.schema, kw), []);
      if sub.Err? then Some(sub.error) else None
    else
      match Supplied(reg, f, r, name, kw)
      case None => None
      case Some(s) =>
        var c := Coerce(reg, cv, f, s, ctx);
        if c.Err? then Some(c.error) else None
  }

  /** A step fails exactly when its field has an error, and with that
      error, from any progress. */
  lemma StepErrorAgrees(reg: Registry, cv: Converters, name: string, f: Field,
                        kw: seq<(string, Val)>, ctx: Context, p: Progress, r: nat)
    requires WellFormed(reg) && FieldOk(reg, f, r)
    ensures FieldStep(reg, cv, name, f, kw, ctx, p, r).Err? <==> StepError(reg, cv, name, f, kw, ctx, r).Some?
    ensures FieldStep(reg, cv, name, f, kw, ctx, p, r).Err? ==>
      FieldStep(reg, cv, name, f, kw, ctx, p, r).error == StepError(reg, cv, name, f, kw, ctx, r).value
  {
  }

  /** The error of the first field from index `i` on that has one. */
  function FirstError(reg: Registry, cv: Converters, fields: seq<(string, Field)>, i: nat,
                      kw: seq<(string, Val)>, ctx: Context, r: nat): Option<Error>
    requires WellFormed(reg) && FieldsOk(reg, fields, r) && i <= |fields|
    decreases |fields| - i
  {
    if i == |fields| then None
    else
      assert FieldOk(reg, fields[i].1, r);
      var e := StepError(reg, cv, fields[i].0, fields[i].1, kw, ctx, r);
      if e.Some? then e else FirstError(reg, cv, fields, i + 1, kw, ctx, r)
  }

  /** The loop from index `i` on fails exactly when some field has an
      error, and then with the first such error, from any progress. */
  lemma {:induction false} LoopError(reg: Registry, cv: Converters, fields: seq<(string, Field)>, i: nat,
                                     kw: seq<(string, Val)>, ctx: Context, p: Progress, r: nat)
    requires WellFormed(reg) && FieldsOk(reg, fields, r) && i <= |fields|
    ensures ConstructFields(reg, cv, fields, i, kw, ctx, p, r).Err? <==> FirstError(reg, cv, fields, i, kw, ctx, r).Some?
    ensures ConstructFields(reg, cv, fields, i, kw, ctx, p, r).Err? ==>
      ConstructFields(reg, cv, fields, i, kw, ctx, p, r).error == FirstError(reg, cv, fields, i, kw, ctx, r).value
    decreases |fields| - i
  {
    if i < |fields| {
      LoopStep(reg, cv, fields, i, kw, ctx, p, r);
      FirstErrorStep(reg, cv, fields, i, kw, ctx, r);
      StepErrorAgrees(reg, cv, fields[i].0, fields[i].1, kw, ctx, p, r);
      var step := FieldStep(reg, cv, fields[i].0, fields[i].1, kw, ctx, p, r);
      if step.Ok? {
        LoopError(reg, cv, fields, i + 1, kw, ctx, step.value, r);
      }
    }
  }

  /** One turn of the loop: its step's error, or the rest of the loop from
      the step's progress. */
  lemma LoopStep(reg: Registry, cv: Converters, fields: seq<(string, Field)>, i: nat,
                 kw: seq<(string, Val)>, ctx: Context, p: Progress, r: nat)
    requires WellFormed(reg) && FieldsOk(reg, fields, r) && i < |fields|
    ensures FieldOk(reg, fields[i].1, r)
    ensures var step := FieldStep(reg, cv, fields[i].0, fields[i].1, kw, ctx, p, r);
      ConstructFields(reg, cv, fields, i, kw, ctx, p, r)
        == if step.Err? then Err(step.error) else ConstructFields(reg, cv, fields, i + 1, kw, ctx, step.value, r)
  {
    assert FieldOk(reg, fields[i].1, r);
  }

  lemma FirstErrorStep(reg: Registry, cv: Converters, fields: seq<(string, Field)>, i: nat,
                       kw: seq<(string, Val)>, ctx: Context, r: nat)
    requires WellFormed(reg) && FieldsOk(reg, fields, r) && i < |fields|
    ensures FieldOk(reg, fields[i].1, r)
    ensures StepError(reg, cv, fields[i].0, fields[i].1, kw, ctx, r).Some? ==>
      FirstError(reg, cv, fields, i, kw, ctx, r) == StepError(reg, cv, fields[i].0, fields[i].1, kw, ctx, r)
    ensures StepError(reg, cv, fields[i].0, fields[i].1, kw, ctx, r).None? ==>
      FirstError(reg, cv, fields, i, kw, ctx, r) == FirstError(reg, cv, fields, i + 1, kw, ctx, r)
  {
    assert FieldOk(reg, fields[i].1, r);
  }

  /** Fields without an error are passed over: when none from index `i` up
      to `j` has one, the first error from `i` on is the first from `j` on. */
  lemma {:induction false} FirstErrorSkips(reg: Registry, cv: Converters, fields: seq<(string, Field)>, i: nat,
                                           kw: seq<(string, Val)>, ctx: Context, r: nat, j: nat)
    requires WellFormed(reg) && FieldsOk(reg, fields, r) && i <= j <= |fields|
    requires forall t :: i <= t < j ==> StepError(reg, cv, fields[t].0, fields[t].1, kw, ctx, r).None?
    ensures FirstError(reg, cv, fields, i, kw, ctx, r) == FirstError(reg, cv, fields, j, kw, ctx, r)
    decreases j - i
  {
    if i < j {
      FirstErrorStep(reg, cv, fields, i, kw, ctx, r);
      assert StepError(reg, cv, fields[i].0, fields[i].1, kw, ctx, r).None?;
      assert FirstError(reg, cv, fields, i, kw, ctx, r) == FirstError(reg, cv, fields, i + 1, kw, ctx, r);
      FirstErrorSkips(reg, cv, fields, i + 1, kw, ctx, r, j);
    }
  }

  /** Without a `self` keyword, construction fails with the error of the
      first declared field that has one; when no field has one, the field loop goes through and the
      outcome is `ConstructOutcome`'s `Missing`, `Unsupported` or record. */
  lemma ConstructFirstError(reg: Registry, cv: Converters, n: string, kw: seq<(string, Val)>, extra: seq<(string, Val)>, j: nat)
    requires WellFormed(reg) && n in reg && j <= |Declared(reg, n)|
    requires forall t :: 0 <= t < j ==>
      StepError(reg, cv, Declared(reg, n)[t].0, Declared(reg, n)[t].1, kw, Context(None, Some(Parent(n, extra))), reg[n].rank).None?
    ensures j < |Declared(reg, n)| ==>
      var e := StepError(reg, cv, Declared(reg, n)[j].0, Declared(reg, n)[j].1, kw, Context(None, Some(Parent(n, extra))), reg[n].rank);
      e.Some? && "self" !in Keys(kw) ==> Construct(reg, cv, n, kw, extra) == Err(e.value)
    ensures j == |Declared(reg, n)| ==> FieldLoop(reg, cv, n, kw, extra).Ok?
  {
    var fields := Declared(reg, n);
    var ctx := Context(None, Some(Parent(n, extra)));
    var p := Progress([], Keys(kw), Keys(fields));
    ConstructViaLoop(reg, cv, n, kw, extra);
    LoopError(reg, cv, fields, 0, kw, ctx, p, reg[n].rank);
    FirstErrorSkips(reg, cv, fields, 0, kw, ctx, reg[n].rank, j);
    if j < |fields| {
      FirstErrorStep(reg, cv, fields, j, kw, ctx, reg[n].rank);
    }
  }

  /** Construction fails when the coercion of some declared non-Include
      field's supplied value or default fails. */
  lemma ConstructFailsOnField(reg: Registry, cv: Converters, n: string, kw: seq<(string, Val)>, extra: seq<(string, Val)>, j: nat)
    requires WellFormed(reg) && n in reg && j < |Declared(reg, n)|
    requires var f := Declared(reg, n)[j].1;
      var s := Supplied(reg, f, reg[n].rank, Declared(reg, n)[j].0, kw);
      !IsInclude(f) && s.Some? && Coerce(reg, cv, f, s.value, Context(None, Some(Parent(n, extra)))).Err?
    ensures Construct(reg, cv, n, kw, extra).Err?
  {
    ConstructOutcome(reg, cv, n, kw, extra);
    LoopFails(reg, cv, Declared(reg, n), 0, kw, Context(None, Some(Parent(n, extra))),
      Progress([], Keys(kw), Keys(Declared(reg, n))), reg[n].rank, j);
  }

  /** A constructed record holds, for a non-Include field, the coercion of
      its supplied value, or of its default when it was left out (which
      only an optional field can be). */
  lemma ConstructStoresPlain(reg: Registry, cv: Converters, n: string, kw: seq<(string, Val)>, extra: seq<(string, Val)>, j: nat)
    requires WellFormed(reg) && n in reg && j < |Declared(reg, n)| && !IsInclude(Declared(reg, n)[j].1)
    requires Construct(reg, cv, n, kw, extra).Ok?
    ensures var name := Declared(reg, n)[j].0; var f := Declared(reg, n)[j].1;
      var c := Coerce(reg, cv, f, if name in Keys(kw) then Get(kw, name).value else DefaultValue(f),
                      Context(None, Some(Parent(n, extra))));
      && (name !in Keys(kw) ==> !Required(reg, f, reg[n].rank))
      && c.Ok? && Get(Construct(reg, cv, n, kw, extra).value.attrs, name) == Some(c.value)
  {
    ConstructStores(reg, cv, n, kw, extra, j);
  }

  /** Leaving out a required non-Include field makes construction fail:
      with `Missing` naming it unless a field failed earlier or a keyword
      is `self`. */
  lemma MissingRequiredFails(reg: Registry, cv: Converters, n: string, kw: seq<(string, Val)>, extra: seq<(string, Val)>, j: nat)
    requires WellFormed(reg) && n in reg && j < |Declared(reg, n)|
    requires var f := Declared(reg, n)[j].1;
      !IsInclude(f) && Declared(reg, n)[j].0 !in Keys(kw) && Required(reg, f, reg[n].rank)
    ensures Construct(reg, cv, n, kw, extra).Err?
    ensures FieldLoop(reg, cv, n, kw, extra).Ok? && "self" !in Keys(kw) ==>
      && Construct(reg, cv, n, kw, extra).error.Missing?
      && Declared(reg, n)[j].0 in Construct(reg, cv, n, kw, extra).error.names
  {
    ConstructOutcome(reg, cv, n, kw, extra);
    RequiredAbsentHas(reg, Declared(reg, n), 0, kw, reg[n].rank, j);
  }

  /** Without `Include` fields, a supplied name the schema type does not
      declare makes construction fail. */
  lemma UndeclaredFails(reg: Registry, cv: Converters, n: string, kw: seq<(string, Val)>, extra: seq<(string, Val)>)
    requires WellFormed(reg) && n in reg
    requires forall j :: 0 <= j < |Declared(reg, n)| ==> !IsInclude(Declared(reg, n)[j].1)
    ensures !(Keys(kw) <= Keys(Declared(reg, n))) ==> Construct(reg, cv, n, kw, extra).Err?
  {
    ConstructOutcome(reg, cv, n, kw, extra);
    NoIncludeFiltered(reg, Declared(reg, n), 0, kw, reg[n].rank);
  }

  /** A `Nested` field whose stored default is a record cannot be left out:
      the default is coerced again, and a record is not a mapping. */
  lemma NestedDefaultUnusable(reg: Registry, cv: Converters, n: string, kw: seq<(string, Val)>, extra: seq<(string, Val)>, j: nat)
    requires WellFormed(reg) && n in reg && j < |Declared(reg, n)|
    requires Declared(reg, n)[j].1.kind.NestedKind? && Declared(reg, n)[j].1.default.Some?
    requires Declared(reg, n)[j].1.default.value.VInstance?
    requires Declared(reg, n)[j].0 !in Keys(kw)
    ensures Construct(reg, cv, n, kw, extra).Err?
  {
    var f := Declared(reg, n)[j].1;
    var r := reg[n].rank;
    assert FieldOk(reg, f, r);
    assert !Required(reg, f, r);
    var s := Supplied(reg, f, r, Declared(reg, n)[j].0, kw);
    assert s == Some(f.default.value);
    assert CoerceNested(reg, cv, f, f.kind.schema, s.value).Err?;
    ConstructFailsOnField(reg, cv, n, kw, extra, j);
  }

  /** The keys `Include.filter` returns are the supplied names the included
      schema type understands, and each keeps its supplied value. */
  lemma {:induction false} FilterKeys(reg: Registry, m: string, kw: seq<(string, Val)>)
    requires WellFormed(reg) && m in reg
    ensures Keys(Filter(reg, m, kw)) == Understood(reg, m) * Keys(kw)
    ensures UniqueKeys(kw) ==> forall k :: k in Keys(Filter(reg, m, kw)) ==> Get(Filter(reg, m, kw), k) == Get(kw, k)
    decreases reg[m].rank, 1
  {
    var fields := Declared(reg, m);
    FilterFieldsKeys(reg, fields, 0, kw, [], reg[m].rank);
    assert fields[0..] == fields;
    if UniqueKeys(kw) {
      var d := Filter(reg, m, kw);
      forall k | k in Keys(d) ensures Get(d, k) == Get(kw, k) {
        GetUnique(kw, k, Get(d, k).value);
      }
    }
  }

  lemma {:induction false} FilterFieldsKeys(reg: Registry, fields: seq<(string, Field)>, i: nat, kw: seq<(string, Val)>,
                                            acc: seq<(string, Val)>, r: nat)
    requires WellFormed(reg) && FieldsOk(reg, fields, r) && i <= |fields| && DrawnFrom(acc, kw)
    ensures FieldsOk(reg, fields[i..], r)
    ensures Keys(FilterFields(reg, fields, i, kw, acc, r)) == Keys(acc) + UnderstoodBy(reg, fields[i..], r) * Keys(kw)
    decreases r, 0, |fields| - i
  {
    assert FieldsOk(reg, fields[i..], r) by {
      forall t | 0 <= t < |fields[i..]| ensures FieldOk(reg, fields[i..][t].1, r) {
        assert fields[i..][t] == fields[i + t];
      }
    }
    if i < |fields| {
      var name := fields[i].0;
      var kind := fields[i].1.kind;
      assert FieldOk(reg, fields[i].1, r);
      assert fields[i..][0] == fields[i] && fields[i..][1..] == fields[i + 1..];
      if kind.IncludeKind? {
        var sub := Filter(reg, kind.schema, kw);
        FilterKeys(reg, kind.schema, kw);
        UpdateDrawnFrom(acc, sub, kw);
        FilterFieldsKeys(reg, fields, i + 1, kw, Update(acc, sub), r);
      } else if name in Keys(kw) {
        PutDrawnFrom(acc, name, kw);
        FilterFieldsKeys(reg, fields, i + 1, kw, Put(acc, name, Get(kw, name).value), r);
      } else {
        FilterFieldsKeys(reg, fields, i + 1, kw, acc, r);
      }
    } else {
      assert fields[i..] == [];
    }
  }

  /** The `Include` step of construction is `Nested.coerce` on the filtered
      arguments: constructing the included schema type from them. */
  lemma IncludeCoercesFiltered(reg: Registry, cv: Converters, m: string, kw: seq<(string, Val)>, ctx: Context)
    requires WellFormed(reg) && m in reg && reg[m].isSchema
    ensures Coerce(reg, cv, Field(IncludeKind(m), None), VDict(Filter(reg, m, kw)), ctx)
         == Construct(reg, cv, m, Filter(reg, m, kw), [])
  {
    var iargs := Filter(reg, m, kw);
    var f := Field(IncludeKind(m), None);
    CoerceIsNested(reg, cv, f, m, VDict(iargs), ctx);
    DictOfUnique(iargs);
    assert CoerceNested(reg, cv, f, m, VDict(iargs)) == Construct(reg, cv, m, DictOf(iargs), []);
  }

  /** One step of `Coerce` on an `Include` descriptor. */
  lemma CoerceIsNested(reg: Registry, cv: Converters, f: Field, m: string, v: Val, ctx: Context)
    requires WellFormed(reg) && m in reg && reg[m].isSchema && f.kind == IncludeKind(m)
    ensures Coerce(reg, cv, f, v, ctx) == CoerceNested(reg, cv, f, m, v)
  {
    match f.kind case IncludeKind(_) =>
  }

  /** Entries with distinct names already are the dict they denote. */
  lemma DictOfUnique(e: seq<(string, Val)>)
    requires UniqueKeys(e)
    ensures DictOf(e) == e
  {
    UpdateDistinctAppends([], e);
    assert [] + e == e;
  }
}

=== FILE: descriptors.dfy ===
/** Properties of the descriptors' coercion: the scalar ones (`Attribute`,
    `Number`, `Boolean`, `String`), the containers (`List`, `Map` with its
    `ReadonlyMapping`), `Nested`, `Object`, and the two object resolvers. */
module Descriptors {
  import opened Wrappers
  import opened Dicts
  import opened Values
  import opened Schema
  import opened Text
  import opened Engine

  /** The scalar descriptors: the base `Attribute` keeps the value, and
      `Number` (with `Integer` and `Float`), `Boolean` and `String` hand it
      to their converter, failing exactly when the converter does. None of
      them looks at the context. */
  lemma ScalarCoercion(reg: Registry, cv: Converters, f: Field, v: Val, ctx: Context)
    requires WellFormed(reg)
    requires f.kind.AnyKind? || f.kind.NumberKind? || f.kind.BooleanKind? || f.kind.StringKind?
    ensures var r := Coerce(reg, cv, f, v, ctx);
      && r == Coerce(reg, cv, f, v, EmptyContext)
      && (f.kind.AnyKind? ==> r == Ok(v))
      && (f.kind.NumberKind? ==>
            var x := cv.number(v, f.kind.conversion, f.kind.min, f.kind.max);
            (r.Ok? <==> x.Some?) && (r.Ok? ==> r.value == VNum(x.value)))
      && (f.kind.BooleanKind? ==> (r.Ok? <==> cv.logical(v).Some?) && (r.Ok? ==> r.value == VBool(cv.logical(v).value)))
      && (f.kind.StringKind? ==> (r.Ok? <==> cv.text(v).Some?) && (r.Ok? ==> r.value == VStr(cv.text(v).value)))
      && (r.Err? ==> r.error == ConversionFailed)
  {
  }

  /** The text of each string value. */
  function Texts(vs: seq<Val>): (ts: seq<string>)
    requires forall i :: 0 <= i < |vs| ==> vs[i].VStr?
    ensures |ts| == |vs| && forall i :: 0 <= i < |vs| ==> vs[i] == VStr(ts[i])
  {
    seq(|vs|, i requires 0 <= i < |vs| => vs[i].s)
  }

  /** `List` iterates a string as its pieces between separators: joining the
      pieces with the separator gives the string back, and no piece holds
      the separator. An empty separator is rejected, as `str.split` does. */
  lemma ListSplitsStrings(f: Field, s: string)
    requires f.kind.ListKind?
    ensures |f.kind.separator| == 0 ==> ListSource(f, VStr(s)) == Err(EmptySeparator)
    ensures |f.kind.separator| > 0 ==>
      && ListSource(f, VStr(s)).Ok?
      && (forall i :: 0 <= i < |ListSource(f, VStr(s)).value| ==> ListSource(f, VStr(s)).value[i].VStr?)
      && Join(Texts(ListSource(f, VStr(s)).value), f.kind.separator) == s
      && forall i :: 0 <= i < |ListSource(f, VStr(s)).value| ==>
           !Contains(ListSource(f, VStr(s)).value[i].s, f.kind.separator)
  {
    var sep := f.kind.separator;
    if |sep| > 0 {
      var parts := Split(s, sep);
      var items := ListSource(f, VStr(s)).value;
      assert items == StrVals(parts);
      assert Texts(items) == parts;
      JoinSplit(s, sep);
    }
  }

  /** The dict a mapping denotes holds, for each name, the last value given
      for it. */
  lemma DictOfLastValues(e: seq<(string, Val)>)
    ensures forall i :: 0 <= i < |DictOf(e)| ==> Some(DictOf(e)[i].1) == GetLast(e, DictOf(e)[i].0)
  {
    var d := DictOf(e);
    forall i | 0 <= i < |d| ensures Some(d[i].1) == GetLast(e, d[i].0) {
      GetUnique(d, d[i].0, d[i].1);
      assert Get(FromPairs(e), d[i].0) == GetLast(e, d[i].0);
    }
  }

  /** `List` iterates a dict as its values: one item per distinct name, in
      the order names first occur, each the last value given for its name. */
  lemma ListTakesDictValues(f: Field, e: seq<(string, Val)>)
    requires f.kind.ListKind?
    ensures ListSource(f, VDict(e)).Ok?
    ensures var items := ListSource(f, VDict(e)).value; var d := DictOf(e);
      && |items| == |d|
      && Keys(d) == Keys(e)
      && OrderedByFirstOccurrence(d, KeySeq(e))
      && forall i :: 0 <= i < |d| ==> Some(items[i]) == GetLast(e, d[i].0)
  {
    assert ListSource(f, VDict(e)) == Ok(ValuesOf(DictOf(e)));
    FromPairsKeepsFirstPosition(e);
    DictOfLastValues(e);
  }

  /** `List` accepts exactly the iterable values: lists, strings (given a
      separator) and mappings; anything else fails as not iterable. */
  lemma ListAcceptsIterables(f: Field, v: Val)
    requires f.kind.ListKind?
    ensures ListSource(f, v).Ok? <==> (v.VList? || IsMapping(v) || (v.VStr? && |f.kind.separator| > 0))
    ensures !(v.VList? || v.VStr? || IsMapping(v)) ==> ListSource(f, v) == Err(NotIterable)
    ensures v.VList? ==> ListSource(f, v) == Ok(v.items)
  {
  }

  /** `List.coerce` succeeds exactly when every item of the iterated value
      coerces, with context key its index (and the enclosing context has no
      key, or there is nothing to iterate); the result lists the coerced
      items in order. */
  lemma {:induction false} ListCoercion(reg: Registry, cv: Converters, f: Field, v: Val, ctx: Context)
    requires WellFormed(reg) && RefsKnown(reg, f) && f.kind.ListKind?
    ensures var r := CoerceList(reg, cv, f, v, ctx);
      r.Ok? <==>
        && ListSource(f, v).Ok?
        && (ctx.key.None? || |ListSource(f, v).value| == 0)
        && forall i :: 0 <= i < |ListSource(f, v).value| ==>
             Coerce(reg, cv, f.kind.contains, ListSource(f, v).value[i], ItemContext(ctx, IndexKey(i))).Ok?
    ensures var r := CoerceList(reg, cv, f, v, ctx);
      r.Ok? ==>
        var items := ListSource(f, v).value;
        && |r.value.items| == |items|
        && forall i :: 0 <= i < |items| ==>
             Coerce(reg, cv, f.kind.contains, items[i], ItemContext(ctx, IndexKey(i))) == Ok(r.value.items[i])
  {
    if CoerceList(reg, cv, f, v, ctx).Ok? {
      CoerceListItems(reg, cv, f, v, ctx);
    } else if ListSource(f, v).Ok? && (ctx.key.None? || |ListSource(f, v).value| == 0) {
      var items := ListSource(f, v).value;
      var rs := seq(|items|, i requires 0 <= i < |items| =>
        Coerce(reg, cv, f.kind.contains, items[i], ItemContext(ctx, IndexKey(i))));
      assert Collect(rs).Err?;
      var i :| 0 <= i < |rs| && rs[i].Err?;
      assert rs[i] == Coerce(reg, cv, f.kind.contains, items[i], ItemContext(ctx, IndexKey(i)));
    }
  }

  /** `Map.coerce` rejects anything but a mapping; on a mapping it succeeds
      exactly when every value of the dict the mapping denotes coerces, with
      context key its name, and the enclosing context has no key or the
      mapping is empty. */
  lemma {:induction false} MapCoercionSucceeds(reg: Registry, cv: Converters, f: Field, v: Val, ctx: Context)
    requires WellFormed(reg) && RefsKnown(reg, f) && f.kind.MapKind?
    ensures !IsMapping(v) ==> CoerceMap(reg, cv, f, v, ctx) == Err(NotMapping)
    ensures IsMapping(v) ==>
      var d := DictOf(v.entries);
      CoerceMap(reg, cv, f, v, ctx).Ok? <==>
        && (ctx.key.None? || |d| == 0)
        && forall i :: 0 <= i < |d| ==>
             Coerce(reg, cv, f.kind.contains, d[i].1, ItemContext(ctx, VStr(d[i].0))).Ok?
  {
    if CoerceMap(reg, cv, f, v, ctx).Ok? {
      CoerceMapValues(reg, cv, f, v, ctx);
    } else if IsMapping(v) && (ctx.key.None? || |DictOf(v.entries)| == 0) {
      MapCoercionFails(reg, cv, f, v, ctx);
    }
  }

  /** A failing `Map.coerce` on a mapping, with no key to collide with, has
      a value that does not coerce. */
  lemma MapCoercionFails(reg: Registry, cv: Converters, f: Field, v: Val, ctx: Context)
    requires WellFormed(reg) && RefsKnown(reg, f) && f.kind.MapKind?
    requires IsMapping(v) && CoerceMap(reg, cv, f, v, ctx).Err?
    requires ctx.key.None? || |DictOf(v.entries)| == 0
    ensures var d := DictOf(v.entries);
      exists i :: 0 <= i < |d| && Coerce(reg, cv, f.kind.contains, d[i].1, ItemContext(ctx, VStr(d[i].0))).Err?
  {
    var d := DictOf(v.entries);
    var rs := seq(|d|, i requires 0 <= i < |d| =>
      Coerce(reg, cv, f.kind.contains, d[i].1, ItemContext(ctx, VStr(d[i].0))));
    assert Collect(rs).Err?;
    var i :| 0 <= i < |rs| && rs[i].Err?;
    assert rs[i] == Coerce(reg, cv, f.kind.contains, d[i].1, ItemContext(ctx, VStr(d[i].0)));
  }

  /** A successful `Map.coerce` gives a read-only mapping with the names of
      the dict the mapping denotes, in the same order, each once, holding
      the coerced values. */
  lemma MapCoercion(reg: Registry, cv: Converters, f: Field, v: Val, ctx: Context)
    requires WellFormed(reg) && RefsKnown(reg, f) && f.kind.MapKind?
    requires CoerceMap(reg, cv, f, v, ctx).Ok?
    ensures IsMapping(v)
    ensures var d := DictOf(v.entries); var out := CoerceMap(reg, cv, f, v, ctx).value.entries;
      && KeySeq(out) == KeySeq(d)
      && UniqueKeys(out)
      && Keys(out) == Keys(v.entries)
      && forall i :: 0 <= i < |d| ==>
           Coerce(reg, cv, f.kind.contains, d[i].1, ItemContext(ctx, VStr(d[i].0))) == Ok(out[i].1)
  {
    CoerceMapValues(reg, cv, f, v, ctx);
    var d := DictOf(v.entries);
    var out := CoerceMap(reg, cv, f, v, ctx).value.entries;
    KeySeqByPositions(out, KeySeq(d));
  }

  /** `Nested.coerce` passes `None` and the undefined marker through, and
      builds the nested schema type from a mapping, each name of the dict
      it denotes with the last value given for it, and no parent; anything
      else is rejected. */
  lemma NestedCoercion(reg: Registry, cv: Converters, f: Field, m: string, v: Val)
    requires WellFormed(reg) && m in reg && f.kind == NestedKind(m)
    ensures var r := CoerceNested(reg, cv, f, m, v);
      && (v.VNone? ==> r == Ok(VNone))
      && (v.VUndefined? ==> r == Ok(VUndefined))
      && (!v.VNone? && !v.VUndefined? && !IsMapping(v) ==> r == Err(NotMapping))
      && (IsMapping(v) ==> r == Construct(reg, cv, m, DictOf(v.entries), []))
    ensures IsMapping(v) ==>
      && Keys(DictOf(v.entries)) == Keys(v.entries)
      && forall k :: Get(DictOf(v.entries), k) == GetLast(v.entries, k)
  {
    if IsMapping(v) {
      assert DictOf(v.entries) == FromPairs(v.entries);
    }
  }

  /** `Object.coerce` needs a dict. It calls the resolver once, with the
      `"type"` entry as class name (`None` when absent) and the other
      entries as keyword arguments (see `ObjectKeywords`). */
  lemma ObjectCoercion(reg: Registry, cv: Converters, f: Field, v: Val, ctx: Context)
    requires WellFormed(reg) && f.kind.ObjectKind?
    ensures !v.VDict? ==> Coerce(reg, cv, f, v, ctx) == Err(NotDict)
    ensures v.VDict? ==>
      Coerce(reg, cv, f, v, ctx)
        == Resolve(reg, cv, f.kind.resolver, GetLast(v.entries, "type"), ctx, Remove(DictOf(v.entries), "type"))
  {
    CoerceObjectUnfolds(reg, cv, f, v, ctx);
    if v.VDict? {
      TypeIsLast(v.entries);
    }
  }

  /** One step of `Coerce` on an `Object` descriptor. */
  lemma CoerceObjectUnfolds(reg: Registry, cv: Converters, f: Field, v: Val, ctx: Context)
    requires WellFormed(reg) && f.kind.ObjectKind?
    ensures !v.VDict? ==> Coerce(reg, cv, f, v, ctx) == Err(NotDict)
    ensures v.VDict? ==>
      Coerce(reg, cv, f, v, ctx)
        == Resolve(reg, cv, f.kind.resolver, Get(DictOf(v.entries), "type"), ctx, Remove(DictOf(v.entries), "type"))
  {
    CoerceIsObject(reg, cv, f, v, ctx);
  }

  lemma CoerceIsObject(reg: Registry, cv: Converters, f: Field, v: Val, ctx: Context)
    requires WellFormed(reg) && f.kind.ObjectKind?
    ensures Coerce(reg, cv, f, v, ctx) == CoerceObject(reg, cv, f, v, ctx)
  {
    match f.kind case ObjectKind(_) =>
  }

  /** The `"type"` entry of the dict denoted by `e` is the last one given. */
  lemma TypeIsLast(e: seq<(string, Val)>)
    ensures Get(DictOf(e), "type") == GetLast(e, "type")
  {
    assert DictOf(e) == FromPairs(e);
  }

  /** The keyword arguments `Object.coerce` passes on for the entries `e` of
      a dict: every name but `"type"`, each with the last value given for
      it. */
  lemma ObjectKeywords(e: seq<(string, Val)>)
    ensures var rest := Remove(DictOf(e), "type");
      && Keys(rest) == Keys(e) - {"type"}
      && forall k :: k != "type" ==> Get(rest, k) == GetLast(e, k)
  {
    var d := DictOf(e);
    assert d == FromPairs(e);
    forall k | k != "type" ensures Get(Remove(d, "type"), k) == GetLast(e, k) {
      RemoveKeepsOthers(d, "type", k);
    }
  }

  /** The default resolver builds a registered schema type named by the
      class name from the keyword arguments, and nothing else: a name that
      is not registered fails as not found, a class that is not a schema
      type is rejected. */
  lemma DefaultResolution(reg: Registry, cv: Converters, typename: Option<Val>, ctx: Context, rest: seq<(string, Val)>)
    requires WellFormed(reg)
    ensures var r := Resolve(reg, cv, DefaultResolver, typename, ctx, rest);
      r.Ok? ==>
        && typename.Some? && typename.value.VStr? && typename.value.s in reg
        && reg[typename.value.s].isSchema
        && r == Construct(reg, cv, typename.value.s, rest, [])
    ensures "typename" !in Keys(rest) && "_" !in Keys(rest) ==>
      var r := Resolve(reg, cv, DefaultResolver, typename, ctx, rest);
      && (Lookup(reg, typename).Err? ==> r == Err(NotFound))
      && (Lookup(reg, typename).Ok? && !reg[Lookup(reg, typename).value].isSchema ==> r == Err(NotSchemaType))
      && (Lookup(reg, typename).Ok? && reg[Lookup(reg, typename).value].isSchema ==>
            r == Construct(reg, cv, Lookup(reg, typename).value, rest, []))
  {
  }

  /** The experiment resolver builds only the base class or a subclass of
      it, named by the class name, and sets `_identifier` to the context key
      (`None` without one) and `_storage` to the parent's workspace storage
      (`None` without a parent) before the fields are constructed from the
      keyword arguments. */
  lemma InjectingResolution(reg: Registry, cv: Converters, base: string, typename: Option<Val>, ctx: Context,
                            rest: seq<(string, Val)>)
    requires WellFormed(reg)
    ensures var r := Resolve(reg, cv, InjectingResolver(base), typename, ctx, rest);
      r.Ok? ==>
        && typename.Some? && typename.value.VStr? && typename.value.s in reg
        && var n := typename.value.s;
        && (n == base || base in reg[n].ancestors)
        && ParentStorage(ctx).Ok?
        && r == Construct(reg, cv, n, rest,
                 [("_identifier", if ctx.key.Some? then ctx.key.value else VNone),
                  ("_storage", ParentStorage(ctx).value)])
    ensures ctx.parent.None? ==> ParentStorage(ctx) == Ok(VNone)
  {
  }

  /** The experiment resolver refuses a known class that is neither the base
      class nor a subclass of it. */
  lemma InjectingRejectsForeign(reg: Registry, cv: Converters, base: string, typename: Option<Val>, ctx: Context,
                                rest: seq<(string, Val)>)
    requires WellFormed(reg)
    ensures Lookup(reg, typename).Ok? && "typename" !in Keys(rest) && "context" !in Keys(rest) ==>
      var n := Lookup(reg, typename).value;
      n != base && base !in reg[n].ancestors ==>
        Resolve(reg, cv, InjectingResolver(base), typename, ctx, rest) == Err(NotSubclass)
  {
  }
}

=== FILE: dicts.dfy ===
/** Key-ordered dictionaries with string keys, as the source's `dict` values:
    a sequence of (key, value) entries. Assigning an existing key keeps the
    key's position and replaces its value; assigning a new key appends it. */
module Dicts {
  import opened Wrappers

  function KeySeq<V>(d: seq<(string, V)>): (ks: seq<string>)
    ensures |ks| == |d|
    ensures forall i :: 0 <= i < |d| ==> ks[i] == d[i].0
  {
    if |d| == 0 then [] else [d[0].0] + KeySeq(d[1..])
  }

  function Keys<V>(d: seq<(string, V)>): set<string>
  {
    set k | k in KeySeq(d)
  }

  predicate UniqueKeys<V>(d: seq<(string, V)>)
  {
    forall i, j :: 0 <= i < j < |d| ==> d[i].0 != d[j].0
  }

  /** Lookup by key; a dictionary has at most one entry per key, and on a raw
      entry list the first entry wins. */
  function Get<V>(d: seq<(string, V)>, k: string): (r: Option<V>)
    ensures r.Some? <==> k in Keys(d)
    ensures r.Some? ==> (k, r.value) in d
  {
    if |d| == 0 then None
    else if d[0].0 == k then Some(d[0].1)
    else
      assert KeySeq(d) == [d[0].0] + KeySeq(d[1..]);
      Get(d[1..], k)
  }

  /** The value bound last to `k` in an entry list (what `dict(pairs)` keeps). */
  function GetLast<V>(ps: seq<(string, V)>, k: string): Option<V>
  {
    if |ps| == 0 then None
    else if ps[|ps| - 1].0 == k then Some(ps[|ps| - 1].1)
    else GetLast(ps[..|ps| - 1], k)
  }

  /** Position of the first occurrence of `k` in `ks`. */
  function FirstIndex(ks: seq<string>, k: string): (i: nat)
    requires k in ks
    ensures i < |ks| && ks[i] == k
  {
    if ks[0] == k then 0 else 1 + FirstIndex(ks[1..], k)
  }

  lemma {:induction false} FirstIndexFirst(ks: seq<string>, k: string, j: nat)
    requires k in ks && j < |ks| && ks[j] == k
    ensures FirstIndex(ks, k) <= j
  {
    if ks[0] != k {
      assert ks[1..][j - 1] == k;
      FirstIndexFirst(ks[1..], k, j - 1);
    }
  }

  /** `d[k] = v` */
  function Put<V>(d: seq<(string, V)>, k: string, v: V): (r: seq<(string, V)>)
    ensures Keys(r) == Keys(d) + {k}
    ensures Get(r, k) == Some(v)
  {
    if |d| == 0 then
      assert KeySeq([(k, v)]) == [k];
      [(k, v)]
    else
      KeysCons(d);
      if d[0].0 == k then
        var r := [(k, v)] + d[1..];
        assert r[1..] == d[1..];
        KeysCons(r);
        r
      else
        var t := Put(d[1..], k, v);
        var r := [d[0]] + t;
        assert r[1..] == t;
        KeysCons(r);
        r
  }

  /** Assigning an existing key keeps every key in its position; a new key
      is appended at the end. */
  lemma {:induction false} PutPositions<V>(d: seq<(string, V)>, k: string, v: V)
    ensures |Put(d, k, v)| == if k in Keys(d) then |d| else |d| + 1
    ensures forall i :: 0 <= i < |d| ==> Put(d, k, v)[i].0 == d[i].0
    ensures k !in Keys(d) ==> Put(d, k, v)[|d|].0 == k
  {
    var r := Put(d, k, v);
    if |d| == 0 {
      assert r == [(k, v)];
    } else {
      KeysCons(d);
      if d[0].0 == k {
        assert r == [(k, v)] + d[1..];
      } else {
        PutPositions(d[1..], k, v);
        var t := Put(d[1..], k, v);
        assert r == [d[0]] + t;
        assert k in Keys(d) <==> k in Keys(d[1..]);
        forall i | 1 <= i < |d| ensures r[i].0 == d[i].0 {
          assert r[i] == t[i - 1];
          assert d[i] == d[1..][i - 1];
        }
        if k !in Keys(d) {
          assert r[|d|] == t[|d| - 1];
        }
      }
    }
  }

  /** Assigning an existing key keeps the key order; a new key is appended. */
  lemma PutKeySeq<V>(d: seq<(string, V)>, k: string, v: V)
    ensures k in Keys(d) ==> KeySeq(Put(d, k, v)) == KeySeq(d)
    ensures k !in Keys(d) ==> KeySeq(Put(d, k, v)) == KeySeq(d) + [k]
  {
    PutPositions(d, k, v);
    var r := Put(d, k, v);
    if k in Keys(d) {
      KeySeqByPositions(r, KeySeq(d));
    } else {
      var ks := KeySeq(d) + [k];
      forall i | 0 <= i < |r| ensures r[i].0 == ks[i] {
        if i < |d| { assert ks[i] == d[i].0; }
      }
      KeySeqByPositions(r, ks);
    }
  }

  lemma KeySeqByPositions<V>(r: seq<(string, V)>, ks: seq<string>)
    requires |r| == |ks| && forall i :: 0 <= i < |r| ==> r[i].0 == ks[i]
    ensures KeySeq(r) == ks
  {
  }

  lemma {:induction false} PutGetOther<V>(d: seq<(string, V)>, k: string, v: V, k': string)
    requires k' != k
    ensures Get(Put(d, k, v), k') == Get(d, k')
  {
    if |d| > 0 && d[0].0 != k {
      PutGetOther(d[1..], k, v, k');
    }
  }

  lemma PutUnique<V>(d: seq<(string, V)>, k: string, v: V)
    requires UniqueKeys(d)
    ensures UniqueKeys(Put(d, k, v))
  {
    var r := Put(d, k, v);
    PutPositions(d, k, v);
    forall i, j | 0 <= i < j < |r| ensures r[i].0 != r[j].0 {
      if j == |d| {
        assert KeySeq(d)[i] == d[i].0;
      }
    }
  }

  /** `d.update(e)`: assign every entry of `e`, in order. */
  function Update<V>(d: seq<(string, V)>, e: seq<(string, V)>): (r: seq<(string, V)>)
    ensures Keys(r) == Keys(d) + Keys(e)
    ensures forall k :: Get(r, k) == if k in Keys(e) then GetLast(e, k) else Get(d, k)
  {
    if |e| == 0 then d
    else
      var e' := e[..|e| - 1];
      var last := e[|e| - 1];
      assert KeySeq(e) == KeySeq(e') + [last.0];
      var u := Update(d, e');
      forall k | k != last.0 ensures Get(Put(u, last.0, last.1), k) == Get(u, k) {
        PutGetOther(u, last.0, last.1, k);
      }
      Put(u, last.0, last.1)
  }

  lemma KeySeqAppend<V>(a: seq<(string, V)>, b: seq<(string, V)>)
    ensures KeySeq(a + b) == KeySeq(a) + KeySeq(b)
    ensures Keys(a + b) == Keys(a) + Keys(b)
  {
    assert KeySeq(a + b) == KeySeq(a) + KeySeq(b) by {
      forall i | 0 <= i < |a + b| ensures KeySeq(a + b)[i] == (KeySeq(a) + KeySeq(b))[i] {
        assert (a + b)[i] == if i < |a| then a[i] else b[i - |a|];
      }
    }
  }

  /** The last binding of a key in `a + b` is its last binding in `b` when
      `b` binds it, and in `a` otherwise. */
  lemma {:induction false} GetLastAppend<V>(a: seq<(string, V)>, b: seq<(string, V)>, k: string)
    ensures GetLast(a + b, k) == if k in Keys(b) then GetLast(b, k) else GetLast(a, k)
    decreases |b|
  {
    if |b| == 0 {
      assert a + b == a;
      GetLastAbsent(b, k);
    } else {
      var b' := b[..|b| - 1];
      assert (a + b)[..|a + b| - 1] == a + b';
      assert KeySeq(b) == KeySeq(b') + [b[|b| - 1].0];
      GetLastAppend(a, b', k);
      if b[|b| - 1].0 != k && k !in Keys(b') {
        GetLastAbsent(b', k);
      }
    }
  }

  lemma {:induction false} UpdateUnique<V>(d: seq<(string, V)>, e: seq<(string, V)>)
    requires UniqueKeys(d)
    ensures UniqueKeys(Update(d, e))
  {
    if |e| > 0 {
      var e' := e[..|e| - 1];
      UpdateUnique(d, e');
      PutUnique(Update(d, e'), e[|e| - 1].0, e[|e| - 1].1);
    }
  }

  /** `dict(pairs)`: the first occurrence of a key fixes its position, the last its value. */
  function FromPairs<V>(ps: seq<(string, V)>): (r: seq<(string, V)>)
    ensures Keys(r) == Keys(ps)
    ensures UniqueKeys(r)
    ensures forall k :: Get(r, k) == GetLast(ps, k)
  {
    UpdateUnique([], ps);
    var r := Update([], ps);
    assert forall k :: k !in Keys(ps) ==> GetLast(ps, k) == None by {
      forall k | k !in Keys(ps) ensures GetLast(ps, k) == None { GetLastAbsent(ps, k); }
    }
    r
  }

  lemma {:induction false} GetLastAbsent<V>(ps: seq<(string, V)>, k: string)
    requires k !in Keys(ps)
    ensures GetLast(ps, k) == None
  {
    if |ps| > 0 {
      var p := ps[..|ps| - 1];
      assert KeySeq(ps) == KeySeq(p) + [ps[|ps| - 1].0];
      GetLastAbsent(p, k);
    }
  }

  /** The dictionary without the entry for `key`; the others keep their order. */
  function Remove<V>(d: seq<(string, V)>, key: string): (r: seq<(string, V)>)
    ensures Keys(r) == Keys(d) - {key}
    ensures forall i :: 0 <= i < |r| ==> r[i] in d
  {
    if |d| == 0 then []
    else
      var t := Remove(d[1..], key);
      assert KeySeq(d) == [d[0].0] + KeySeq(d[1..]);
      assert forall x :: x in d[1..] ==> x in d;
      KeysCons(d);
      if d[0].0 == key then t
      else
        var r := [d[0]] + t;
        KeysCons(r);
        r
  }

  lemma KeysCons<V>(d: seq<(string, V)>)
    requires |d| > 0
    ensures Keys(d) == {d[0].0} + Keys(d[1..])
  {
    assert KeySeq(d) == [d[0].0] + KeySeq(d[1..]);
  }

  lemma {:induction false} RemoveKeepsOthers<V>(d: seq<(string, V)>, key: string, k: string)
    requires k != key
    ensures Get(Remove(d, key), k) == Get(d, k)
  {
    if |d| > 0 {
      RemoveKeepsOthers(d[1..], key, k);
    }
  }

  /** Every key of `r` occurs in `ks`, and the keys of `r` appear in the
      order of their first occurrence in `ks`. */
  predicate OrderedByFirstOccurrence<V>(r: seq<(string, V)>, ks: seq<string>)
  {
    && (forall i :: 0 <= i < |r| ==> r[i].0 in ks)
    && (forall i, j :: 0 <= i < j < |r| ==> FirstIndex(ks, r[i].0) < FirstIndex(ks, r[j].0))
  }

  lemma FirstIndexPrefix(ks: seq<string>, more: seq<string>, k: string)
    requires k in ks
    ensures k in ks + more
    ensures FirstIndex(ks + more, k) == FirstIndex(ks, k)
  {
    if ks[0] != k {
      assert (ks + more)[1..] == ks[1..] + more;
      FirstIndexPrefix(ks[1..], more, k);
    }
  }

  lemma FirstIndexAppendOrder(ks: seq<string>, k: string, x: string, y: string)
    requires x in ks && y in ks && FirstIndex(ks, x) < FirstIndex(ks, y)
    ensures x in ks + [k] && y in ks + [k]
    ensures FirstIndex(ks + [k], x) < FirstIndex(ks + [k], y)
  {
    FirstIndexPrefix(ks, [k], x);
    FirstIndexPrefix(ks, [k], y);
  }

  lemma FirstIndexAppendNew(ks: seq<string>, k: string, x: string)
    requires x in ks && k !in ks
    ensures x in ks + [k] && k in ks + [k]
    ensures FirstIndex(ks + [k], x) < FirstIndex(ks + [k], k)
  {
    FirstIndexPrefix(ks, [k], x);
    assert (ks + [k])[|ks|] == k;
  }

  /** Assigning one more key keeps the order of first occurrence. */
  lemma PutKeepsOrder<V>(u: seq<(string, V)>, ks: seq<string>, k: string, v: V)
    requires OrderedByFirstOccurrence(u, ks)
    requires forall x :: x in ks ==> x in Keys(u)
    ensures OrderedByFirstOccurrence(Put(u, k, v), ks + [k])
  {
    PutPositions(u, k, v);
    if k in Keys(u) {
      SameKeysOrder(u, Put(u, k, v), ks, k);
    } else {
      AppendedKeyOrder(u, Put(u, k, v), ks, k);
    }
  }

  /** Entries with the keys of `u`, position by position, keep `u`'s order. */
  lemma SameKeysOrder<V>(u: seq<(string, V)>, r: seq<(string, V)>, ks: seq<string>, k: string)
    requires OrderedByFirstOccurrence(u, ks)
    requires |r| == |u| && forall i :: 0 <= i < |u| ==> r[i].0 == u[i].0
    ensures OrderedByFirstOccurrence(r, ks + [k])
  {
    forall i | 0 <= i < |r| ensures r[i].0 in ks + [k] {
      FirstIndexPrefix(ks, [k], u[i].0);
    }
    forall i, j | 0 <= i < j < |r| ensures FirstIndex(ks + [k], r[i].0) < FirstIndex(ks + [k], r[j].0) {
      FirstIndexAppendOrder(ks, k, u[i].0, u[j].0);
    }
  }

  /** The keys of `u` followed by a new key `k` are ordered by first
      occurrence in `ks + [k]`. */
  lemma AppendedKeyOrder<V>(u: seq<(string, V)>, r: seq<(string, V)>, ks: seq<string>, k: string)
    requires OrderedByFirstOccurrence(u, ks) && k !in ks
    requires |r| == |u| + 1 && forall i :: 0 <= i < |u| ==> r[i].0 == u[i].0
    requires r[|u|].0 == k
    ensures OrderedByFirstOccurrence(r, ks + [k])
  {
    forall i | 0 <= i < |r| ensures r[i].0 in ks + [k] {
      if i < |u| {
        FirstIndexPrefix(ks, [k], u[i].0);
      } else {
        assert (ks + [k])[|ks|] == k;
      }
    }
    forall i, j | 0 <= i < j < |r| ensures FirstIndex(ks + [k], r[i].0) < FirstIndex(ks + [k], r[j].0) {
      if j < |u| {
        FirstIndexAppendOrder(ks, k, u[i].0, u[j].0);
      } else {
        FirstIndexAppendNew(ks, k, u[i].0);
      }
    }
  }

  /** Updating keeps every key at the position of its first assignment:
      the keys of `d.update(e)` are ordered by first occurrence in the keys
      of `d` followed by the keys of `e`. */
  lemma {:induction false} UpdateKeepsFirstPosition<V>(d: seq<(string, V)>, e: seq<(string, V)>)
    requires UniqueKeys(d)
    ensures OrderedByFirstOccurrence(Update(d, e), KeySeq(d) + KeySeq(e))
  {
    if |e| == 0 {
      var ks := KeySeq(d) + KeySeq(e);
      assert ks == KeySeq(d);
      forall i | 0 <= i < |d| ensures FirstIndex(ks, d[i].0) == i {
        var f := FirstIndex(ks, d[i].0);
        assert ks[i] == d[i].0;
        assert f <= i;
        assert d[f].0 == d[i].0;
      }
    } else {
      var e' := e[..|e| - 1];
      var last := e[|e| - 1];
      var ks' := KeySeq(d) + KeySeq(e');
      assert KeySeq(e) == KeySeq(e') + [last.0];
      assert KeySeq(d) + KeySeq(e) == ks' + [last.0];
      UpdateKeepsFirstPosition(d, e');
      var u := Update(d, e');
      assert forall x :: x in ks' ==> x in Keys(u) by {
        assert forall x :: x in ks' ==> x in KeySeq(d) || x in KeySeq(e');
      }
      PutKeepsOrder(u, ks', last.0, last.1);
    }
  }

  /** `dict(pairs)` orders its keys by first occurrence in `pairs`. */
  lemma FromPairsKeepsFirstPosition<V>(ps: seq<(string, V)>)
    ensures OrderedByFirstOccurrence(FromPairs(ps), KeySeq(ps))
  {
    UpdateKeepsFirstPosition([], ps);
    assert KeySeq<V>([]) + KeySeq(ps) == KeySeq(ps);
  }

  /** With no key repeated, updating simply appends the new entries. */
  lemma {:induction false} UpdateDistinctAppends<V>(d: seq<(string, V)>, e: seq<(string, V)>)
    requires UniqueKeys(d + e)
    ensures Update(d, e) == d + e
  {
    if |e| > 0 {
      var e' := e[..|e| - 1];
      var last := e[|e| - 1];
      var w := d + e;
      assert w == (d + e') + [last];
      assert UniqueKeys(d + e') by {
        forall i, j | 0 <= i < j < |d + e'| ensures (d + e')[i].0 != (d + e')[j].0 {
          assert (d + e')[i] == w[i] && (d + e')[j] == w[j];
        }
      }
      UpdateDistinctAppends(d, e');
      assert last.0 !in Keys(d + e') by {
        forall i | 0 <= i < |d + e'| ensures KeySeq(d + e')[i] != last.0 {
          assert w[i].0 != w[|w| - 1].0;
        }
      }
      PutNewAppends(d + e', last.0, last.1);
    }
  }

  lemma {:induction false} PutNewAppends<V>(d: seq<(string, V)>, k: string, v: V)
    requires k !in Keys(d)
    ensures Put(d, k, v) == d + [(k, v)]
  {
    if |d| > 0 {
      KeysCons(d);
      assert d[0].0 != k;
      assert Put(d, k, v) == [d[0]] + Put(d[1..], k, v);
      PutNewAppends(d[1..], k, v);
      assert d == [d[0]] + d[1..];
    }
  }

  /** Every entry of `d[k] = v` is an entry of `d` or the new binding. */
  lemma {:induction false} PutEntries<V>(d: seq<(string, V)>, k: string, v: V)
    ensures forall i :: 0 <= i < |Put(d, k, v)| ==> Put(d, k, v)[i] in d || Put(d, k, v)[i] == (k, v)
  {
    if |d| > 0 && d[0].0 != k {
      PutEntries(d[1..], k, v);
      var t := Put(d[1..], k, v);
      assert Put(d, k, v) == [d[0]] + t;
      assert forall x :: x in d[1..] ==> x in d;
    }
  }

  /** Every entry of `d.update(e)` is an entry of `d` or of `e`. */
  lemma {:induction false} UpdateEntries<V>(d: seq<(string, V)>, e: seq<(string, V)>)
    ensures forall i :: 0 <= i < |Update(d, e)| ==> Update(d, e)[i] in d || Update(d, e)[i] in e
  {
    if |e| > 0 {
      var e' := e[..|e| - 1];
      UpdateEntries(d, e');
      PutEntries(Update(d, e'), e[|e| - 1].0, e[|e| - 1].1);
      assert forall x :: x in e' ==> x in e;
    }
  }

  /** Every entry of `dict(pairs)` is one of the pairs. */
  lemma FromPairsEntries<V>(ps: seq<(string, V)>)
    ensures forall i :: 0 <= i < |FromPairs(ps)| ==> FromPairs(ps)[i] in ps
  {
    UpdateEntries([], ps);
  }

  /** In a dictionary, the entry present for a key is the one lookup finds. */
  lemma {:induction false} GetUnique<V>(d: seq<(string, V)>, k: string, v: V)
    requires UniqueKeys(d) && (k, v) in d
    ensures Get(d, k) == Some(v)
  {
    if d[0] != (k, v) {
      assert d[0].0 != k by {
        var j :| 0 <= j < |d| && d[j] == (k, v);
      }
      assert (k, v) in d[1..] by {
        var j :| 0 <= j < |d| && d[j] == (k, v);
        assert d[1..][j - 1] == d[j];
      }
      GetUnique(d[1..], k, v);
    }
  }
}

=== FILE: dump.dfy ===
/** Dumping records back to plain data (`Attribute.dump` and its overrides,
    `Attributee.dump`). */
module Dump {
  import opened Wrappers
  import opened Dicts
  import opened Values
  import opened Schema
  import opened Engine

  /** The values of the dict a mapping denotes are no deeper than the
      mapping's values. */
  lemma DictValuesHeight(e: seq<(string, Val)>)
    ensures forall i :: 0 <= i < |DictOf(e)| ==> Height(DictOf(e)[i].1) <= HeightEntries(e)
  {
    var d := DictOf(e);
    forall i | 0 <= i < |d| ensures Height(d[i].1) <= HeightEntries(e) {
      var j :| 0 <= j < |e| && e[j] == d[i];
      EntryHeight(e, j);
    }
  }

  /** Dumps value `v` of a field with descriptor `f`. */
  function DumpValue(reg: Registry, f: Field, v: Val): (r: Result<Val, Error>)
    requires WellFormed(reg)
    decreases Height(v), 1, FieldSize(f), 1
  {
    match f.kind
    case ListKind(_, _) => DumpList(reg, f, v)
    case MapKind(_) => DumpMap(reg, f, v)
    case NestedKind(_) =>
      if v.VNone? then Ok(VNone)
      else if v.VInstance? then
        var d :- DumpRecord(reg, v);
        Ok(VDict(d))
      else Err(DumpFailed)
    case IncludeKind(_) =>
      if v.VNone? then Ok(VNone)
      else if v.VInstance? then
        var d :- DumpRecord(reg, v);
        Ok(VDict(d))
      else Err(DumpFailed)
    case ObjectKind(_) =>
      if v.VInstance? then
        var d :- DumpRecord(reg, v);
        Ok(VDict(Put(d, "type", VStr(v.cls))))
      else Err(DumpFailed)
    case _ => Ok(v)
  }

  /** `List.dump`: each item of the iterated value dumped, in order. */
  function DumpList(reg: Registry, f: Field, v: Val): (r: Result<Val, Error>)
    requires WellFormed(reg) && f.kind.ListKind?
    ensures r.Ok? ==> r.value.VList?
    decreases Height(v), 1, FieldSize(f), 0
  {
    match Iterate(v)
    case None => Err(NotIterable)
    case Some(items) =>
      var ds :- Collect(seq(|items|, i requires 0 <= i < |items| => DumpValue(reg, f.kind.contains, items[i])));
      Ok(VList(ds))
  }

  /** `Map.dump`: a dict with the same names, each value dumped. */
  function DumpMap(reg: Registry, f: Field, v: Val): (r: Result<Val, Error>)
    requires WellFormed(reg) && f.kind.MapKind?
    ensures r.Ok? ==> r.value.VDict?
    decreases Height(v), 1, FieldSize(f), 0
  {
    if !IsMapping(v) then Err(NotMapping)
    else
      var d := DictOf(v.entries);
      DictValuesHeight(v.entries);
      var ds :- Collect(seq(|d|, i requires 0 <= i < |d| => DumpValue(reg, f.kind.contains, d[i].1)));
      Ok(VDict(seq(|d|, i requires 0 <= i < |d| => (d[i].0, ds[i]))))
  }

  /** `Attributee.dump` on record `v`: its declared attributes in merged
      declaration order, each dumped through its descriptor, the dicts of
      included records merged in. */
  function DumpRecord(reg: Registry, v: Val): (r: Result<seq<(string, Val)>, Error>)
    requires WellFormed(reg) && v.VInstance?
    decreases Height(v), 0, 0, 0
  {
    if v.cls !in reg then Err(NotFound)
    else DumpFields(reg, Declared(reg, v.cls), 0, v.attrs, [])
  }

  function DumpFields(reg: Registry, fields: seq<(string, Field)>, i: nat, attrs: seq<(string, Val)>,
                      acc: seq<(string, Val)>): (r: Result<seq<(string, Val)>, Error>)
    requires WellFormed(reg) && i <= |fields|
    decreases HeightEntries(attrs), 2, |fields| - i, 0
  {
    if i == |fields| then Ok(acc)
    else
      var name := fields[i].0;
      var f := fields[i].1;
      if name !in Keys(attrs) then Err(MissingAttribute(name))
      else
        GetHeight(attrs, name);
        var d :- DumpValue(reg, f, Get(attrs, name).value);
        if f.kind.IncludeKind? then
          if d.VDict? then DumpFields(reg, fields, i + 1, attrs, Update(acc, d.entries))
          else Err(DumpFailed)
        else DumpFields(reg, fields, i + 1, attrs, Put(acc, name, d))
  }

  /** `List.dump` keeps length and order: item `i` of the result is the
      dump of item `i` of the iterated value. */
  lemma DumpListOrder(reg: Registry, f: Field, v: Val)
    requires WellFormed(reg) && f.kind.ListKind?
    requires DumpList(reg, f, v).Ok?
    ensures Iterate(v).Some?
    ensures var items := Iterate(v).value; var out := DumpList(reg, f, v).value.items;
      && |out| == |items|
      && forall i :: 0 <= i < |items| ==> DumpValue(reg, f.kind.contains, items[i]) == Ok(out[i])
  {
  }

  /** `Map.dump` keeps the names of the mapping, in order, each with its
      value dumped. */
  lemma DumpMapNames(reg: Registry, f: Field, v: Val)
    requires WellFormed(reg) && f.kind.MapKind?
    requires DumpMap(reg, f, v).Ok?
    ensures IsMapping(v)
    ensures var d := DictOf(v.entries); var out := DumpMap(reg, f, v).value.entries;
      && KeySeq(out) == KeySeq(d)
      && UniqueKeys(out)
      && forall i :: 0 <= i < |d| ==> DumpValue(reg, f.kind.contains, d[i].1) == Ok(out[i].1)
  {
    var d := DictOf(v.entries);
    var out := DumpMap(reg, f, v).value.entries;
    assert KeySeq(out) == KeySeq(d);
  }

  /** A mapping with distinct names denotes itself as a dict. */
  lemma DictOfDistinct(e: seq<(string, Val)>)
    requires UniqueKeys(e)
    ensures DictOf(e) == e
  {
    UpdateDistinctAppends([], e);
    assert [] + e == e;
  }

  /** For a list of plain values, dumping inverts coercion: coercing a list
      and dumping the result gives the list back. */
  lemma ListRoundTrip(reg: Registry, cv: Converters, f: Field, xs: seq<Val>, ctx: Context)
    requires WellFormed(reg) && f.kind.ListKind? && f.kind.contains.kind.AnyKind?
    requires ctx.key.None?
    ensures CoerceList(reg, cv, f, VList(xs), ctx) == Ok(VList(xs))
    ensures DumpList(reg, f, VList(xs)) == Ok(VList(xs))
  {
    var c := f.kind.contains;
    var rs := seq(|xs|, i requires 0 <= i < |xs| => Coerce(reg, cv, c, xs[i], ItemContext(ctx, IndexKey(i))));
    assert Collect(rs).value == xs;
    var ds := seq(|xs|, i requires 0 <= i < |xs| => DumpValue(reg, c, xs[i]));
    assert Collect(ds).value == xs;
  }

  /** Results that are all successes collect into their values. */
  lemma CollectAllOk(rs: seq<Result<Val, Error>>, vs: seq<Val>)
    requires |rs| == |vs| && forall i :: 0 <= i < |rs| ==> rs[i] == Ok(vs[i])
    ensures Collect(rs) == Ok(vs)
  {
  }

  /** Pairing the names of `e` with its own values rebuilds `e`. */
  lemma PairsRebuild(e: seq<(string, Val)>)
    ensures seq(|e|, i requires 0 <= i < |e| => (e[i].0, ValuesOf(e)[i])) == e
  {
  }

  /** Coercing a mapping of plain values with distinct names keeps its
      entries. */
  lemma MapCoerceKeeps(reg: Registry, cv: Converters, f: Field, e: seq<(string, Val)>, ctx: Context)
    requires WellFormed(reg) && f.kind.MapKind? && f.kind.contains.kind.AnyKind?
    requires UniqueKeys(e) && ctx.key.None?
    ensures CoerceMap(reg, cv, f, VDict(e), ctx) == Ok(VReadonly(e))
  {
    var c := f.kind.contains;
    DictOfDistinct(e);
    var rs := seq(|e|, i requires 0 <= i < |e| => Coerce(reg, cv, c, e[i].1, ItemContext(ctx, VStr(e[i].0))));
    CollectAllOk(rs, ValuesOf(e));
    PairsRebuild(e);
  }

  /** Dumping a read-only mapping of plain values with distinct names gives
      a dict with the same entries. */
  lemma MapDumpKeeps(reg: Registry, f: Field, e: seq<(string, Val)>)
    requires WellFormed(reg) && f.kind.MapKind? && f.kind.contains.kind.AnyKind?
    requires UniqueKeys(e)
    ensures DumpMap(reg, f, VReadonly(e)) == Ok(VDict(e))
  {
    var c := f.kind.contains;
    DictOfDistinct(e);
    var ds := seq(|e|, i requires 0 <= i < |e| => DumpValue(reg, c, e[i].1));
    CollectAllOk(ds, ValuesOf(e));
    PairsRebuild(e);
  }

  /** For a mapping of plain values with distinct names, dumping inverts
      coercion: the read-only mapping holds the same entries, and its dump
      is the original dict. */
  lemma MapRoundTrip(reg: Registry, cv: Converters, f: Field, e: seq<(string, Val)>, ctx: Context)
    requires WellFormed(reg) && f.kind.MapKind? && f.kind.contains.kind.AnyKind?
    requires UniqueKeys(e) && ctx.key.None?
    ensures CoerceMap(reg, cv, f, VDict(e), ctx) == Ok(VReadonly(e))
    ensures DumpMap(reg, f, CoerceMap(reg, cv, f, VDict(e), ctx).value) == Ok(VDict(e))
  {
    MapCoerceKeeps(reg, cv, f, e, ctx);
    MapDumpKeeps(reg, f, e);
  }

  /** `Object.dump` is the record's own dump with `"type"` set to the class
      name; every other name keeps its dumped value. */
  lemma ObjectDump(reg: Registry, f: Field, v: Val)
    requires WellFormed(reg) && f.kind.ObjectKind?
    requires DumpValue(reg, f, v).Ok?
    ensures v.VInstance? && DumpRecord(reg, v).Ok?
    ensures var own := DumpRecord(reg, v).value; var out := DumpValue(reg, f, v).value;
      && out.VDict?
      && Get(out.entries, "type") == Some(VStr(v.cls))
      && Keys(out.entries) == Keys(own) + {"type"}
      && forall k :: k != "type" ==> Get(out.entries, k) == Get(own, k)
  {
    var own := DumpRecord(reg, v).value;
    forall k | k != "type" ensures Get(Put(own, "type", VStr(v.cls)), k) == Get(own, k) {
      PutGetOther(own, "type", VStr(v.cls), k);
    }
  }

  /** The scalar descriptors dump a value as it is, so dumping a coerced
      scalar gives the coerced value back. */
  lemma ScalarDump(reg: Registry, cv: Converters, f: Field, v: Val, ctx: Context)
    requires WellFormed(reg)
    requires f.kind.AnyKind? || f.kind.NumberKind? || f.kind.BooleanKind? || f.kind.StringKind?
    ensures DumpValue(reg, f, v) == Ok(v)
    ensures Coerce(reg, cv, f, v, ctx).Ok? ==> DumpValue(reg, f, Coerce(reg, cv, f, v, ctx).value) == Coerce(reg, cv, f, v, ctx)
  {
  }

  /** `Nested.dump` gives `None` for `None` and the dict `Attributee.dump`
      gives for a record; it fails on anything else. */
  lemma NestedDump(reg: Registry, m: string, v: Val)
    requires WellFormed(reg)
    ensures var r := DumpValue(reg, Field(NestedKind(m), None), v);
      && (v.VNone? ==> r == Ok(VNone))
      && (v.VInstance? ==>
            (r.Ok? <==> DumpRecord(reg, v).Ok?) &&
            (r.Ok? ==> r.value == VDict(DumpRecord(reg, v).value)))
      && (!v.VNone? && !v.VInstance? ==> r.Err?)
  {
  }

  /** One turn of the dump loop over a non-Include field: its attribute is
      present, dumps, and is stored under its name. */
  lemma DumpFieldsStep(reg: Registry, fields: seq<(string, Field)>, i: nat,
                       attrs: seq<(string, Val)>, acc: seq<(string, Val)>)
    requires WellFormed(reg) && i < |fields| && !IsInclude(fields[i].1)
    requires DumpFields(reg, fields, i, attrs, acc).Ok?
    ensures fields[i].0 in Keys(attrs)
    ensures DumpValue(reg, fields[i].1, Get(attrs, fields[i].0).value).Ok?
    ensures DumpFields(reg, fields, i, attrs, acc)
         == DumpFields(reg, fields, i + 1, attrs,
              Put(acc, fields[i].0, DumpValue(reg, fields[i].1, Get(attrs, fields[i].0).value).value))
  {
  }

  /** A reference dump for schema types without `Include` fields: each
      declared field, in order, with its dumped attribute. */
  function PlainDump(reg: Registry, fields: seq<(string, Field)>, i: nat, attrs: seq<(string, Val)>)
    : (r: Result<seq<(string, Val)>, Error>)
    requires WellFormed(reg) && i <= |fields|
    ensures r.Ok? ==> |r.value| == |fields| - i && forall t :: 0 <= t < |r.value| ==> r.value[t].0 == fields[i + t].0
    decreases |fields| - i
  {
    if i == |fields| then Ok([])
    else
      var name := fields[i].0;
      if name !in Keys(attrs) then Err(MissingAttribute(name))
      else
        var d :- DumpValue(reg, fields[i].1, Get(attrs, name).value);
        var rest :- PlainDump(reg, fields, i + 1, attrs);
        Ok([(name, d)] + rest)
  }

  /** `r`'s entries after `acc`; `r`'s error if it failed. */
  function AppendTo(acc: seq<(string, Val)>, r: Result<seq<(string, Val)>, Error>): Result<seq<(string, Val)>, Error>
  {
    if r.Ok? then Ok(acc + r.value) else Err(r.error)
  }

  lemma AppendToTwice(acc: seq<(string, Val)>, e: (string, Val), r: Result<seq<(string, Val)>, Error>)
    ensures AppendTo(acc + [e], r) == AppendTo(acc, AppendTo([e], r))
  {
    if r.Ok? {
      assert acc + [e] + r.value == acc + ([e] + r.value);
    }
  }

  /** One turn of the reference dump over a field whose attribute is present
      and dumps. */
  lemma PlainDumpStep(reg: Registry, fields: seq<(string, Field)>, i: nat, attrs: seq<(string, Val)>)
    requires WellFormed(reg) && i < |fields| && fields[i].0 in Keys(attrs)
    requires DumpValue(reg, fields[i].1, Get(attrs, fields[i].0).value).Ok?
    ensures PlainDump(reg, fields, i, attrs)
         == AppendTo([(fields[i].0, DumpValue(reg, fields[i].1, Get(attrs, fields[i].0).value).value)],
                     PlainDump(reg, fields, i + 1, attrs))
  {
  }

  /** A non-Include field whose attribute is missing or does not dump stops
      the dump loop and the reference dump with the same error. */
  lemma PlainDumpStops(reg: Registry, fields: seq<(string, Field)>, i: nat,
                       attrs: seq<(string, Val)>, acc: seq<(string, Val)>)
    requires WellFormed(reg) && i < |fields| && !IsInclude(fields[i].1)
    requires fields[i].0 !in Keys(attrs) || DumpValue(reg, fields[i].1, Get(attrs, fields[i].0).value).Err?
    ensures DumpFields(reg, fields, i, attrs, acc).Err?
    ensures DumpFields(reg, fields, i, attrs, acc) == AppendTo(acc, PlainDump(reg, fields, i, attrs))
  {
  }

  /** One turn of the dump loop over a non-Include field with a new name
      appends the field's dumped attribute; later names stay new. */
  lemma DumpFieldsAppends(reg: Registry, fields: seq<(string, Field)>, i: nat,
                          attrs: seq<(string, Val)>, acc: seq<(string, Val)>)
    requires WellFormed(reg) && i < |fields| && UniqueKeys(fields)
    requires forall j :: i <= j < |fields| ==> !IsInclude(fields[j].1) && fields[j].0 !in Keys(acc)
    requires fields[i].0 in Keys(attrs) && DumpValue(reg, fields[i].1, Get(attrs, fields[i].0).value).Ok?
    ensures var acc' := acc + [(fields[i].0, DumpValue(reg, fields[i].1, Get(attrs, fields[i].0).value).value)];
      && DumpFields(reg, fields, i, attrs, acc) == DumpFields(reg, fields, i + 1, attrs, acc')
      && forall j :: i + 1 <= j < |fields| ==> !IsInclude(fields[j].1) && fields[j].0 !in Keys(acc')
  {
    var name := fields[i].0;
    var d := DumpValue(reg, fields[i].1, Get(attrs, name).value).value;
    PutNewAppends(acc, name, d);
    KeySeqOfAppend(acc, name, d);
    forall j | i + 1 <= j < |fields| ensures fields[j].0 != name {
      assert KeySeq(fields)[j] != KeySeq(fields)[i];
    }
  }

  /** Without `Include` fields, dumping appends the reference dump to what
      is already there, and fails, with the same error, exactly when the
      reference dump fails. */
  lemma {:induction false} DumpFieldsPlain(reg: Registry, fields: seq<(string, Field)>, i: nat,
                                           attrs: seq<(string, Val)>, acc: seq<(string, Val)>)
    requires WellFormed(reg) && i <= |fields| && UniqueKeys(fields)
    requires forall j :: i <= j < |fields| ==> !IsInclude(fields[j].1) && fields[j].0 !in Keys(acc)
    ensures DumpFields(reg, fields, i, attrs, acc) == AppendTo(acc, PlainDump(reg, fields, i, attrs))
    decreases |fields| - i
  {
    if i == |fields| {
      assert acc + [] == acc;
    } else {
      var name := fields[i].0;
      if name in Keys(attrs) && DumpValue(reg, fields[i].1, Get(attrs, name).value).Ok? {
        var d := DumpValue(reg, fields[i].1, Get(attrs, name).value).value;
        DumpFieldsAppends(reg, fields, i, attrs, acc);
        DumpFieldsPlain(reg, fields, i + 1, attrs, acc + [(name, d)]);
        PlainDumpStep(reg, fields, i, attrs);
        AppendToTwice(acc, (name, d), PlainDump(reg, fields, i + 1, attrs));
      } else {
        PlainDumpStops(reg, fields, i, attrs, acc);
      }
    }
  }

  lemma KeySeqOfAppend(acc: seq<(string, Val)>, name: string, d: Val)
    ensures Keys(acc + [(name, d)]) == Keys(acc) + {name}
  {
    assert KeySeq(acc + [(name, d)]) == KeySeq(acc) + [name];
  }

  /** The dump of a record whose schema type has no `Include` field is the
      reference dump: the declared names in merged declaration order, each
      with its dumped attribute. */
  lemma DumpRecordOrder(reg: Registry, v: Val)
    requires WellFormed(reg) && v.VInstance? && v.cls in reg
    requires forall j :: 0 <= j < |Declared(reg, v.cls)| ==> !IsInclude(Declared(reg, v.cls)[j].1)
    ensures DumpRecord(reg, v).Ok? <==> PlainDump(reg, Declared(reg, v.cls), 0, v.attrs).Ok?
    ensures DumpRecord(reg, v).Ok? ==>
      && DumpRecord(reg, v).value == PlainDump(reg, Declared(reg, v.cls), 0, v.attrs).value
      && KeySeq(DumpRecord(reg, v).value) == KeySeq(Declared(reg, v.cls))
  {
    var fields := Declared(reg, v.cls);
    DumpFieldsPlain(reg, fields, 0, v.attrs, []);
    if DumpRecord(reg, v).Ok? {
      assert [] + PlainDump(reg, fields, 0, v.attrs).value == PlainDump(reg, fields, 0, v.attrs).value;
    }
  }

  /** The names of the non-Include fields from index `i` on. */
  function PlainNames(fields: seq<(string, Field)>, i: nat): set<string>
    requires i <= |fields|
    decreases |fields| - i
  {
    if i == |fields| then {}
    else if IsInclude(fields[i].1) then PlainNames(fields, i + 1)
    else {fields[i].0} + PlainNames(fields, i + 1)
  }

  /** The names in the dumps of the included records from index `i` on. */
  function IncludedNames(reg: Registry, fields: seq<(string, Field)>, i: nat, attrs: seq<(string, Val)>): set<string>
    requires WellFormed(reg) && i <= |fields|
    decreases |fields| - i
  {
    if i == |fields| then {}
    else
      var name := fields[i].0;
      var rest := IncludedNames(reg, fields, i + 1, attrs);
      if IsInclude(fields[i].1) && name in Keys(attrs) then
        var d := DumpValue(reg, fields[i].1, Get(attrs, name).value);
        if d.Ok? && d.value.VDict? then Keys(d.value.entries) + rest else rest
      else rest
  }

  /** A record's dump holds its non-Include names and, merged flat, the
      names of its included records' dumps; an `Include` field's own name is
      not added. */
  lemma {:induction false} DumpFieldsKeys(reg: Registry, fields: seq<(string, Field)>, i: nat,
                                          attrs: seq<(string, Val)>, acc: seq<(string, Val)>)
    requires WellFormed(reg) && i <= |fields|
    requires DumpFields(reg, fields, i, attrs, acc).Ok?
    ensures Keys(DumpFields(reg, fields, i, attrs, acc).value)
         == Keys(acc) + PlainNames(fields, i) + IncludedNames(reg, fields, i, attrs)
    decreases |fields| - i
  {
    if i < |fields| {
      var name := fields[i].0;
      var d := DumpValue(reg, fields[i].1, Get(attrs, name).value).value;
      if IsInclude(fields[i].1) {
        DumpFieldsKeys(reg, fields, i + 1, attrs, Update(acc, d.entries));
      } else {
        DumpFieldsKeys(reg, fields, i + 1, attrs, Put(acc, name, d));
      }
    }
  }

  /** The dump of a record holds exactly its non-Include declared names and
      the names of its included records' dumps. */
  lemma DumpRecordKeys(reg: Registry, v: Val)
    requires WellFormed(reg) && v.VInstance? && v.cls in reg
    requires DumpRecord(reg, v).Ok?
    ensures Keys(DumpRecord(reg, v).value)
         == PlainNames(Declared(reg, v.cls), 0) + IncludedNames(reg, Declared(reg, v.cls), 0, v.attrs)
  {
    DumpFieldsKeys(reg, Declared(reg, v.cls), 0, v.attrs, []);
  }

  /** The entries the fields from `i` on contribute to a dump, in field
      order: a plain field its name with its dumped value, an `Include`
      field every entry of its record's dump. Fails where the dump loop
      fails. */
  function Contributions(reg: Registry, fields: seq<(string, Field)>, i: nat, attrs: seq<(string, Val)>)
    : (r: Result<seq<(string, Val)>, Error>)
    requires WellFormed(reg) && i <= |fields|
    decreases |fields| - i
  {
    if i == |fields| then Ok([])
    else
      var name := fields[i].0;
      if name !in Keys(attrs) then Err(MissingAttribute(name))
      else
        var d :- DumpValue(reg, fields[i].1, Get(attrs, name).value);
        if fields[i].1.kind.IncludeKind? then
          if d.VDict? then
            var rest :- Contributions(reg, fields, i + 1, attrs);
            Ok(d.entries + rest)
          else Err(DumpFailed)
        else
          var rest :- Contributions(reg, fields, i + 1, attrs);
          Ok([(name, d)] + rest)
  }

  /** The dump loop from field `i` on, started from `acc`, fails exactly
      when the contributions do; otherwise it assigns them one after the
      other, so a later name, plain or included, overwrites an earlier one. */
  lemma {:induction false} DumpFieldsContributions(reg: Registry, fields: seq<(string, Field)>, i: nat,
                                                   attrs: seq<(string, Val)>, acc: seq<(string, Val)>)
    requires WellFormed(reg) && i <= |fields|
    ensures DumpFields(reg, fields, i, attrs, acc).Ok? <==> Contributions(reg, fields, i, attrs).Ok?
    ensures DumpFields(reg, fields, i, attrs, acc).Ok? ==>
      var out := DumpFields(reg, fields, i, attrs, acc).value;
      var c := Contributions(reg, fields, i, attrs).value;
      && Keys(out) == Keys(acc) + Keys(c)
      && forall k :: Get(out, k) == if k in Keys(c) then GetLast(c, k) else Get(acc, k)
    decreases |fields| - i
  {
    if i < |fields| {
      var name := fields[i].0;
      DumpFieldsTurn(reg, fields, i, attrs, acc);
      ContributionsTurn(reg, fields, i, attrs);
      if name in Keys(attrs) {
        var d := DumpValue(reg, fields[i].1, Get(attrs, name).value);
        if d.Ok? {
          var rest := Contributions(reg, fields, i + 1, attrs);
          if fields[i].1.kind.IncludeKind? {
            if d.value.VDict? {
              var e := d.value.entries;
              DumpFieldsContributions(reg, fields, i + 1, attrs, Update(acc, e));
              JoinTurn(acc, e, Update(acc, e), DumpFields(reg, fields, i + 1, attrs, Update(acc, e)), rest);
            }
          } else {
            var u := Put(acc, name, d.value);
            DumpFieldsContributions(reg, fields, i + 1, attrs, u);
            PutOne(acc, name, d.value);
            JoinTurn(acc, [(name, d.value)], u, DumpFields(reg, fields, i + 1, attrs, u), rest);
          }
        }
      }
    }
  }

  /** One turn of the dump loop, for every outcome of the field's dump. */
  lemma DumpFieldsTurn(reg: Registry, fields: seq<(string, Field)>, i: nat,
                       attrs: seq<(string, Val)>, acc: seq<(string, Val)>)
    requires WellFormed(reg) && i < |fields|
    ensures var name := fields[i].0; var r := DumpFields(reg, fields, i, attrs, acc);
      && (name !in Keys(attrs) ==> r.Err?)
      && (name in Keys(attrs) ==>
            var d := DumpValue(reg, fields[i].1, Get(attrs, name).value);
            && (d.Err? ==> r.Err?)
            && (d.Ok? && fields[i].1.kind.IncludeKind? ==>
                  r == if d.value.VDict? then DumpFields(reg, fields, i + 1, attrs, Update(acc, d.value.entries))
                       else Err(DumpFailed))
            && (d.Ok? && !fields[i].1.kind.IncludeKind? ==>
                  r == DumpFields(reg, fields, i + 1, attrs, Put(acc, name, d.value))))
  {
  }

  /** One turn of the contributions, for every outcome of the field's dump. */
  lemma ContributionsTurn(reg: Registry, fields: seq<(string, Field)>, i: nat, attrs: seq<(string, Val)>)
    requires WellFormed(reg) && i < |fields|
    ensures var name := fields[i].0; var r := Contributions(reg, fields, i, attrs);
      && (name !in Keys(attrs) ==> r.Err?)
      && (name in Keys(attrs) ==>
            var d := DumpValue(reg, fields[i].1, Get(attrs, name).value);
            && (d.Err? ==> r.Err?)
            && (d.Ok? && fields[i].1.kind.IncludeKind? ==>
                  r == if d.value.VDict? then AppendTo(d.value.entries, Contributions(reg, fields, i + 1, attrs))
                       else Err(DumpFailed))
            && (d.Ok? && !fields[i].1.kind.IncludeKind? ==>
                  r == AppendTo([(name, d.value)], Contributions(reg, fields, i + 1, attrs))))
  {
  }

  /** Assigning one entry, stated as an update with it. */
  lemma PutOne(acc: seq<(string, Val)>, name: string, v: Val)
    ensures Keys(Put(acc, name, v)) == Keys(acc) + Keys([(name, v)])
    ensures forall k :: Get(Put(acc, name, v), k) == if k in Keys([(name, v)]) then GetLast([(name, v)], k) else Get(acc, k)
  {
    assert KeySeq([(name, v)]) == [name];
    forall k | k != name ensures Get(Put(acc, name, v), k) == Get(acc, k) {
      PutGetOther(acc, name, v, k);
    }
  }

  /** One turn of `DumpFieldsContributions`: `u` is `acc` updated with `e`,
      and the loop's result `out` from `u` on assigns the contributions
      `rest`; then `out` assigns `e` followed by `rest` to `acc`. */
  lemma JoinTurn(acc: seq<(string, Val)>, e: seq<(string, Val)>, u: seq<(string, Val)>,
                 out: Result<seq<(string, Val)>, Error>, rest: Result<seq<(string, Val)>, Error>)
    requires Keys(u) == Keys(acc) + Keys(e)
    requires forall k :: Get(u, k) == if k in Keys(e) then GetLast(e, k) else Get(acc, k)
    requires out.Ok? <==> rest.Ok?
    requires out.Ok? ==>
      && Keys(out.value) == Keys(u) + Keys(rest.value)
      && forall k :: Get(out.value, k) == if k in Keys(rest.value) then GetLast(rest.value, k) else Get(u, k)
    ensures out.Ok? <==> AppendTo(e, rest).Ok?
    ensures out.Ok? ==>
      var c := AppendTo(e, rest).value;
      && Keys(out.value) == Keys(acc) + Keys(c)
      && forall k :: Get(out.value, k) == if k in Keys(c) then GetLast(c, k) else Get(acc, k)
  {
    if out.Ok? {
      ContributionsJoin(acc, e, u, rest.value);
    }
  }

  /** Assigning `e` to `acc` and then `rest` is assigning `e + rest`. */
  lemma ContributionsJoin(acc: seq<(string, Val)>, e: seq<(string, Val)>, u: seq<(string, Val)>, rest: seq<(string, Val)>)
    requires Keys(u) == Keys(acc) + Keys(e)
    requires forall k :: Get(u, k) == if k in Keys(e) then GetLast(e, k) else Get(acc, k)
    ensures Keys(u) + Keys(rest) == Keys(acc) + Keys(e + rest)
    ensures forall k :: (if k in Keys(rest) then GetLast(rest, k) else Get(u, k))
                     == (if k in Keys(e + rest) then GetLast(e + rest, k) else Get(acc, k))
  {
    KeySeqAppend(e, rest);
    forall k ensures GetLast(e + rest, k) == if k in Keys(rest) then GetLast(rest, k) else GetLast(e, k) {
      GetLastAppend(e, rest, k);
    }
  }

  /** A record dumps exactly when its fields' contributions do; each name of
      the dump holds the value of its last contribution. */
  lemma DumpRecordValues(reg: Registry, v: Val)
    requires WellFormed(reg) && v.VInstance? && v.cls in reg
    ensures DumpRecord(reg, v).Ok? <==> Contributions(reg, Declared(reg, v.cls), 0, v.attrs).Ok?
    ensures DumpRecord(reg, v).Ok? ==>
      var c := Contributions(reg, Declared(reg, v.cls), 0, v.attrs).value;
      && Keys(DumpRecord(reg, v).value) == Keys(c)
      && forall k :: k in Keys(c) ==> Get(DumpRecord(reg, v).value, k) == GetLast(c, k)
  {
    DumpFieldsContributions(reg, Declared(reg, v.cls), 0, v.attrs, []);
    assert Keys<Val>([]) == {};
  }
}

=== FILE: engine.dfy ===
/** The schema engine: coercing data through field descriptors, constructing
    records of a schema type from keyword arguments, the two object resolvers,
    and the read-only guard on declared attributes. */
module Engine {
  import opened Wrappers
  import opened Dicts
  import opened Values
  import opened Schema
  import opened Text

  datatype Error =
      /** "Missing arguments": the declared names nothing supplied. */
    | Missing(names: set<string>)
      /** "Unsupported arguments": the supplied names nothing consumed. */
    | Unsupported(names: set<string>)
      /** A scalar converter rejected the value. */
    | ConversionFailed
    | NotIterable
    | NotMapping
    | NotDict
      /** `str.split` with an empty separator. */
    | EmptySeparator
      /** A call received the same keyword argument twice. */
    | DuplicateKeyword(name: string)
      /** The class name could not be imported. */
    | NotFound
    | NotSchemaType
    | NotSubclass
    | MissingAttribute(name: string)
      /** Rebinding a declared attribute. */
    | ReadOnly(name: string)
    | DumpFailed
      /** A descriptor's `coerce` read one of its own attributes before its
          `__init__` had set it (an `AttributeError`). */
    | NotInitialised
      /** A call received a keyword argument it does not take. */
    | UnexpectedKeyword(name: string)

  /** The scalar converters of the utilities module, whose code is not part of
      this model: `to_number(value, max, min, conversion)`, `to_logical`,
      `to_string`. `None` stands for the exception they raise. */
  datatype Converters = Converters(
    number: (Val, NumKind, Option<real>, Option<real>) -> Option<real>,
    logical: Val -> Option<bool>,
    text: Val -> Option<string>)

  /** The dict that a mapping's entries denote: a name keeps its first
      position and its last value. */
  function DictOf(e: seq<(string, Val)>): (d: seq<(string, Val)>)
    ensures DrawnFrom(d, e) && Keys(d) == Keys(e)
  {
    FromPairsEntries(e);
    FromPairs(e)
  }

  function StrVals(xs: seq<string>): (vs: seq<Val>)
    ensures |vs| == |xs| && forall i :: 0 <= i < |xs| ==> vs[i] == VStr(xs[i])
  {
    seq(|xs|, i requires 0 <= i < |xs| => VStr(xs[i]))
  }

  function ValuesOf(d: seq<(string, Val)>): (vs: seq<Val>)
    ensures |vs| == |d| && forall i :: 0 <= i < |d| ==> vs[i] == d[i].1
  {
    seq(|d|, i requires 0 <= i < |d| => d[i].1)
  }

  /** Python iteration over a value: a list yields its items, a string its
      characters, a mapping its keys; anything else is not iterable. */
  function Iterate(v: Val): (r: Option<seq<Val>>)
    ensures r.Some? <==> (v.VList? || v.VStr? || IsMapping(v))
    ensures r.Some? ==> forall i :: 0 <= i < |r.value| ==> Height(r.value[i]) < Height(v) || r.value[i].VStr?
  {
    match v
    case VList(items) =>
      AllItemsHeight(items);
      Some(items)
    case VStr(s) => Some(seq(|s|, i requires 0 <= i < |s| => VStr([s[i]])))
    case VDict(e) => Some(StrVals(KeySeq(DictOf(e))))
    case VReadonly(e) => Some(StrVals(KeySeq(DictOf(e))))
    case _ => None
  }

  /** Collects a sequence of results: the first error, or every value. */
  function Collect(rs: seq<Result<Val, Error>>): (r: Result<seq<Val>, Error>)
    ensures r.Ok? <==> forall i :: 0 <= i < |rs| ==> rs[i].Ok?
    ensures r.Ok? ==> |r.value| == |rs| && forall i :: 0 <= i < |rs| ==> r.value[i] == rs[i].value
    ensures r.Err? ==> exists i :: 0 <= i < |rs| && rs[i] == Err(r.error) && forall j :: 0 <= j < i ==> rs[j].Ok?
  {
    if |rs| == 0 then Ok([])
    else if rs[0].Err? then Err(rs[0].error)
    else
      match Collect(rs[1..])
      case Err(e) =>
        assert exists i :: 0 <= i < |rs| && rs[i] == Err(e) && forall j :: 0 <= j < i ==> rs[j].Ok? by {
          var i :| 0 <= i < |rs[1..]| && rs[1..][i] == Err(e) && forall j :: 0 <= j < i ==> rs[1..][j].Ok?;
          assert rs[i + 1] == Err(e);
          assert forall j :: 1 <= j < i + 1 ==> rs[j] == rs[1..][j - 1];
        }
        Err(e)
      case Ok(vs) =>
        assert forall i :: 1 <= i < |rs| ==> rs[i] == rs[1..][i - 1];
        Ok([rs[0].value] + vs)
  }

  /** The termination measure of coercion: how deep a value can still make
      coercion recurse. Settled values cannot reach record construction. */
  function Depth(f: Field, v: Val): nat
  {
    if Settled(f, v) then 0 else Height(v)
  }

  /** The sequence `List.coerce` iterates: a string split on the separator,
      a dict's values, or the items of any other iterable. */
  function ListSource(f: Field, v: Val): (r: Result<seq<Val>, Error>)
    requires f.kind.ListKind?
    ensures r.Ok? ==> forall i :: 0 <= i < |r.value| ==> Depth(f.kind.contains, r.value[i]) <= Depth(f, v)
  {
    var c := f.kind.contains;
    match v
    case VStr(s) =>
      if |f.kind.separator| == 0 then Err(EmptySeparator)
      else
        var items := StrVals(Split(s, f.kind.separator));
        assert forall i :: 0 <= i < |items| ==> Settled(c, items[i]);
        Ok(items)
    case VDict(e) =>
      DictSourceDepth(f, e);
      Ok(ValuesOf(DictOf(e)))
    case _ =>
      match Iterate(v)
      case None => Err(NotIterable)
      case Some(items) =>
        IterateSourceDepth(f, v);
        Ok(items)
  }

  /** A dict's values are no deeper, for the element descriptor, than the
      dict is for the list descriptor. */
  lemma DictSourceDepth(f: Field, e: seq<(string, Val)>)
    requires f.kind.ListKind?
    ensures forall i :: 0 <= i < |DictOf(e)| ==> Depth(f.kind.contains, ValuesOf(DictOf(e))[i]) <= Depth(f, VDict(e))
  {
    var d := DictOf(e);
    var vs := ValuesOf(d);
    forall i | 0 <= i < |d| ensures Depth(f.kind.contains, vs[i]) <= Depth(f, VDict(e)) {
      assert d[i] in e;
      DictEntryDepth(f, e, d[i]);
    }
  }

  /** One entry of a dict, for the element descriptor, against the dict
      for the list descriptor. */
  lemma DictEntryDepth(f: Field, e: seq<(string, Val)>, x: (string, Val))
    requires f.kind.ListKind? && x in e
    ensures Depth(f.kind.contains, x.1) <= Depth(f, VDict(e))
  {
    var j :| 0 <= j < |e| && e[j] == x;
    EntryHeight(e, j);
    if Settled(f, VDict(e)) {
      assert Settled(f.kind.contains, e[j].1);
    }
  }

  /** The items of an iterable are no deeper, for the element descriptor,
      than the iterable is for the list descriptor. */
  lemma IterateSourceDepth(f: Field, v: Val)
    requires f.kind.ListKind? && Iterate(v).Some?
    ensures forall i :: 0 <= i < |Iterate(v).value| ==> Depth(f.kind.contains, Iterate(v).value[i]) <= Depth(f, v)
  {
    var items := Iterate(v).value;
    forall i | 0 <= i < |items| ensures Depth(f.kind.contains, items[i]) <= Depth(f, v) {
      if items[i].VStr? {
        ScalarsSettled(f.kind.contains, items[i].s);
      }
    }
  }

  /** The context handed to the coercion of a list element or map value:
      the enclosing context with `key` added. Python rejects the call when
      the context already carries a key. */
  function ItemContext(ctx: Context, key: Val): Context
  {
    Context(Some(key), ctx.parent)
  }

  /** Coerces `v` through descriptor `f` (`Attribute.coerce` and its
      overrides), in context `ctx`. */
  function Coerce(reg: Registry, cv: Converters, f: Field, v: Val, ctx: Context): Result<Val, Error>
    requires WellFormed(reg) && RefsKnown(reg, f)
    decreases Depth(f, v), 0, FieldSize(f), 1
  {
    match f.kind
    case AnyKind => Ok(v)
    case NumberKind(conversion, lo, hi) =>
      (match cv.number(v, conversion, lo, hi)
       case Some(x) => Ok(VNum(x))
       case None => Err(ConversionFailed))
    case BooleanKind =>
      (match cv.logical(v)
       case Some(b) => Ok(VBool(b))
       case None => Err(ConversionFailed))
    case StringKind =>
      (match cv.text(v)
       case Some(s) => Ok(VStr(s))
       case None => Err(ConversionFailed))
    case ListKind(_, _) => CoerceList(reg, cv, f, v, ctx)
    case MapKind(_) => CoerceMap(reg, cv, f, v, ctx)
    case NestedKind(m) => CoerceNested(reg, cv, f, m, v)
    case IncludeKind(m) => CoerceNested(reg, cv, f, m, v)
    case ObjectKind(_) => CoerceObject(reg, cv, f, v, ctx)
  }

  /** `List.coerce`: element `i` of the source sequence is coerced with
      context key `i`. */
  function CoerceList(reg: Registry, cv: Converters, f: Field, v: Val, ctx: Context): (r: Result<Val, Error>)
    requires WellFormed(reg) && RefsKnown(reg, f) && f.kind.ListKind?
    ensures r.Ok? ==> r.value.VList?
    decreases Depth(f, v), 0, FieldSize(f), 0
  {
    var c := f.kind.contains;
    var items :- ListSource(f, v);
    if ctx.key.Some? && |items| > 0 then Err(DuplicateKeyword("key"))
    else
      var vs :- Collect(seq(|items|, i requires 0 <= i < |items| =>
        Coerce(reg, cv, c, items[i], ItemContext(ctx, IndexKey(i)))));
      Ok(VList(vs))
  }

  /** `Map.coerce`: each value is coerced with its name as context key, into
      a read-only mapping with the same names. */
  function CoerceMap(reg: Registry, cv: Converters, f: Field, v: Val, ctx: Context): (r: Result<Val, Error>)
    requires WellFormed(reg) && RefsKnown(reg, f) && f.kind.MapKind?
    ensures r.Ok? ==> r.value.VReadonly?
    decreases Depth(f, v), 0, FieldSize(f), 0
  {
    var c := f.kind.contains;
    if !IsMapping(v) then Err(NotMapping)
    else
      var d := DictOf(v.entries);
      if ctx.key.Some? && |d| > 0 then Err(DuplicateKeyword("key"))
      else
        MapValuesDepth(f, v, d);
        var vs :- Collect(seq(|d|, i requires 0 <= i < |d| =>
          Coerce(reg, cv, c, d[i].1, ItemContext(ctx, VStr(d[i].0)))));
        Ok(VReadonly(seq(|d|, i requires 0 <= i < |d| => (d[i].0, vs[i]))))
  }

  lemma MapValuesDepth(f: Field, v: Val, d: seq<(string, Val)>)
    requires f.kind.MapKind? && IsMapping(v) && d == DictOf(v.entries)
    ensures forall i :: 0 <= i < |d| ==> Depth(f.kind.contains, d[i].1) <= Depth(f, v)
  {
    var c := f.kind.contains;
    var e := v.entries;
    assert DrawnFrom(d, e);
    forall i | 0 <= i < |d| ensures Depth(c, d[i].1) <= Depth(f, v) {
      assert d[i] in e;
      var j :| 0 <= j < |e| && e[j] == d[i];
      EntryDepth(f, v, j);
    }
  }

  lemma EntryDepth(f: Field, v: Val, j: nat)
    requires f.kind.MapKind? && IsMapping(v) && j < |v.entries|
    ensures Depth(f.kind.contains, v.entries[j].1) <= Depth(f, v)
  {
    if Settled(f, v) {
      assert Settled(f.kind.contains, v.entries[j].1);
    } else {
      EntryHeight(v.entries, j);
    }
  }

  /** `Nested.coerce`: `None` and the undefined marker pass through, a
      mapping constructs a record of schema type `m`, anything else fails. */
  function CoerceNested(reg: Registry, cv: Converters, f: Field, m: string, v: Val): (r: Result<Val, Error>)
    requires WellFormed(reg) && m in reg && (f.kind == NestedKind(m) || f.kind == IncludeKind(m))
    ensures r.Ok? ==> r.value.VNone? || r.value.VUndefined? || r.value.VInstance?
    decreases Depth(f, v), 0, FieldSize(f), 0
  {
    if v.VNone? then Ok(VNone)
    else if v.VUndefined? then Ok(VUndefined)
    else if !IsMapping(v) then Err(NotMapping)
    else
      var kw := DictOf(v.entries);
      assert Depth(f, v) == Height(v);
      SubEntriesHeight(kw, v.entries);
      Construct(reg, cv, m, kw, [])
  }

  /** `Object.coerce`: a dict goes to the resolver, its `"type"` entry as
      class name and its other entries as keyword arguments. */
  function CoerceObject(reg: Registry, cv: Converters, f: Field, v: Val, ctx: Context): (r: Result<Val, Error>)
    requires WellFormed(reg) && f.kind.ObjectKind?
    ensures r.Ok? ==> r.value.VInstance?
    decreases Depth(f, v), 0, FieldSize(f), 0
  {
    if !v.VDict? then Err(NotDict)
    else
      var d := DictOf(v.entries);
      var rest := Remove(d, "type");
      assert Depth(f, v) == Height(v);
      SubEntriesHeight(d, v.entries);
      SubEntriesHeight(rest, d);
      Resolve(reg, cv, f.kind.resolver, Get(d, "type"), ctx, rest)
  }

  /** `import_class(typename)`: the registered class of that name. */
  function Lookup(reg: Registry, typename: Option<Val>): (r: Result<string, Error>)
    ensures r.Ok? <==> typename.Some? && typename.value.VStr? && typename.value.s in reg
    ensures r.Ok? ==> typename == Some(VStr(r.value))
  {
    match typename
    case Some(VStr(n)) => if n in reg then Ok(n) else Err(NotFound)
    case _ => Err(NotFound)
  }

  /** `context["parent"].workspace.storage`, or `None` without a parent. */
  function ParentStorage(ctx: Context): Result<Val, Error>
  {
    match ctx.parent
    case None => Ok(VNone)
    case Some(p) =>
      var ws: Option<Val> := Get(p.extra, "_workspace");
      if ws.Some? && ws.value.VExternal? then
        var storage: Option<Val> := Get(ws.value.attrs, "storage");
        if storage.Some? then Ok(storage.value) else Err(MissingAttribute("storage"))
      else Err(MissingAttribute("workspace"))
  }

  /** An `Object` resolver called with the class name, the context and the
      remaining entries as keyword arguments. */
  function Resolve(reg: Registry, cv: Converters, resolver: Resolver, typename: Option<Val>,
                   ctx: Context, rest: seq<(string, Val)>): (r: Result<Val, Error>)
    requires WellFormed(reg)
    ensures r.Ok? ==> r.value.VInstance?
    decreases HeightEntries(rest), 2, 0, 0
  {
    match resolver
    case DefaultResolver =>
      if "typename" in Keys(rest) then Err(DuplicateKeyword("typename"))
      else if "_" in Keys(rest) then Err(DuplicateKeyword("_"))
      else
        var n :- Lookup(reg, typename);
        if !reg[n].isSchema then Err(NotSchemaType)
        else Construct(reg, cv, n, rest, [])
    case InjectingResolver(base) =>
      if "typename" in Keys(rest) then Err(DuplicateKeyword("typename"))
      else if "context" in Keys(rest) then Err(DuplicateKeyword("context"))
      else
        var n :- Lookup(reg, typename);
        if n != base && base !in reg[n].ancestors then Err(NotSubclass)
        else
          var identifier := if ctx.key.Some? then ctx.key.value else VNone;
          var storage :- ParentStorage(ctx);
          if "_identifier" in Keys(rest) then Err(DuplicateKeyword("_identifier"))
          else if "_storage" in Keys(rest) then Err(DuplicateKeyword("_storage"))
          else Construct(reg, cv, n, rest, [("_identifier", identifier), ("_storage", storage)])
  }

  /** The state of the construction loop: the attributes set so far, the
      supplied names not yet consumed, the declared names not yet given a
      value. */
  datatype Progress = Progress(attrs: seq<(string, Val)>, unconsumed: set<string>, unspecified: set<string>)

  /** `Attributee.__init__(**kw)` on a record of schema type `n` whose
      attributes `extra` were set before construction began. A keyword
      `self` collides with the positional parameter of `__init__` before
      anything is set. */
  function Construct(reg: Registry, cv: Converters, n: string, kw: seq<(string, Val)>,
                     extra: seq<(string, Val)>): (r: Result<Val, Error>)
    requires WellFormed(reg) && n in reg
    ensures r.Ok? ==> r.value.VInstance? && r.value.cls == n && r.value.extra == extra
    ensures "self" in Keys(kw) ==> r == Err(DuplicateKeyword("self"))
    decreases HeightEntries(kw), 1, reg[n].rank, |Declared(reg, n)| + 1
  {
    if "self" in Keys(kw) then Err(DuplicateKeyword("self")) else
    var fields := Declared(reg, n);
    var ctx := Context(None, Some(Parent(n, extra)));
    var p :- ConstructFields(reg, cv, fields, 0, kw, ctx, Progress([], Keys(kw), Keys(fields)), reg[n].rank);
    if p.unspecified != {} then Err(Missing(p.unspecified))
    else if p.unconsumed != {} then Err(Unsupported(p.unconsumed))
    else Ok(VInstance(n, p.attrs, extra))
  }

  /** The value a non-Include field is constructed from: the supplied one,
      else its default (the undefined marker when there is none) if the
      field is not required; nothing for an absent required field. */
  function Supplied(reg: Registry, f: Field, r: nat, name: string, kw: seq<(string, Val)>): (s: Option<Val>)
    requires WellFormed(reg) && FieldOk(reg, f, r)
    ensures s.Some? ==> Depth(f, s.value) <= HeightEntries(kw)
    ensures s.None? <==> name !in Keys(kw) && Required(reg, f, r)
    ensures name in Keys(kw) ==> s == Get(kw, name)
    ensures name !in Keys(kw) && !Required(reg, f, r) ==> s == Some(DefaultValue(f))
  {
    if name in Keys(kw) then
      GetHeight(kw, name);
      Some(Get(kw, name).value)
    else if !Required(reg, f, r) then
      Some(DefaultValue(f))
    else None
  }

  /** The loop over the declared fields from index `i` on. */
  function ConstructFields(reg: Registry, cv: Converters, fields: seq<(string, Field)>, i: nat,
                           kw: seq<(string, Val)>, ctx: Context, p: Progress, r: nat): Result<Progress, Error>
    requires WellFormed(reg) && FieldsOk(reg, fields, r) && i <= |fields|
    decreases HeightEntries(kw), 1, r, |fields| - i
  {
    if i == |fields| then Ok(p)
    else
      var next :- FieldStep(reg, cv, fields[i].0, fields[i].1, kw, ctx, p, r);
      ConstructFields(reg, cv, fields, i + 1, kw, ctx, next, r)
  }

  /** One iteration of the loop, for declared field `name` with descriptor
      `f`. An `Include` builds its record from the filtered arguments and
      consumes them; any other field is coerced from its supplied value or
      its default, and an absent required field is skipped. */
  function FieldStep(reg: Registry, cv: Converters, name: string, f: Field,
                     kw: seq<(string, Val)>, ctx: Context, p: Progress, r: nat): Result<Progress, Error>
    requires WellFormed(reg) && FieldOk(reg, f, r)
    decreases HeightEntries(kw), 1, r, 0
  {
    if f.kind.IncludeKind? then
      var iargs := Filter(reg, f.kind.schema, kw);
      SubEntriesHeight(iargs, kw);
      var sub :- Construct(reg, cv, f.kind.schema, iargs, []);
      var consumed := Keys(iargs) + {name};
      Ok(Progress(Put(p.attrs, name, sub), p.unconsumed - consumed, p.unspecified - consumed))
    else
      match Supplied(reg, f, r, name, kw)
      case None => Ok(p)
      case Some(s) =>
        var v :- Coerce(reg, cv, f, s, ctx);
        Ok(Progress(Put(p.attrs, name, v), p.unconsumed - {name}, p.unspecified - {name}))
  }

  /** `Attributee.__setattr__`: a declared attribute cannot be rebound; any
      other attribute is set on the record. */
  function SetAttr(reg: Registry, rec: Val, key: string, value: Val): (r: Result<Val, Error>)
    requires WellFormed(reg) && rec.VInstance? && rec.cls in reg
    ensures r.Err? <==> key in Keys(Declared(reg, rec.cls))
    ensures r.Err? ==> r.error == ReadOnly(key)
    ensures r.Ok? ==> r.value.VInstance? && r.value.cls == rec.cls && r.value.attrs == rec.attrs
    ensures r.Ok? ==> Get(r.value.extra, key) == Some(value)
    ensures r.Ok? ==> forall k :: k != key ==> Get(r.value.extra, k) == Get(rec.extra, k)
  {
    if key in Keys(Declared(reg, rec.cls)) then Err(ReadOnly(key))
    else
      var extra := Put(rec.extra, key, value);
      assert forall k :: k != key ==> Get(extra, k) == Get(rec.extra, k) by {
        forall k | k != key ensures Get(extra, k) == Get(rec.extra, k) {
          PutGetOther(rec.extra, key, value, k);
        }
      }
      Ok(VInstance(rec.cls, rec.attrs, extra))
  }

  /** Whether a descriptor has set its own attributes when
      `Attribute.__init__` coerces its default: `Number` and `Nested` set
      theirs first, `List`, `Map` and `Object` only afterwards. */
  predicate ReadyBeforeDefault(kind: Kind)
  {
    !(kind.ListKind? || kind.MapKind? || kind.ObjectKind?)
  }

  /** The coercion of a default as `Attribute.__init__` runs it, with an
      empty context. `List` fails on a string (no separator yet) and on any
      item (no element descriptor yet), so only an empty iterable gets
      through; `Map` and `Object` fail after their type check (no container,
      no resolver yet). */
  function EarlyCoerce(reg: Registry, cv: Converters, kind: Kind, d: Val): (r: Result<Val, Error>)
    requires WellFormed(reg) && RefsKnown(reg, Field(kind, None))
    ensures ReadyBeforeDefault(kind) ==> r == Coerce(reg, cv, Field(kind, None), d, EmptyContext)
    ensures r.Ok? ==> r == Coerce(reg, cv, Field(kind, None), d, EmptyContext)
    ensures kind.MapKind? || kind.ObjectKind? ==> r.Err?
    ensures kind.ListKind? ==>
      (r.Ok? <==> !d.VStr? && Iterate(d).Some? && |Iterate(d).value| == 0) && (r.Ok? ==> r.value == VList([]))
  {
    match kind
    case ListKind(_, _) =>
      if d.VStr? then Err(NotInitialised)
      else
        (match Iterate(d)
         case None => Err(NotIterable)
         case Some(items) =>
           if |items| == 0 then
             EmptyListCoerces(reg, cv, Field(kind, None), d);
             Ok(VList([]))
           else Err(NotInitialised))
    case MapKind(_) => if IsMapping(d) then Err(NotInitialised) else Err(NotMapping)
    case ObjectKind(_) => if d.VDict? then Err(NotInitialised) else Err(NotDict)
    case _ => Coerce(reg, cv, Field(kind, None), d, EmptyContext)
  }

  /** A fully set up `List` coerces an empty non-string iterable to `[]`. */
  lemma EmptyListCoerces(reg: Registry, cv: Converters, f: Field, d: Val)
    requires WellFormed(reg) && RefsKnown(reg, f) && f.kind.ListKind?
    requires !d.VStr? && Iterate(d).Some? && |Iterate(d).value| == 0
    ensures Coerce(reg, cv, f, d, EmptyContext) == Ok(VList([]))
  {
    if d.VDict? {
      assert |ValuesOf(DictOf(d.entries))| == |DictOf(d.entries)|;
    }
  }

  /** Defining a descriptor: `Include` refuses any keyword before `Nested`
      checks its class; then (`Attribute.__init__`) an undefined default is
      stored as no default, and any other is coerced once, with an empty
      context, and stored. */
  function MakeField(reg: Registry, cv: Converters, kind: Kind, given: Option<Val>): (r: Result<Field, Error>)
    requires WellFormed(reg) && ContainsKnown(reg, kind)
    ensures kind.IncludeKind? && given.Some? ==> r == Err(UnexpectedKeyword("default"))
    ensures (kind.NestedKind? || kind.IncludeKind?) && !(kind.IncludeKind? && given.Some?) &&
            !(kind.schema in reg && reg[kind.schema].isSchema) ==>
      r == Err(NotSchemaType)
    ensures r.Ok? ==> r.value.kind == kind && RefsKnown(reg, r.value) && MadeDefault(r.value)
    ensures r.Ok? ==> (r.value.default.None? <==> given.None? || given == Some(VUndefined))
    ensures given.Some? && given.value != VUndefined && !kind.IncludeKind? && RefsKnown(reg, Field(kind, None)) ==>
      var c := Coerce(reg, cv, Field(kind, None), given.value, EmptyContext);
      && (ReadyBeforeDefault(kind) ==> (r.Ok? <==> c.Ok?))
      && (r.Ok? ==> c.Ok? && r.value.default == Some(c.value))
    ensures (kind.MapKind? || kind.ObjectKind?) && given.Some? && given.value != VUndefined ==> r.Err?
    ensures r.Ok? && r.value.default.Some? ==> Settled(r.value, r.value.default.value)
  {
    if kind.IncludeKind? && given.Some? then
      Err(UnexpectedKeyword("default"))
    else if (kind.NestedKind? || kind.IncludeKind?) && !(kind.schema in reg && reg[kind.schema].isSchema) then
      Err(NotSchemaType)
    else
      match given
      case None => Ok(Field(kind, None))
      case Some(d) =>
        if d.VUndefined? then Ok(Field(kind, None))
        else
          var c :- EarlyCoerce(reg, cv, kind, d);
          CoerceSettled(reg, cv, Field(kind, None), d, EmptyContext);
          SettledIgnoresDefault(Field(kind, None), Field(kind, Some(c)), c);
          CoerceDefined(reg, cv, Field(kind, None), d, EmptyContext);
          Ok(Field(kind, Some(c)))
  }

  /** Coercing anything but the undefined marker never yields it. */
  lemma CoerceDefined(reg: Registry, cv: Converters, f: Field, v: Val, ctx: Context)
    requires WellFormed(reg) && RefsKnown(reg, f) && v != VUndefined
    requires Coerce(reg, cv, f, v, ctx).Ok?
    ensures Coerce(reg, cv, f, v, ctx).value != VUndefined
  {
  }

  lemma SettledIgnoresDefault(f: Field, g: Field, v: Val)
    requires f.kind == g.kind && Settled(f, v)
    ensures Settled(g, v)
  {
  }

  /** Whatever coercion produces is settled for the same descriptor:
      coercing it again cannot construct a record. */
  lemma CoerceSettled(reg: Registry, cv: Converters, f: Field, v: Val, ctx: Context)
    requires WellFormed(reg) && RefsKnown(reg, f)
    requires Coerce(reg, cv, f, v, ctx).Ok?
    ensures Settled(f, Coerce(reg, cv, f, v, ctx).value)
    decreases Depth(f, v), 0, FieldSize(f), 1
  {
    match f.kind
    case ListKind(_, _) => CoerceListSettled(reg, cv, f, v, ctx);
    case MapKind(_) => CoerceMapSettled(reg, cv, f, v, ctx);
    case _ =>
  }

  /** A list coercion that succeeds coerces element `i` of its source
      sequence with context key `i`, keeping length and order. */
  lemma CoerceListItems(reg: Registry, cv: Converters, f: Field, v: Val, ctx: Context)
    requires WellFormed(reg) && RefsKnown(reg, f) && f.kind.ListKind?
    requires CoerceList(reg, cv, f, v, ctx).Ok?
    ensures ListSource(f, v).Ok?
    ensures ctx.key.None? || |ListSource(f, v).value| == 0
    ensures var items := ListSource(f, v).value; var out := CoerceList(reg, cv, f, v, ctx).value.items;
      && |out| == |items|
      && forall i :: 0 <= i < |items| ==>
           Coerce(reg, cv, f.kind.contains, items[i], ItemContext(ctx, IndexKey(i))) == Ok(out[i])
  {
  }

  /** A map coercion that succeeds keeps the names of the mapping, in order,
      and coerces each value with its name as context key. */
  lemma CoerceMapValues(reg: Registry, cv: Converters, f: Field, v: Val, ctx: Context)
    requires WellFormed(reg) && RefsKnown(reg, f) && f.kind.MapKind?
    requires CoerceMap(reg, cv, f, v, ctx).Ok?
    ensures IsMapping(v)
    ensures ctx.key.None? || |v.entries| == 0
    ensures var d := DictOf(v.entries); var out := CoerceMap(reg, cv, f, v, ctx).value.entries;
      && |out| == |d|
      && forall i :: 0 <= i < |d| ==>
           (out[i].0 == d[i].0 &&
            Coerce(reg, cv, f.kind.contains, d[i].1, ItemContext(ctx, VStr(d[i].0))) == Ok(out[i].1))
  {
  }

  lemma {:induction false} CoerceListSettled(reg: Registry, cv: Converters, f: Field, v: Val, ctx: Context)
    requires WellFormed(reg) && RefsKnown(reg, f) && f.kind.ListKind?
    requires CoerceList(reg, cv, f, v, ctx).Ok?
    ensures Settled(f, CoerceList(reg, cv, f, v, ctx).value)
    decreases Depth(f, v), 0, FieldSize(f), 0
  {
    CoerceListItems(reg, cv, f, v, ctx);
    var items := ListSource(f, v).value;
    forall i | 0 <= i < |items| ensures Depth(f.kind.contains, items[i]) <= Depth(f, v) {
    }
    forall i | 0 <= i < |items|
      ensures Settled(f.kind.contains, CoerceList(reg, cv, f, v, ctx).value.items[i])
    {
      CoerceSettled(reg, cv, f.kind.contains, items[i], ItemContext(ctx, IndexKey(i)));
    }
  }

  lemma {:induction false} CoerceMapSettled(reg: Registry, cv: Converters, f: Field, v: Val, ctx: Context)
    requires WellFormed(reg) && RefsKnown(reg, f) && f.kind.MapKind?
    requires CoerceMap(reg, cv, f, v, ctx).Ok?
    ensures Settled(f, CoerceMap(reg, cv, f, v, ctx).value)
    decreases Depth(f, v), 0, FieldSize(f), 0
  {
    CoerceMapValues(reg, cv, f, v, ctx);
    var d := DictOf(v.entries);
    MapValuesDepth(f, v, d);
    forall i | 0 <= i < |d|
      ensures Settled(f.kind.contains, CoerceMap(reg, cv, f, v, ctx).value.entries[i].1)
    {
      CoerceSettled(reg, cv, f.kind.contains, d[i].1, ItemContext(ctx, VStr(d[i].0)));
    }
  }
}

=== FILE: merging.dfy ===
/** Properties of field merging across a class's ancestry and of the
    `required` flag of descriptors. */
module Merging {
  import opened Wrappers
  import opened Dicts
  import opened Values
  import opened Schema
  import opened Engine

  /** Every field contributed by an ancestor is among the inherited fields,
      and every inherited field comes from some ancestor. */
  lemma {:induction false} InheritedKeys(reg: Registry, ancestors: seq<string>, r: nat)
    requires WellFormed(reg)
    requires forall a :: a in ancestors ==> a in reg && reg[a].rank < r
    ensures forall j :: 0 <= j < |ancestors| ==> Keys(Contribution(reg, ancestors[j])) <= Keys(Inherited(reg, ancestors, r))
    ensures forall k :: k in Keys(Inherited(reg, ancestors, r)) ==>
              exists j :: 0 <= j < |ancestors| && k in Keys(Contribution(reg, ancestors[j]))
    decreases |ancestors|
  {
    if |ancestors| > 0 {
      var head := Contribution(reg, ancestors[0]);
      var tail := ancestors[1..];
      assert forall a :: a in tail ==> a in ancestors;
      var rest := Inherited(reg, tail, r);
      var all := Inherited(reg, ancestors, r);
      InheritedKeys(reg, tail, r);
      assert all == head + rest;
      KeySeqAppend(head, rest);
      forall j | 0 <= j < |ancestors|
        ensures Keys(Contribution(reg, ancestors[j])) <= Keys(all)
      {
        if j > 0 {
          assert ancestors[j] == tail[j - 1];
        }
      }
      forall k | k in Keys(all)
        ensures exists j :: 0 <= j < |ancestors| && k in Keys(Contribution(reg, ancestors[j]))
      {
        if k in Keys(head) {
          assert k in Keys(Contribution(reg, ancestors[0]));
        } else {
          var j :| 0 <= j < |tail| && k in Keys(Contribution(reg, tail[j]));
          assert tail[j] == ancestors[j + 1];
        }
      }
    }
  }

  /** The merged field list of a class (`_declared_attributes`):
      - it holds exactly the inherited names and the class's own names;
      - every field of every ancestor is in it;
      - a name the class declares itself takes the class's descriptor, any
        other name the descriptor of the last ancestor declaring it;
      - each name sits at the position of its first declaration, ancestors
        (root first) before the class's own fields. */
  lemma MergedFields(reg: Registry, n: string)
    requires WellFormed(reg) && n in reg
    ensures var inherited := Inherited(reg, reg[n].ancestors, reg[n].rank);
      && Keys(Declared(reg, n)) == Keys(inherited) + Keys(reg[n].own)
      && (forall a :: a in reg[n].ancestors ==> Keys(Contribution(reg, a)) <= Keys(Declared(reg, n)))
      && (forall k :: k in Keys(reg[n].own) ==> Get(Declared(reg, n), k) == GetLast(reg[n].own, k))
      && (forall k :: k !in Keys(reg[n].own) ==> Get(Declared(reg, n), k) == GetLast(inherited, k))
      && OrderedByFirstOccurrence(Declared(reg, n), KeySeq(inherited) + KeySeq(reg[n].own))
  {
    var inherited := Inherited(reg, reg[n].ancestors, reg[n].rank);
    var own := reg[n].own;
    KeySeqAppend(inherited, own);
    InheritedKeys(reg, reg[n].ancestors, reg[n].rank);
    forall a | a in reg[n].ancestors ensures Keys(Contribution(reg, a)) <= Keys(Declared(reg, n)) {
      var j :| 0 <= j < |reg[n].ancestors| && reg[n].ancestors[j] == a;
    }
    forall k ensures Get(Declared(reg, n), k) == if k in Keys(own) then GetLast(own, k) else GetLast(inherited, k) {
      GetLastAppend(inherited, own, k);
    }
    FromPairsKeepsFirstPosition(inherited + own);
  }

  /** A descriptor is required exactly when it was defined without a
      default, or with the undefined marker as default; a `Nested` or
      `Include` one moreover only when its schema type has a required field.
      Every descriptor that defines is fit to be declared. */
  lemma MadeFieldRequired(reg: Registry, cv: Converters, kind: Kind, given: Option<Val>, r: nat)
    requires WellFormed(reg) && ContainsKnown(reg, kind) && RefsBelow(reg, Field(kind, None), r)
    requires MakeField(reg, cv, kind, given).Ok?
    ensures var f := MakeField(reg, cv, kind, given).value;
      && FieldOk(reg, f, r)
      && (Required(reg, f, r) <==>
           (given.None? || given == Some(VUndefined))
           && (kind.NestedKind? || kind.IncludeKind? ==> HasRequired(reg, kind.schema)))
  {
  }
}

=== FILE: roundtrip.dfy ===
/** Dumping what construction built. For fields that are plain `Attribute`s,
    `dump` gives back the keyword arguments a record was built from: each
    field's supplied value, or its default where it was left out. */
module RoundTrip {
  import opened Wrappers
  import opened Dicts
  import opened Values
  import opened Schema
  import opened Engine
  import opened Construction
  import opened Descriptors
  import opened Dump

  /** Every field of `fields` is a plain `Attribute`. */
  predicate AllPlain(fields: seq<(string, Field)>)
  {
    forall j :: 0 <= j < |fields| ==> fields[j].1.kind.AnyKind?
  }

  /** The value each of `fields` is built from out of `kw`: the supplied
      one, else its default. */
  function GivenValues(fields: seq<(string, Field)>, kw: seq<(string, Val)>): (g: seq<(string, Val)>)
    ensures |g| == |fields| && forall j :: 0 <= j < |fields| ==> g[j].0 == fields[j].0
  {
    seq(|fields|, j requires 0 <= j < |fields| =>
      (fields[j].0, if fields[j].0 in Keys(kw) then Get(kw, fields[j].0).value else DefaultValue(fields[j].1)))
  }

  /** The `j`-th field is named as `g`'s `j`-th entry, and its attribute
      holds that entry's value. */
  predicate HoldsAt(fields: seq<(string, Field)>, attrs: seq<(string, Val)>, g: seq<(string, Val)>, j: nat)
    requires j < |fields| && |g| == |fields|
  {
    g[j].0 == fields[j].0 && Get(attrs, fields[j].0) == Some(g[j].1)
  }

  /** Over plain fields whose attributes hold `g`'s values, the reference
      dump is `g` from `i` on. */
  lemma {:induction false} PlainDumpHolds(reg: Registry, fields: seq<(string, Field)>, i: nat,
                                          attrs: seq<(string, Val)>, g: seq<(string, Val)>)
    requires WellFormed(reg) && i <= |fields| && AllPlain(fields) && |g| == |fields|
    requires forall j :: i <= j < |fields| ==> HoldsAt(fields, attrs, g, j)
    ensures PlainDump(reg, fields, i, attrs) == Ok(g[i..])
    decreases |fields| - i
  {
    if i < |fields| {
      PlainDumpHolds(reg, fields, i + 1, attrs, g);
      assert HoldsAt(fields, attrs, g, i);
      PlainDumpCons(reg, fields, i, attrs, g);
    } else {
      assert g[i..] == [];
    }
  }

  /** One step of the reference dump over a plain field: its stored value
      goes, unchanged, in front of the dump of the fields after it. */
  lemma PlainDumpCons(reg: Registry, fields: seq<(string, Field)>, i: nat, attrs: seq<(string, Val)>,
                      g: seq<(string, Val)>)
    requires WellFormed(reg) && i < |fields| && i < |g| && fields[i].1.kind.AnyKind? && g[i].0 == fields[i].0
    requires Get(attrs, g[i].0) == Some(g[i].1) && PlainDump(reg, fields, i + 1, attrs) == Ok(g[i + 1..])
    ensures PlainDump(reg, fields, i, attrs) == Ok(g[i..])
  {
    SliceCons(g, i);
    assert DumpValue(reg, fields[i].1, g[i].1) == Ok(g[i].1);
  }

  /** A non-empty suffix is its first entry followed by the rest. */
  lemma SliceCons<T>(s: seq<T>, i: nat)
    requires i < |s|
    ensures s[i..] == [s[i]] + s[i + 1..]
  {
  }

  /** A record of plain fields dumps, in declaration order, to the value
      each field was built from: supplied, or its default. */
  lemma RecordRoundTrip(reg: Registry, cv: Converters, n: string, kw: seq<(string, Val)>, extra: seq<(string, Val)>)
    requires WellFormed(reg) && n in reg && AllPlain(Declared(reg, n))
    requires Construct(reg, cv, n, kw, extra).Ok?
    ensures var v := Construct(reg, cv, n, kw, extra).value;
      v.VInstance? && v.cls == n && DumpRecord(reg, v) == Ok(GivenValues(Declared(reg, n), kw))
  {
    var fields := Declared(reg, n);
    var g := GivenValues(fields, kw);
    var v := Construct(reg, cv, n, kw, extra).value;
    ConstructOutcome(reg, cv, n, kw, extra);
    forall j | 0 <= j < |fields| ensures HoldsAt(fields, v.attrs, g, j) {
      ConstructStoresPlain(reg, cv, n, kw, extra, j);
      ScalarCoercion(reg, cv, fields[j].1, g[j].1, Context(None, Some(Parent(n, extra))));
    }
    PlainDumpHolds(reg, fields, 0, v.attrs, g);
    DumpRecordOrder(reg, v);
  }

  /** When every declared plain field was supplied, the dump of the record
      holds exactly the supplied names, each with the value supplied. */
  lemma RecordRoundTripSupplied(reg: Registry, cv: Converters, n: string, kw: seq<(string, Val)>,
                                extra: seq<(string, Val)>)
    requires WellFormed(reg) && n in reg && AllPlain(Declared(reg, n))
    requires forall j :: 0 <= j < |Declared(reg, n)| ==> Declared(reg, n)[j].0 in Keys(kw)
    requires Construct(reg, cv, n, kw, extra).Ok?
    ensures var d := DumpRecord(reg, Construct(reg, cv, n, kw, extra).value);
      d.Ok? && Keys(d.value) == Keys(kw) && forall k :: k in Keys(kw) ==> Get(d.value, k) == Get(kw, k)
  {
    var fields := Declared(reg, n);
    RecordRoundTrip(reg, cv, n, kw, extra);
    UndeclaredFails(reg, cv, n, kw, extra);
    GivenKeys(fields, kw);
  }

  /** With every field supplied, the given values have exactly the supplied
      names, and each name the value supplied. */
  lemma GivenKeys(fields: seq<(string, Field)>, kw: seq<(string, Val)>)
    requires UniqueKeys(fields) && Keys(kw) <= Keys(fields)
    requires forall j :: 0 <= j < |fields| ==> fields[j].0 in Keys(kw)
    ensures var g := GivenValues(fields, kw);
      Keys(g) == Keys(kw) && forall k :: k in Keys(kw) ==> Get(g, k) == Get(kw, k)
  {
    var g := GivenValues(fields, kw);
    GivenNames(fields, kw);
    forall k | k in Keys(kw) ensures Get(g, k) == Get(kw, k) {
      var j :| 0 <= j < |fields| && KeySeq(fields)[j] == k;
      GivenAt(fields, kw, j);
    }
  }

  /** The given values carry the fields' names, each once when the fields' are. */
  lemma GivenNames(fields: seq<(string, Field)>, kw: seq<(string, Val)>)
    ensures Keys(GivenValues(fields, kw)) == Keys(fields)
    ensures UniqueKeys(fields) ==> UniqueKeys(GivenValues(fields, kw))
  {
    var g := GivenValues(fields, kw);
    forall k | k in Keys(fields) ensures k in Keys(g) {
      var j :| 0 <= j < |fields| && KeySeq(fields)[j] == k;
      assert KeySeq(g)[j] == k;
    }
    forall k | k in Keys(g) ensures k in Keys(fields) {
      var j :| 0 <= j < |g| && KeySeq(g)[j] == k;
      assert KeySeq(fields)[j] == k;
    }
  }

  /** Looking up field `j`'s name in the given values finds its supplied value. */
  lemma GivenAt(fields: seq<(string, Field)>, kw: seq<(string, Val)>, j: nat)
    requires UniqueKeys(fields) && j < |fields| && fields[j].0 in Keys(kw)
    ensures Get(GivenValues(fields, kw), fields[j].0) == Get(kw, fields[j].0)
  {
    var g := GivenValues(fields, kw);
    GivenNames(fields, kw);
    assert g[j] == (fields[j].0, Get(kw, fields[j].0).value);
    assert g[j] in g;
    GetUnique(g, fields[j].0, g[j].1);
  }

  /** `Nested` over a schema type of plain fields: the dump of what a
      mapping coerces to is the dict of each field's value in that mapping
      (the last one given), or its default. */
  lemma NestedRoundTrip(reg: Registry, cv: Converters, m: string, v: Val)
    requires WellFormed(reg) && m in reg && AllPlain(Declared(reg, m)) && IsMapping(v)
    requires CoerceNested(reg, cv, Field(NestedKind(m), None), m, v).Ok?
    ensures DumpValue(reg, Field(NestedKind(m), None), CoerceNested(reg, cv, Field(NestedKind(m), None), m, v).value)
         == Ok(VDict(GivenValues(Declared(reg, m), DictOf(v.entries))))
  {
    NestedCoercion(reg, cv, Field(NestedKind(m), None), m, v);
    RecordRoundTrip(reg, cv, m, DictOf(v.entries), []);
    NestedDump(reg, m, CoerceNested(reg, cv, Field(NestedKind(m), None), m, v).value);
  }

  /** An `Object` field with the default resolver, over a schema type `n` of
      plain fields: the dump of what a dict coerces to is, for each field
      of `n`, its value among the dict's entries other than `"type"` (the
      last one given) or its default, with `"type"` set to `n` after them. */
  lemma ObjectRoundTrip(reg: Registry, cv: Converters, f: Field, v: Val, ctx: Context, n: string)
    requires WellFormed(reg) && f.kind == ObjectKind(DefaultResolver)
    requires n in reg && AllPlain(Declared(reg, n))
    requires v.VDict? && GetLast(v.entries, "type") == Some(VStr(n))
    requires Coerce(reg, cv, f, v, ctx).Ok?
    ensures DumpValue(reg, f, Coerce(reg, cv, f, v, ctx).value)
         == Ok(VDict(Put(GivenValues(Declared(reg, n), Remove(DictOf(v.entries), "type")), "type", VStr(n))))
  {
    var rest := Remove(DictOf(v.entries), "type");
    ObjectCoercion(reg, cv, f, v, ctx);
    DefaultResolution(reg, cv, GetLast(v.entries, "type"), ctx, rest);
    assert Coerce(reg, cv, f, v, ctx) == Construct(reg, cv, n, rest, []);
    RecordRoundTrip(reg, cv, n, rest, []);
    ObjectDumpOf(reg, f, Construct(reg, cv, n, rest, []).value);
  }

  /** One step of `DumpValue` on an `Object` descriptor and a record. */
  lemma ObjectDumpOf(reg: Registry, f: Field, rec: Val)
    requires WellFormed(reg) && f.kind.ObjectKind? && rec.VInstance? && DumpRecord(reg, rec).Ok?
    ensures DumpValue(reg, f, rec) == Ok(VDict(Put(DumpRecord(reg, rec).value, "type", VStr(rec.cls))))
  {
    match f.kind
    case ObjectKind(_) =>
  }
}

=== FILE: schema.dfy ===
/** Field descriptors, schema types and their registry: how a schema type's
    field list is assembled from its ancestry, which fields are required,
    and which keyword arguments an `Include` hands to its schema type. */
module Schema {
  import opened Wrappers
  import opened Dicts
  import opened Values

  /** The `conversion` argument of `Number` (`int` for `Integer`, `float`
      for `Float`). */
  datatype NumKind = IntegerConversion | FloatConversion

  /** The resolvers an `Object` field can be given: the default registry
      lookup, or a resolver that also injects the context key as an
      identifier and the parent's workspace storage, restricted to
      subclasses of `base` (the experiment resolver of a stack). */
  datatype Resolver = DefaultResolver | InjectingResolver(base: string)

  /** What a descriptor does with a value. */
  datatype Kind =
      /** The base `Attribute`: coercion and dump are the identity. */
    | AnyKind
    | NumberKind(conversion: NumKind, min: Option<real>, max: Option<real>)
    | BooleanKind
    | StringKind
    | ListKind(contains: Field, separator: string)
    | MapKind(contains: Field)
    | NestedKind(schema: string)
    | IncludeKind(schema: string)
    | ObjectKind(resolver: Resolver)

  /** A field descriptor: its kind and its default, already coerced when
      the descriptor was defined (`None` when no default was given). */
  datatype Field = Field(kind: Kind, default: Option<Val>)

  /** A class of the registry. `ancestors` is its method resolution order
      reversed, without the class itself (root first); `own` the descriptors
      declared in its body, in order; `isSchema` says whether it derives from
      `Attributee`. `rank` is its position in definition order: a class can
      only name classes defined before it. */
  datatype ClassDecl = ClassDecl(rank: nat, isSchema: bool, ancestors: seq<string>, own: seq<(string, Field)>)

  type Registry = map<string, ClassDecl>

  function FieldSize(f: Field): nat
  {
    match f.kind
    case ListKind(c, _) => 1 + FieldSize(c)
    case MapKind(c) => 1 + FieldSize(c)
    case _ => 1
  }

  /** Whether the descriptor is an `Include`. */
  predicate IsInclude(f: Field)
  {
    f.kind.IncludeKind?
  }

  /** Every schema type `f` names is a registered schema type. */
  predicate RefsKnown(reg: Registry, f: Field)
  {
    match f.kind
    case NestedKind(m) => m in reg && reg[m].isSchema
    case IncludeKind(m) => m in reg && reg[m].isSchema
    case ListKind(c, _) => RefsKnown(reg, c)
    case MapKind(c) => RefsKnown(reg, c)
    case _ => true
  }

  /** The element descriptor of a `List` or `Map` names only registered
      schema types; it was itself defined, and checked, first. */
  predicate ContainsKnown(reg: Registry, kind: Kind)
  {
    match kind
    case ListKind(c, _) => RefsKnown(reg, c)
    case MapKind(c) => RefsKnown(reg, c)
    case _ => true
  }

  /** A default as `Attribute.__init__` leaves it: an explicit undefined
      marker is stored as no default, and `Include` takes none. */
  predicate MadeDefault(f: Field)
  {
    f.default != Some(VUndefined) && (f.kind.IncludeKind? ==> f.default.None?)
  }

  /** Every schema type `f` names is registered, a schema type, and defined
      before rank `r`. */
  predicate RefsBelow(reg: Registry, f: Field, r: nat)
  {
    match f.kind
    case NestedKind(m) => m in reg && reg[m].isSchema && reg[m].rank < r
    case IncludeKind(m) => m in reg && reg[m].isSchema && reg[m].rank < r
    case ListKind(c, _) => RefsBelow(reg, c, r)
    case MapKind(c) => RefsBelow(reg, c, r)
    case _ => true
  }

  lemma RefsBelowKnown(reg: Registry, f: Field, r: nat)
    requires RefsBelow(reg, f, r)
    ensures RefsKnown(reg, f)
  {
  }

  lemma RefsBelowMonotone(reg: Registry, f: Field, r: nat, r': nat)
    requires RefsBelow(reg, f, r) && r <= r'
    ensures RefsBelow(reg, f, r')
  {
  }

  /** A value the field's coercion handles without constructing a record:
      no mapping where a record would be built from one. Coerced values are
      of this shape, and so are the stored defaults. */
  predicate Settled(f: Field, v: Val)
    decreases FieldSize(f)
  {
    match f.kind
    case NestedKind(_) => !IsMapping(v)
    case IncludeKind(_) => !IsMapping(v)
    case ObjectKind(_) => !v.VDict?
    case ListKind(c, _) =>
      (match v
       case VList(items) => forall i :: 0 <= i < |items| ==> Settled(c, items[i])
       case VDict(e) => forall i :: 0 <= i < |e| ==> Settled(c, e[i].1)
       case _ => true)
    case MapKind(c) =>
      (match v
       case VDict(e) => forall i :: 0 <= i < |e| ==> Settled(c, e[i].1)
       case VReadonly(e) => forall i :: 0 <= i < |e| ==> Settled(c, e[i].1)
       case _ => true)
    case _ => true
  }

  /** Strings and the undefined marker are settled for every field. */
  lemma ScalarsSettled(f: Field, s: string)
    ensures Settled(f, VStr(s)) && Settled(f, VUndefined) && Settled(f, VNone)
  {
  }

  predicate FieldOk(reg: Registry, f: Field, r: nat)
  {
    && RefsBelow(reg, f, r) && RefsKnown(reg, f) && MadeDefault(f)
    && (f.default.Some? ==> Settled(f, f.default.value))
  }

  predicate ClassOk(reg: Registry, n: string)
    requires n in reg
  {
    && (forall a :: a in reg[n].ancestors ==> a in reg && reg[a].rank < reg[n].rank)
    && (forall i :: 0 <= i < |reg[n].own| ==> FieldOk(reg, reg[n].own[i].1, reg[n].rank))
  }

  /** Classes only name earlier classes, and defaults are settled. */
  predicate WellFormed(reg: Registry)
  {
    forall n :: n in reg ==> ClassOk(reg, n)
  }

  predicate FieldsOk(reg: Registry, fields: seq<(string, Field)>, r: nat)
  {
    forall i :: 0 <= i < |fields| ==> FieldOk(reg, fields[i].1, r)
  }

  lemma FieldsOkMonotone(reg: Registry, fields: seq<(string, Field)>, r: nat, r': nat)
    requires FieldsOk(reg, fields, r) && r <= r'
    ensures FieldsOk(reg, fields, r')
  {
    forall i | 0 <= i < |fields| ensures FieldOk(reg, fields[i].1, r') {
      RefsBelowMonotone(reg, fields[i].1, r, r');
    }
  }

  lemma FieldsOkAppend(reg: Registry, a: seq<(string, Field)>, b: seq<(string, Field)>, r: nat)
    requires FieldsOk(reg, a, r) && FieldsOk(reg, b, r)
    ensures FieldsOk(reg, a + b, r)
  {
    assert forall i :: 0 <= i < |a + b| ==> (a + b)[i] == if i < |a| then a[i] else b[i - |a|];
  }

  /** The merged field list of schema type `n` (`_declared_attributes`): the
      merged lists of its ancestors, root first, followed by its own fields,
      turned into a dict. A name keeps the position of its first declaration
      and the descriptor of its last. */
  function Declared(reg: Registry, n: string): (fields: seq<(string, Field)>)
    requires WellFormed(reg) && n in reg
    ensures UniqueKeys(fields)
    ensures FieldsOk(reg, fields, reg[n].rank)
    decreases reg[n].rank, 1
  {
    var inherited := Inherited(reg, reg[n].ancestors, reg[n].rank);
    var all := inherited + reg[n].own;
    FieldsOkAppend(reg, inherited, reg[n].own, reg[n].rank);
    FromPairsEntries(all);
    FromPairs(all)
  }

  /** The fields an ancestor hands down: a schema type its merged list, any
      other class the descriptors in its own body. */
  function Contribution(reg: Registry, a: string): (fields: seq<(string, Field)>)
    requires WellFormed(reg) && a in reg
    ensures FieldsOk(reg, fields, reg[a].rank)
    decreases reg[a].rank, 2
  {
    if reg[a].isSchema then Declared(reg, a) else reg[a].own
  }

  /** The concatenated contributions of `ancestors`, in order. */
  function Inherited(reg: Registry, ancestors: seq<string>, r: nat): (fields: seq<(string, Field)>)
    requires WellFormed(reg)
    requires forall a :: a in ancestors ==> a in reg && reg[a].rank < r
    ensures FieldsOk(reg, fields, r)
    decreases r, 0, |ancestors|
  {
    if |ancestors| == 0 then []
    else
      var head := Contribution(reg, ancestors[0]);
      var rest := Inherited(reg, ancestors[1..], r);
      FieldsOkMonotone(reg, head, reg[ancestors[0]].rank, r);
      FieldsOkAppend(reg, head, rest, r);
      head + rest
  }

  /** `field.default`: the stored default, or the undefined marker when the
      descriptor was defined without one. */
  function DefaultValue(f: Field): Val
  {
    if f.default.Some? then f.default.value else VUndefined
  }

  /** `field.required`: no default was given, and for `Nested` and `Include`
      also the nested schema type has a required field. */
  predicate Required(reg: Registry, f: Field, r: nat)
    requires WellFormed(reg) && RefsBelow(reg, f, r)
    decreases r, 0
  {
    match f.kind
    case NestedKind(m) => f.default.None? && HasRequired(reg, m)
    case IncludeKind(m) => f.default.None? && HasRequired(reg, m)
    case _ => f.default.None?
  }

  /** Some field of schema type `m` is required (the `_required` flag that a
      `Nested` descriptor computes from its schema type). */
  predicate HasRequired(reg: Registry, m: string)
    requires WellFormed(reg) && m in reg
    decreases reg[m].rank, 2
  {
    var fields := Declared(reg, m);
    exists i :: 0 <= i < |fields| && Required(reg, fields[i].1, reg[m].rank)
  }

  /** A dict whose entries are all supplied keyword arguments. */
  predicate DrawnFrom(d: seq<(string, Val)>, kw: seq<(string, Val)>)
  {
    UniqueKeys(d) && forall j :: 0 <= j < |d| ==> d[j] in kw
  }

  lemma UpdateDrawnFrom(acc: seq<(string, Val)>, sub: seq<(string, Val)>, kw: seq<(string, Val)>)
    requires DrawnFrom(acc, kw) && DrawnFrom(sub, kw)
    ensures DrawnFrom(Update(acc, sub), kw)
  {
    UpdateUnique(acc, sub);
    UpdateEntries(acc, sub);
  }

  lemma PutDrawnFrom(acc: seq<(string, Val)>, name: string, kw: seq<(string, Val)>)
    requires DrawnFrom(acc, kw) && name in Keys(kw)
    ensures DrawnFrom(Put(acc, name, Get(kw, name).value), kw)
  {
    PutUnique(acc, name, Get(kw, name).value);
    PutEntries(acc, name, Get(kw, name).value);
  }

  /** `Include.filter(**kw)`: the supplied entries whose names are non-Include
      fields of schema type `m`, following nested includes. */
  function Filter(reg: Registry, m: string, kw: seq<(string, Val)>): (r: seq<(string, Val)>)
    requires WellFormed(reg) && m in reg
    ensures DrawnFrom(r, kw)
    decreases reg[m].rank, 1
  {
    FilterFields(reg, Declared(reg, m), 0, kw, [], reg[m].rank)
  }

  function FilterFields(reg: Registry, fields: seq<(string, Field)>, i: nat, kw: seq<(string, Val)>,
                        acc: seq<(string, Val)>, r: nat): (res: seq<(string, Val)>)
    requires WellFormed(reg) && FieldsOk(reg, fields, r) && i <= |fields|
    requires DrawnFrom(acc, kw)
    ensures DrawnFrom(res, kw)
    decreases r, 0, |fields| - i
  {
    if i == |fields| then acc
    else
      var name := fields[i].0;
      var kind := fields[i].1.kind;
      if kind.IncludeKind? then
        assert FieldOk(reg, fields[i].1, r);
        var sub := Filter(reg, kind.schema, kw);
        UpdateDrawnFrom(acc, sub, kw);
        FilterFields(reg, fields, i + 1, kw, Update(acc, sub), r)
      else if name in Keys(kw) then
        PutDrawnFrom(acc, name, kw);
        FilterFields(reg, fields, i + 1, kw, Put(acc, name, Get(kw, name).value), r)
      else
        FilterFields(reg, fields, i + 1, kw, acc, r)
  }

  /** The keyword names schema type `m` understands through its fields: its
      non-Include field names and, through each Include, those of the
      included schema type. */
  function Understood(reg: Registry, m: string): set<string>
    requires WellFormed(reg) && m in reg
    decreases reg[m].rank, 1
  {
    UnderstoodBy(reg, Declared(reg, m), reg[m].rank)
  }

  function UnderstoodBy(reg: Registry, fields: seq<(string, Field)>, r: nat): set<string>
    requires WellFormed(reg) && FieldsOk(reg, fields, r)
    decreases r, 0, |fields|
  {
    if |fields| == 0 then {}
    else
      var here := match fields[0].1.kind
        case IncludeKind(t) => Understood(reg, t)
        case _ => {fields[0].0};
      here + UnderstoodBy(reg, fields[1..], r)
  }
}

=== FILE: stack.dfy ===
/** The `Stack` schema type: a titled collection of experiments, each
    built by the experiment resolver from a mapping entry, named by its key
    and given the workspace's storage. */
module Stacks {
  import opened Wrappers
  import opened Dicts
  import opened Values
  import opened Schema
  import opened Engine
  import opened Construction
  import opened Descriptors

  /** The experiment base class every stack experiment must derive from. */
  const ExperimentClass := "Experiment"

  /** `Object(experiment_resolver)`, the descriptor of each experiment. */
  const ExperimentField := Field(ObjectKind(InjectingResolver(ExperimentClass)), None)

  /** The names a stack declares, in declaration order. */
  const StackNames := ["title", "dataset", "url", "deprecated", "experiments"]

  /** The descriptors of the body of `Stack`, defined in order; defining
      one fails when its default does not convert. */
  function StackOwn(reg: Registry, cv: Converters): (r: Result<seq<(string, Field)>, Error>)
    requires WellFormed(reg)
    ensures r.Ok? ==> KeySeq(r.value) == StackNames
  {
    // `String()` and `Map(...)` without a default cannot fail; the two
    // `String(default="")` descriptors are defined alike.
    var blank :- MakeField(reg, cv, StringKind, Some(VStr("")));
    var deprecated :- MakeField(reg, cv, BooleanKind, Some(VBool(false)));
    Ok([("title", Field(StringKind, None)), ("dataset", blank), ("url", blank), ("deprecated", deprecated),
        ("experiments", Field(MapKind(ExperimentField), None))])
  }

  /** Converters that leave the stack's default values as they are (`str`
      of the empty string, `to_logical` of `False`). */
  predicate KeepsDefaults(cv: Converters)
  {
    cv.text(VStr("")) == Some("") && cv.logical(VBool(false)) == Some(false)
  }

  /** The body of `Stack` as defined with converters that keep its
      defaults (see `StackDefinable`). */
  const StackBody := [
    ("title", Field(StringKind, None)),
    ("dataset", Field(StringKind, Some(VStr("")))),
    ("url", Field(StringKind, Some(VStr("")))),
    ("deprecated", Field(BooleanKind, Some(VBool(false)))),
    ("experiments", Field(MapKind(ExperimentField), None))]

  /** The registry holds `Stack` with that body, deriving directly from
      `Attributee`. */
  predicate StackRegistered(reg: Registry)
  {
    && WellFormed(reg)
    && "Stack" in reg
    && reg["Stack"].isSchema && reg["Stack"].ancestors == [] && reg["Stack"].own == StackBody
  }

  /** `Stack(workspace, **kw)`: the workspace is set on the stack, then the
      fields are constructed from the keyword arguments; a keyword
      `workspace` or `self` collides with a positional parameter. */
  function NewStack(reg: Registry, cv: Converters, ws: Val, kw: seq<(string, Val)>): (r: Result<Val, Error>)
    requires WellFormed(reg) && "Stack" in reg
    ensures r.Ok? ==> r.value.VInstance? && r.value.cls == "Stack" && Get(r.value.extra, "_workspace") == Some(ws)
    ensures "workspace" in Keys(kw) ==> r == Err(DuplicateKeyword("workspace"))
    ensures "self" in Keys(kw) && "workspace" !in Keys(kw) ==> r == Err(DuplicateKeyword("self"))
  {
    if "workspace" in Keys(kw) then Err(DuplicateKeyword("workspace"))
    else Construct(reg, cv, "Stack", kw, [("_workspace", ws)])
  }

  /** A stack's experiments as the read-only mapping construction left. */
  predicate IsStack(s: Val)
  {
    s.VInstance? && Get(s.attrs, "experiments").Some? && Get(s.attrs, "experiments").value.VReadonly?
  }

  function Experiments(s: Val): seq<(string, Val)>
    requires IsStack(s)
  {
    Get(s.attrs, "experiments").value.entries
  }

  /** `len(stack)` */
  function Length(s: Val): (n: nat)
    requires IsStack(s)
  {
    |Experiments(s)|
  }

  /** `iter(stack)`: the experiments, in mapping order. */
  function Iter(s: Val): (vs: seq<Val>)
    requires IsStack(s)
  {
    ValuesOf(Experiments(s))
  }

  /** `stack[identifier]`; `None` stands for the `KeyError`. */
  function Item(s: Val, identifier: string): (r: Option<Val>)
    requires IsStack(s)
  {
    Get(Experiments(s), identifier)
  }

  /** `Stack` can be defined exactly when the converters accept its two
      defaults; with converters that keep them, `dataset` and `url` default
      to the empty string and `deprecated` to `False`, while `title` and
      `experiments` have no default. */
  lemma StackDefinable(reg: Registry, cv: Converters)
    requires WellFormed(reg)
    ensures StackOwn(reg, cv).Ok? <==> cv.text(VStr("")).Some? && cv.logical(VBool(false)).Some?
    ensures KeepsDefaults(cv) ==> StackOwn(reg, cv) == Ok(StackBody)
  {
  }

  lemma StackNamesDistinct()
    ensures KeySeq(StackBody) == StackNames
    ensures UniqueKeys(StackBody)
  {
    assert KeySeq(StackBody) == StackNames;
  }

  /** The merged field list of `Stack` is its own body: five distinct
      names in declaration order. */
  lemma StackDeclared(reg: Registry)
    requires StackRegistered(reg)
    ensures Declared(reg, "Stack") == StackBody
    ensures KeySeq(Declared(reg, "Stack")) == StackNames
  {
    assert Inherited(reg, [], reg["Stack"].rank) == [];
    StackNamesDistinct();
    assert [] + StackBody == StackBody;
    UpdateDistinctAppends([], StackBody);
    assert Declared(reg, "Stack") == FromPairs(StackBody);
  }

  /** The stack's descriptors name no schema type, and only the first and
      the last have no default. */
  lemma StackBodyShape()
    ensures |StackBody| == 5
    ensures forall j :: 0 <= j < 5 ==>
      && !StackBody[j].1.kind.NestedKind? && !StackBody[j].1.kind.IncludeKind?
      && (StackBody[j].1.default.None? <==> j == 0 || j == 4)
  {
    forall j | 0 <= j < 5
      ensures !StackBody[j].1.kind.NestedKind? && !StackBody[j].1.kind.IncludeKind?
      ensures StackBody[j].1.default.None? <==> j == 0 || j == 4
    {
      if j == 0 {} else if j == 1 {} else if j == 2 {} else if j == 3 {} else {}
    }
  }

  /** The stack's defaulted descriptors, by position. */
  lemma StackBodyDefaults()
    ensures StackBody[1] == ("dataset", Field(StringKind, Some(VStr(""))))
    ensures StackBody[2] == ("url", Field(StringKind, Some(VStr(""))))
    ensures StackBody[3] == ("deprecated", Field(BooleanKind, Some(VBool(false))))
  {
  }

  /** Descriptors that name no schema type are required exactly when they
      have no default. */
  lemma PlainRequired(reg: Registry, fields: seq<(string, Field)>, r: nat)
    requires WellFormed(reg) && FieldsOk(reg, fields, r) && |fields| == 5
    requires forall j :: 0 <= j < 5 ==>
      && !fields[j].1.kind.NestedKind? && !fields[j].1.kind.IncludeKind?
      && (fields[j].1.default.None? <==> j == 0 || j == 4)
    ensures forall j :: 0 <= j < 5 ==> !IsInclude(fields[j].1) && (Required(reg, fields[j].1, r) <==> j == 0 || j == 4)
  {
    forall j | 0 <= j < 5 ensures Required(reg, fields[j].1, r) <==> j == 0 || j == 4 {
      assert FieldOk(reg, fields[j].1, r);
    }
  }

  /** None of the stack's fields is an `Include`, and exactly the first
      and the last, `title` and `experiments`, are required. */
  lemma StackRequired(reg: Registry)
    requires StackRegistered(reg)
    ensures var fields := Declared(reg, "Stack");
      && |fields| == 5 && fields[0].0 == "title" && fields[4].0 == "experiments"
      && forall j :: 0 <= j < |fields| ==>
           && !IsInclude(fields[j].1)
           && (Required(reg, fields[j].1, reg["Stack"].rank) <==> j == 0 || j == 4)
  {
    StackDeclared(reg);
    StackBodyShape();
    PlainRequired(reg, Declared(reg, "Stack"), reg["Stack"].rank);
    assert StackBody[0].0 == "title" && StackBody[4].0 == "experiments";
  }

  /** A stack cannot be built without a `title` or without
      `experiments`. */
  lemma NewStackRequires(reg: Registry, cv: Converters, ws: Val, kw: seq<(string, Val)>)
    requires StackRegistered(reg)
    ensures "title" !in Keys(kw) ==> NewStack(reg, cv, ws, kw).Err?
    ensures "experiments" !in Keys(kw) ==> NewStack(reg, cv, ws, kw).Err?
  {
    StackRequired(reg);
    if "title" !in Keys(kw) {
      MissingRequiredFails(reg, cv, "Stack", kw, [("_workspace", ws)], 0);
    }
    if "experiments" !in Keys(kw) {
      MissingRequiredFails(reg, cv, "Stack", kw, [("_workspace", ws)], 4);
    }
  }

  /** A stack cannot be built from a name it does not declare. */
  lemma NewStackRejectsUnknown(reg: Registry, cv: Converters, ws: Val, kw: seq<(string, Val)>)
    requires StackRegistered(reg)
    ensures !(Keys(kw) <= Keys(Declared(reg, "Stack"))) ==> NewStack(reg, cv, ws, kw).Err?
  {
    StackRequired(reg);
    var extra := [("_workspace", ws)];
    UndeclaredFails(reg, cv, "Stack", kw, extra);
    assert NewStack(reg, cv, ws, kw).Err? || NewStack(reg, cv, ws, kw) == Construct(reg, cv, "Stack", kw, extra);
  }

  /** A scalar setting as construction leaves it: the supplied value
      through converter `convert`, else the default `dflt`. */
  function Setting<T>(convert: Val -> Option<T>, kw: seq<(string, Val)>, name: string, dflt: T): Option<T>
  {
    if name in Keys(kw) then convert(Get(kw, name).value) else Some(dflt)
  }

  /** The context in which a stack's fields are coerced. */
  function StackContext(ws: Val): Context
  {
    Context(None, Some(Parent("Stack", [("_workspace", ws)])))
  }

  /** Field `j` of a built stack holds the coercion of its supplied value,
      or of its default when it was not supplied. */
  lemma StackStores(reg: Registry, cv: Converters, ws: Val, kw: seq<(string, Val)>, j: nat)
    requires StackRegistered(reg) && j < 5
    requires NewStack(reg, cv, ws, kw).Ok?
    ensures var name := StackBody[j].0; var f := StackBody[j].1;
      var c := Coerce(reg, cv, f, if name in Keys(kw) then Get(kw, name).value else DefaultValue(f), StackContext(ws));
      && (name !in Keys(kw) ==> f.default.Some?)
      && c.Ok? && Get(NewStack(reg, cv, ws, kw).value.attrs, name) == Some(c.value)
  {
    StackDeclared(reg);
    StackBodyShape();
    var extra := [("_workspace", ws)];
    assert NewStack(reg, cv, ws, kw) == Construct(reg, cv, "Stack", kw, extra);
    ConstructStoresPlain(reg, cv, "Stack", kw, extra, j);
    if StackBody[j].0 !in Keys(kw) {
      PlainRequired(reg, Declared(reg, "Stack"), reg["Stack"].rank);
    }
  }

  /** A built stack holds its title converted to a string. */
  lemma NewStackTitle(reg: Registry, cv: Converters, ws: Val, kw: seq<(string, Val)>)
    requires StackRegistered(reg)
    requires NewStack(reg, cv, ws, kw).Ok?
    ensures "title" in Keys(kw) && cv.text(Get(kw, "title").value).Some?
    ensures Get(NewStack(reg, cv, ws, kw).value.attrs, "title") == Some(VStr(cv.text(Get(kw, "title").value).value))
  {
    StackStores(reg, cv, ws, kw, 0);
  }

  /** Coercing the value of a `String(default="")` descriptor gives the
      text setting of that name. */
  lemma BlankTextCoerce(reg: Registry, cv: Converters, f: Field, kw: seq<(string, Val)>, name: string, ctx: Context)
    requires WellFormed(reg) && KeepsDefaults(cv)
    requires f.kind.StringKind? && f.default == Some(VStr(""))
    ensures var c := Coerce(reg, cv, f, if name in Keys(kw) then Get(kw, name).value else DefaultValue(f), ctx);
      c.Ok? ==> Setting(cv.text, kw, name, "").Some? && c.value == VStr(Setting(cv.text, kw, name, "").value)
  {
  }

  /** A built stack holds `dataset` converted to a string, or empty when
      it was left out. */
  lemma NewStackDataset(reg: Registry, cv: Converters, ws: Val, kw: seq<(string, Val)>)
    requires StackRegistered(reg) && KeepsDefaults(cv)
    requires NewStack(reg, cv, ws, kw).Ok?
    ensures Setting(cv.text, kw, "dataset", "").Some?
    ensures Get(NewStack(reg, cv, ws, kw).value.attrs, "dataset")
         == Some(VStr(Setting(cv.text, kw, "dataset", "").value))
  {
    StackStores(reg, cv, ws, kw, 1);
    StackBodyDefaults();
    BlankTextCoerce(reg, cv, StackBody[1].1, kw, StackBody[1].0, StackContext(ws));
  }

  /** A built stack holds `url` converted to a string, or empty when it
      was left out. */
  lemma NewStackUrl(reg: Registry, cv: Converters, ws: Val, kw: seq<(string, Val)>)
    requires StackRegistered(reg) && KeepsDefaults(cv)
    requires NewStack(reg, cv, ws, kw).Ok?
    ensures Setting(cv.text, kw, "url", "").Some?
    ensures Get(NewStack(reg, cv, ws, kw).value.attrs, "url")
         == Some(VStr(Setting(cv.text, kw, "url", "").value))
  {
    StackStores(reg, cv, ws, kw, 2);
    StackBodyDefaults();
    BlankTextCoerce(reg, cv, StackBody[2].1, kw, StackBody[2].0, StackContext(ws));
  }

  /** A built stack holds `deprecated` converted to a boolean, or `False`
      when it was left out. */
  lemma NewStackDeprecated(reg: Registry, cv: Converters, ws: Val, kw: seq<(string, Val)>)
    requires StackRegistered(reg) && KeepsDefaults(cv)
    requires NewStack(reg, cv, ws, kw).Ok?
    ensures Setting(cv.logical, kw, "deprecated", false).Some?
    ensures Get(NewStack(reg, cv, ws, kw).value.attrs, "deprecated")
         == Some(VBool(Setting(cv.logical, kw, "deprecated", false).value))
  {
    StackStores(reg, cv, ws, kw, 3);
  }

  /** Experiment `e` was built by the experiment resolver from the raw
      entry `raw` under name `id` in a stack with workspace `ws`: from a
      dict naming the experiment base class or a subclass of it as
      `"type"`, with identifier `id` and the workspace's storage set before
      its fields were constructed from the dict's other entries. */
  predicate ExperimentBuilt(reg: Registry, cv: Converters, ws: Val, id: string, raw: Val, e: Val)
    requires WellFormed(reg)
  {
    && raw.VDict?
    && e.VInstance? && e.cls in reg
    && GetLast(raw.entries, "type") == Some(VStr(e.cls))
    && (e.cls == ExperimentClass || ExperimentClass in reg[e.cls].ancestors)
    && ws.VExternal? && Get(ws.attrs, "storage").Some?
    && e.extra == [("_identifier", VStr(id)), ("_storage", Get(ws.attrs, "storage").value)]
    && Construct(reg, cv, e.cls, Remove(DictOf(raw.entries), "type"), e.extra) == Ok(e)
  }

  /** What coercing one experiment entry of a stack builds. */
  lemma ExperimentEntry(reg: Registry, cv: Converters, ws: Val, id: string, raw: Val, e: Val)
    requires WellFormed(reg)
    requires Coerce(reg, cv, ExperimentField, raw, ItemContext(StackContext(ws), VStr(id))) == Ok(e)
    ensures ExperimentBuilt(reg, cv, ws, id, raw, e)
  {
    var ctx := ItemContext(StackContext(ws), VStr(id));
    ObjectCoercion(reg, cv, ExperimentField, raw, ctx);
    var rest := Remove(DictOf(raw.entries), "type");
    InjectingResolution(reg, cv, ExperimentClass, GetLast(raw.entries, "type"), ctx, rest);
    assert Get([("_workspace", ws)], "_workspace") == Some(ws);
  }

  /** The experiments of a built stack: a read-only mapping with the names
      of the `experiments` dict, in order, each once, each name holding the
      experiment built from its entry. */
  lemma NewStackExperiments(reg: Registry, cv: Converters, ws: Val, kw: seq<(string, Val)>)
    requires StackRegistered(reg)
    requires NewStack(reg, cv, ws, kw).Ok?
    ensures "experiments" in Keys(kw) && IsMapping(Get(kw, "experiments").value)
    ensures var s := NewStack(reg, cv, ws, kw).value; var d := DictOf(Get(kw, "experiments").value.entries);
      && IsStack(s)
      && KeySeq(Experiments(s)) == KeySeq(d)
      && UniqueKeys(Experiments(s))
      && forall i :: 0 <= i < |d| ==> ExperimentBuilt(reg, cv, ws, d[i].0, d[i].1, Experiments(s)[i].1)
  {
    StackStores(reg, cv, ws, kw, 4);
    var f := Field(MapKind(ExperimentField), None);
    var v := Get(kw, "experiments").value;
    var ctx := StackContext(ws);
    MapCoercion(reg, cv, f, v, ctx);
    var s := NewStack(reg, cv, ws, kw).value;
    var d := DictOf(v.entries);
    forall i | 0 <= i < |d| ensures ExperimentBuilt(reg, cv, ws, d[i].0, d[i].1, Experiments(s)[i].1) {
      ExperimentEntry(reg, cv, ws, d[i].0, d[i].1, Experiments(s)[i].1);
    }
  }

  /** Distinct names are as many as the entries. */
  lemma {:induction false} DistinctKeysCount(d: seq<(string, Val)>)
    requires UniqueKeys(d)
    ensures |Keys(d)| == |d|
  {
    if |d| > 0 {
      var t := d[1..];
      assert UniqueKeys(t) by {
        forall i, j | 0 <= i < j < |t| ensures t[i].0 != t[j].0 {
          assert t[i] == d[i + 1] && t[j] == d[j + 1];
        }
      }
      DistinctKeysCount(t);
      KeysCons(d);
      assert d[0].0 !in Keys(t) by {
        forall i | 0 <= i < |t| ensures KeySeq(t)[i] != d[0].0 {
          assert t[i] == d[i + 1];
        }
      }
    }
  }

  /** `len`, iteration and indexing of a stack agree: as many experiments
      as distinct identifiers, iterated in mapping order, each found under
      its identifier; an identifier the stack does not hold is not found. */
  lemma StackAccess(s: Val)
    requires IsStack(s) && UniqueKeys(Experiments(s))
    ensures |Iter(s)| == Length(s) == |Keys(Experiments(s))|
    ensures forall i :: 0 <= i < Length(s) ==> Item(s, Experiments(s)[i].0) == Some(Iter(s)[i])
    ensures forall id :: Item(s, id).None? <==> id !in Keys(Experiments(s))
  {
    var e := Experiments(s);
    DistinctKeysCount(e);
    forall i | 0 <= i < |e| ensures Item(s, e[i].0) == Some(Iter(s)[i]) {
      GetUnique(e, e[i].0, e[i].1);
    }
  }
}

=== FILE: text.dfy ===
/** Splitting a string on a separator, as Python's `str.split(sep)` with an
    explicit non-empty separator, and its inverse `sep.join(parts)`. */
module Text {
  import opened Wrappers

  predicate OccursAt(s: string, sep: string, i: nat)
  {
    i + |sep| <= |s| && s[i..i + |sep|] == sep
  }

  predicate Contains(s: string, sep: string)
  {
    exists i: nat | i <= |s| :: OccursAt(s, sep, i)
  }

  /** The first position at or after `from` where `sep` occurs in `s`. */
  function FindFrom(s: string, sep: string, from: nat): (r: Option<nat>)
    requires from <= |s|
    ensures r.Some? ==> from <= r.value && OccursAt(s, sep, r.value)
    ensures forall j: nat :: from <= j && (r.None? || j < r.value) ==> !OccursAt(s, sep, j)
    decreases |s| - from
  {
    if from + |sep| > |s| then None
    else if s[from..from + |sep|] == sep then Some(from)
    else FindFrom(s, sep, from + 1)
  }

  function Join(parts: seq<string>, sep: string): string
  {
    if |parts| == 0 then ""
    else if |parts| == 1 then parts[0]
    else parts[0] + sep + Join(parts[1..], sep)
  }

  /** `s.split(sep)` for a non-empty separator: the pieces between successive
      occurrences of `sep`, scanning left to right. */
  function Split(s: string, sep: string): (parts: seq<string>)
    requires |sep| > 0
    ensures |parts| >= 1
    ensures forall i :: 0 <= i < |parts| ==> !Contains(parts[i], sep)
    decreases |s|
  {
    match FindFrom(s, sep, 0)
    case None => [s]
    case Some(i) =>
      var head := s[..i];
      assert !Contains(head, sep) by {
        forall j: nat | j <= |head| ensures !OccursAt(head, sep, j) {
          if j + |sep| <= |head| {
            assert forall t :: 0 <= t < |head| ==> head[t] == s[t];
            assert s[j..j + |sep|] == head[j..j + |sep|];
            assert !OccursAt(s, sep, j);
          }
        }
      }
      [head] + Split(s[i + |sep|..], sep)
  }

  /** Joining the pieces with the separator gives back the string. */
  lemma {:induction false} JoinSplit(s: string, sep: string)
    requires |sep| > 0
    ensures Join(Split(s, sep), sep) == s
    decreases |s|
  {
    match FindFrom(s, sep, 0)
    case None =>
    case Some(i) =>
      var rest := s[i + |sep|..];
      var tail := Split(rest, sep);
      JoinSplit(rest, sep);
      assert Split(s, sep) == [s[..i]] + tail;
      assert ([s[..i]] + tail)[1..] == tail;
      assert Join(Split(s, sep), sep) == s[..i] + sep + Join(tail, sep);
      assert s == s[..i] + sep + rest by {
        assert s[i..i + |sep|] == sep;
        assert s == s[..i] + s[i..i + |sep|] + s[i + |sep|..];
      }
  }
}

=== FILE: values.dfy ===
/** The values the schema engine handles. Parsed configuration data (strings,
    numbers, booleans, None, lists, dicts) and the values coercion produces
    from it (read-only mappings, records, the undefined marker) live in one
    universe, because the engine feeds already-coerced values (defaults) back
    through coercion exactly as it feeds raw data. */
module Values {
  import opened Wrappers
  import opened Dicts

  datatype Val =
    | VNone
      /** The "no default given" marker of the source. */
    | VUndefined
    | VBool(b: bool)
    | VNum(x: real)
    | VStr(s: string)
    | VList(items: seq<Val>)
    | VDict(entries: seq<(string, Val)>)
      /** The read-only view that `Map` coercion returns. */
    | VReadonly(entries: seq<(string, Val)>)
      /** A record of schema type `cls`: `attrs` are its declared fields in
          declaration order, `extra` the non-declared attributes set on it
          (a stack's workspace, an experiment's identifier and storage). */
    | VInstance(cls: string, attrs: seq<(string, Val)>, extra: seq<(string, Val)>)
      /** An object from outside the engine (a workspace, a storage handle),
          seen only through its attributes. */
    | VExternal(kind: string, attrs: seq<(string, Val)>)

  /** Whether the value is a `Mapping`: a dict or a read-only mapping. */
  predicate IsMapping(v: Val)
  {
    v.VDict? || v.VReadonly?
  }

  function MaxOf(xs: seq<nat>): (m: nat)
    ensures forall i :: 0 <= i < |xs| ==> xs[i] <= m
    ensures |xs| > 0 ==> m in xs
  {
    if |xs| == 0 then 0
    else
      var t := MaxOf(xs[1..]);
      assert forall i :: 1 <= i < |xs| ==> xs[i] == xs[1..][i - 1];
      if xs[0] < t then t else xs[0]
  }

  /** Nesting depth of lists, mappings and records: the measure that bounds
      how deep coercion and dump can recurse into a value. */
  function Height(v: Val): nat
  {
    match v
    case VList(items) => 1 + MaxOf(seq(|items|, i requires 0 <= i < |items| => Height(items[i])))
    case VDict(e) => 1 + MaxOf(seq(|e|, i requires 0 <= i < |e| => Height(e[i].1)))
    case VReadonly(e) => 1 + MaxOf(seq(|e|, i requires 0 <= i < |e| => Height(e[i].1)))
    case VInstance(_, attrs, _) => 1 + MaxOf(seq(|attrs|, i requires 0 <= i < |attrs| => Height(attrs[i].1)))
    case _ => 0
  }

  /** The height of a mapping's values. */
  function HeightEntries(e: seq<(string, Val)>): (h: nat)
    ensures h < Height(VDict(e)) && h < Height(VReadonly(e))
    ensures forall c, x :: h < Height(VInstance(c, e, x))
  {
    Height(VDict(e)) - 1
  }

  lemma ItemHeight(items: seq<Val>, i: nat)
    requires i < |items|
    ensures Height(items[i]) < Height(VList(items))
  {
    var hs := seq(|items|, j requires 0 <= j < |items| => Height(items[j]));
    assert hs[i] == Height(items[i]);
  }

  lemma EntryHeight(e: seq<(string, Val)>, i: nat)
    requires i < |e|
    ensures Height(e[i].1) <= HeightEntries(e)
    ensures Height(VReadonly(e)) == Height(VDict(e))
  {
    var hs := seq(|e|, j requires 0 <= j < |e| => Height(e[j].1));
    assert hs[i] == Height(e[i].1);
  }

  /** Entries drawn from `b` are no deeper than `b`. */
  lemma SubEntriesHeight(a: seq<(string, Val)>, b: seq<(string, Val)>)
    requires forall i :: 0 <= i < |a| ==> a[i] in b
    ensures HeightEntries(a) <= HeightEntries(b)
  {
    var ha := seq(|a|, j requires 0 <= j < |a| => Height(a[j].1));
    forall i | 0 <= i < |a| ensures ha[i] <= HeightEntries(b) {
      var j :| 0 <= j < |b| && b[j] == a[i];
      EntryHeight(b, j);
    }
    if |a| > 0 {
      var m := MaxOf(ha);
      assert m in ha;
    }
  }

  lemma AllItemsHeight(items: seq<Val>)
    ensures forall i :: 0 <= i < |items| ==> Height(items[i]) < Height(VList(items))
  {
    forall i | 0 <= i < |items| ensures Height(items[i]) < Height(VList(items)) {
      ItemHeight(items, i);
    }
  }

  lemma AllEntriesHeight(e: seq<(string, Val)>)
    ensures forall i :: 0 <= i < |e| ==> Height(e[i].1) <= HeightEntries(e)
  {
    forall i | 0 <= i < |e| ensures Height(e[i].1) <= HeightEntries(e) {
      EntryHeight(e, i);
    }
  }

  /** A value looked up in a mapping is no deeper than the mapping's values. */
  lemma GetHeight(e: seq<(string, Val)>, k: string)
    requires k in Keys(e)
    ensures Height(Get(e, k).value) <= HeightEntries(e)
  {
    var j :| 0 <= j < |e| && e[j] == (k, Get(e, k).value);
    EntryHeight(e, j);
  }

  /** Context key given to an element's coercion: its position in a list or
      its key in a mapping. */
  function IndexKey(i: nat): Val { VNum(i as real) }

  /** The record under construction, as coercion sees it through the
      `parent` context entry: its schema type and the attributes set on it
      before its fields were constructed. */
  datatype Parent = Parent(cls: string, extra: seq<(string, Val)>)

  /** The `context` dict threaded through coercion. */
  datatype Context = Context(key: Option<Val>, parent: Option<Parent>)

  const EmptyContext := Context(None, None)
}

=== FILE: wrappers.dfy ===
/** Failure-compatible wrappers used throughout the model: an optional value and
    a result that is either a value or an error. Both work with `:-`. */
module Wrappers {

  datatype Option<+T> = None | Some(value: T) {
    predicate IsFailure() { None? }

    function PropagateFailure<U>(): Option<U>
      requires None?
    {
      None
    }

    function Extract(): T
      requires Some?
    {
      value
    }
  }

  datatype Result<+T, +E> = Ok(value: T) | Err(error: E) {
    predicate IsFailure() { Err? }

    function PropagateFailure<U>(): Result<U, E>
      requires Err?
    {
      Err(error)
    }

    function Extract(): T
      requires Ok?
    {
      value
    }
  }
}
